=== FILE: README.md ===
# DEP metadata engine, DQA and obtain helpers — a Dafny model

This project models the core of the Keck Observatory Archive's data
evaluation and processing (DEP) pipeline:

- **The metadata engine** (`dep_pipeline/core/metadata.py`):
  - `check_keyword_val` screens and coerces one header value against its keyword definition (type, width, null) and counts type mismatches and truncations.
  - `truncate_float` shortens a float's text but keeps its exponent.
  - `make_metadata` and `add_fits_metadata_line` write the IPAC-style `metadata.table`: four header rows (names, types, units, null markers), then one fixed-width line per FITS file.
  - `check_keyword_existance` and `is_keyword_skip` report header keywords the definitions do not know, and non-null keywords a header lacks.
  - `load_metadata_file_as_df` reads such a table back. Its column widths come from the bars of the first line. Lines whose fields `str.strip()` empties are skipped as blank, and a file with no line to name the columns raises `EmptyDataError`.
  - `compare_meta_files` and `val_smart_diff` compare the tables of several runs with the first one.
- **The DQA step** (`dep_pipeline/primitives/dep_dqa.py`):
  - `check_koaid`: a KOAID is refused when it is missing, when it is a duplicate, or when its date lies too far from the night's.
  - `_perform` reads the locate list `dep_locate<instr>.txt` from the staging directory and raises when it does not exist; an empty list goes to the zero-files notice.
  - The loop over the located files keeps `NC`/`NS` KOAIDs under `scam/` and `spec/`, counts science frames, and writes the DQA list and `filelist.table`.
  - `get_tpx_pi_str` and `get_tpx_sdata_str`.
  - `make_fits_extension_metadata_files` writes one table per table HDU.
- **The obtain step** (`dep_pipeline/primitives/dep_obtain.py`):
  - It chooses the night's OA and maps `NIRSPEC` to `NIRSP`.
  - It writes the tab-separated obtain file, or, when nothing is scheduled, a `not scheduled` file and a line of `NONE`s.
  - `get_obtain_data` reads the obtain file back, accepting both the tab and the space format.

How the outside world is modelled:

- The file system is a map from path to content. A path missing from the map is a path that does not exist.
- Header values are a tagged variant: `str`, `int`, `bool`, a `float` kept as its text, or astropy's `Undefined`.
- Several things the engine cannot see into become function parameters:
  - Python's `float()`, `int()` and `"{:.2f}".format(float(x))` on text. Arithmetic on what `float()` returns, such as the night's end in seconds, is exact rather than double-precision;
  - the FITS HDUs of a file;
  - the answers of the telescope API (night staff, schedule, observers).
- A Python exception is a `Failure` value of a `Result`, or a named outcome (`Crashed`, `Raised`).
- Each written file is its full text, including the part written before an exception stops the writer.

Every round trip in the model is proved. A table written with distinct keywords loads back with the keywords as its columns. Each record that is not all blank comes back as one row, in order, and each value reads back the way `read_fwf` reads it: filler stripped, and one of pandas' missing-value tokens read as missing. A record whose values are all whitespace disappears, because `read_fwf` skips blank lines. The extension tables read back the same way. The DQA list, `filelist.table`, the obtain file and the `/`-joined TPX strings give back exactly what was written.

Behaviour of the code the model keeps:

- **Overwide schema row.** `make_metadata` opens the output file for writing before it checks the widths. A keyword wider than its column therefore raises only after the file has been emptied (`'w+'` at metadata.py:50, the width check at metadata.py:53-55). `Writer.MakeMetadata` yields an empty text together with the configuration error.
- **Rendered width.** A rendered value is `colSize + 1` characters (a leading space, then the padded value) only when the checked value fits. `truncate_float` keeps the whole exponent, so a double whose exponent is longer than its column stays wider (`Validator.TruncateFloatOverflow`). Truncation is idempotent only when the exponent fits (`Validator.TruncateIdempotent`).
- **Null violation.** It aborts the run after the fields that come before it have been written, so the file ends in a partial line.
- **`datetime` columns.** The format `%Y-%m-%d %H:%i:%s` uses directives Python does not know, so every non-null `datetime` value counts as a type mismatch (`Validator.DatetimeAlwaysMismatch`).

## Model

| member | source | states |
|---|---|---|
| Validator.Coerce | dep_pipeline/core/metadata.py:178-181 | the error sentinel `#### Error ###` becomes `null`; every other value is passed on unchanged |
| Validator.TruncateFloat | dep_pipeline/core/metadata.py:263-272 | without an `e`/`E` the result is the first `n` characters. With one, the result ends in the exponent and is preceded by a prefix of the mantissa. The result fits in `n` exactly when the exponent does |
| Validator.TruncateFloatSplit | dep_pipeline/core/metadata.py:263-272 | for `m e x`, the mantissa is `m` and the exponent `e x`. The result keeps `n - 1 - |x|` characters of `m` and then the whole exponent |
| Validator.TruncateFloatOverflow | dep_pipeline/core/metadata.py:271-272 | an exponent longer than the width is kept whole: `1e-05` cut to 2 is `e-05` |
| Validator.TruncateFloatPlain | dep_pipeline/core/metadata.py:263-272 | `12.345678` cut to 8 is `12.34567` |
| Validator.TypeCheck | dep_pipeline/core/metadata.py:191-227 | raises (a `TypeError` from `strptime`) exactly when a `date`/`datetime` column meets a non-text value. Otherwise it returns the coerced value and flags a mismatch exactly when the value's type is not the column's |
| Validator.Truncate | dep_pipeline/core/metadata.py:230-240 | cuts exactly when the value's text is longer than the column. A non-double is cut to a prefix of exactly the column width. A double keeps its exponent |
| Validator.TruncateIdempotent | dep_pipeline/core/metadata.py:230-240 | when the exponent fits, the cut value fits its column, and cutting it again changes nothing and counts no truncation |
| Validator.CheckKeywordVal | dep_pipeline/core/metadata.py:173-245 | a null in a non-null column fails, and so does a non-text date. A permitted null comes back unchanged. The type and truncation counters each rise by one exactly for a mismatch or an overlong value. A value that fits is written as coerced |
| Validator.CharCoercions | dep_pipeline/core/metadata.py:194-200 | in a `char` column `True`/`False` become `T`/`F`, and the integer 0 becomes blank without a warning |
| Validator.CharOtherTypesCount | dep_pipeline/core/metadata.py:201-203 | in a `char` column a float or a non-zero integer is accepted but counts as a type mismatch |
| Validator.DatetimeAlwaysMismatch | dep_pipeline/core/metadata.py:222-227 | every non-null text in a `datetime` column counts as a type mismatch |
| Validator.FailureIgnoresWarns | dep_pipeline/core/metadata.py:173-245 | whether a value is refused does not depend on the counters so far |
| Validator.RecheckIsNoop | dep_pipeline/core/metadata.py:173-245 | when the exponent fits, checking the checked value a second time changes neither the value nor the truncation count |
| Dates.StrptimeDate | dep_pipeline/core/metadata.py:215-220 | a text `strptime(.., '%Y-%m-%d')` accepts denotes a real calendar date |
| Dates.FormatDateParses | dep_pipeline/core/metadata.py:215-220 | every calendar date written as `YYYY-MM-DD` parses back to itself |
| Dates.StrptimeShortFields | dep_pipeline/core/metadata.py:217 | one-digit month and day fields are accepted: `2021-1-5` |
| Dates.StrptimeRejectsFeb30 | dep_pipeline/core/metadata.py:217 | a well-formed text naming a day the month lacks is refused |
| Writer.Resolve | dep_pipeline/core/metadata.py:129-139 | the header value wins, found under the upper-cased keyword as astropy looks it up; then the extra value, by exact key. A keyword in neither, or `Undefined` in the header, becomes `null` |
| Writer.ResolveIgnoresCase | dep_pipeline/core/metadata.py:130 | two spellings of a keyword that differ only in letter case find the same header value |
| Writer.ResolveLowerCase | dep_pipeline/core/metadata.py:130 | a `koaid` column finds the header card `KOAID` |
| Writer.HeaderShadowsExtra | dep_pipeline/core/metadata.py:130-131 | for a keyword the header has, the extra data play no part |
| Writer.FirstOverwide | dep_pipeline/core/metadata.py:53-55 | finds the first definition whose keyword is wider than its column, or none when every keyword fits |
| Writer.NameRowWidth | dep_pipeline/core/metadata.py:57-59 | the name row is one bar wider than the sum of the padded cells |
| Writer.MakeMetadata | dep_pipeline/core/metadata.py:27-105 | fails with the configuration error exactly when some keyword is wider than its column, and then the file is left empty |
| Writer.MakeMetadataComplete | dep_pipeline/core/metadata.py:27-148 | a run ends without error exactly when every keyword fits its column and every record passes every field check |
| Writer.MakeMetadataPreamble | dep_pipeline/core/metadata.py:57-73 | the file begins with the four header rows: names, types, blank units, null markers |
| Writer.MakeMetadataText | dep_pipeline/core/metadata.py:57-91 | a complete run's file is the four header rows followed by one line per record, each ended by a newline |
| Writer.MakeMetadataWarns | dep_pipeline/core/metadata.py:76-91 | a complete run's counters are the sums of the per-field mismatches and truncations over all records |
| Writer.MakeMetadataBody | dep_pipeline/core/metadata.py:76-91 | without a configuration error, the run is the header rows followed by the record loop started from zero counters |
| Writer.CheckShift | dep_pipeline/core/metadata.py:142 | checking a value adds the same increments to any counters. The verdict and the value do not depend on them |
| Writer.RenderFieldsOutcome | dep_pipeline/core/metadata.py:122-146 | a record's line fails exactly when some field fails, and then with the first failing field's error |
| Writer.RenderFieldsWarns | dep_pipeline/core/metadata.py:122-146 | a record adds its own number of mismatching and overlong fields to the counters |
| Writer.RenderFieldsWidth | dep_pipeline/core/metadata.py:144-146 | when every checked value fits, a record's line is exactly as wide as the header rows |
| Writer.RenderFieldsBlocks | dep_pipeline/core/metadata.py:144-146 | a passing record's line is its fields' blocks, each a space and the value padded to the column |
| Writer.RenderTextIgnoresWarns | dep_pipeline/core/metadata.py:122-146 | the text written for a record does not depend on the counters so far |
| Writer.WriteRecordsOk | dep_pipeline/core/metadata.py:82-91 | the record loop completes exactly when every record passes |
| Writer.WriteRecordsText | dep_pipeline/core/metadata.py:82-91 | a completed loop writes the records' lines in order |
| Writer.WriteRecordsError | dep_pipeline/core/metadata.py:82-91 | a failed loop stops at the first failing field of some record, with that field's error |
| Writer.WriteRecordsNoConfigError | dep_pipeline/core/metadata.py:82-91 | the record loop never raises the configuration error |
| Writer.WriteRecordsWarns | dep_pipeline/core/metadata.py:82-91 | a completed loop adds the per-record counts to the counters |
| Writer.IsKeywordSkip | dep_pipeline/core/metadata.py:248-252 | a keyword is skipped exactly when some skip pattern occurs in it |
| Writer.KeywordReports | dep_pipeline/core/metadata.py:155-170 | the unexpected keywords are header keywords that no definition names, so none is also reported missing. Adding a definition for a reported keyword takes exactly that keyword off the report |
| Writer.MissingKeywords | dep_pipeline/core/metadata.py:165-170 | reported are exactly the non-null defined keywords the header lacks in any letter case, other than `PROGTITL` and `PROPINT` |
| Reader.SegmentWidths | dep_pipeline/core/metadata.py:405-411 | pieces of one character or none are skipped. Every width kept is at least 3 |
| Reader.SegmentWidthsLong | dep_pipeline/core/metadata.py:405-411 | when every piece has two characters or more, each width is that piece's length plus one |
| Reader.FixedFields | dep_pipeline/core/metadata.py:414 | one field per width, none longer than its width |
| Reader.FixedFieldsPrefix | dep_pipeline/core/metadata.py:414 | the fields are read from the line in order: together they are a prefix of it |
| Reader.FixedFieldsOfBlocks | dep_pipeline/core/metadata.py:414 | a line made of blocks, read with the blocks' lengths, gives back the blocks |
| Reader.PaddedFieldStrips | dep_pipeline/core/metadata.py:414 | a value written as a space and left-justified is read back as the value with its filler stripped |
| Reader.ColumnNameOfCell | dep_pipeline/core/metadata.py:415-416 | a bar, a keyword and padding read back as the keyword |
| Reader.UnnamedColumn | dep_pipeline/core/metadata.py:414-416 | a header field that is all filler names its column `Unnamed: i` |
| Reader.BlankFieldsEach | dep_pipeline/core/metadata.py:414 | a line's fields are blank exactly when `str.strip()` empties each of them, that is, each is all whitespace |
| Reader.BlankLineSkipped | dep_pipeline/core/metadata.py:414 | a line that is blank at the widths adds no row, wherever it stands |
| Reader.HeaderAndRowsNone | dep_pipeline/core/metadata.py:414 | there is no table (`EmptyDataError`) exactly when every unskipped line is blank, its fields all whitespace |
| Reader.HeaderAfterBlanks | dep_pipeline/core/metadata.py:414-416 | the header is the first unskipped line with a field that is not all whitespace, and the rows come from the lines after it |
| Reader.BlanksSkipped | dep_pipeline/core/metadata.py:414 | blank lines before the header change nothing: the result is that of the lines after them |
| Reader.Basename | dep_pipeline/core/metadata.py:418 | the table's name is what follows the path's last `/`, or the whole path when it has none |
| Reader.Load | dep_pipeline/core/metadata.py:398-421 | `False` exactly when the path does not exist. An empty file raises `EmptyDataError`. A loaded table is named by the path's base name and has one cell per column in every row |
| Roundtrip.PipeRowSplit | dep_pipeline/core/metadata.py:405-406 | a bar-separated row of cells without bars splits back into an empty piece, the cells and an empty piece |
| Roundtrip.PipeRowWidths | dep_pipeline/core/metadata.py:405-411 | the widths read from a written bar row are those of its cells |
| Roundtrip.HeaderWidths | dep_pipeline/core/metadata.py:57-59 | the widths read from the name row are the column widths plus one, for columns at least 2 wide |
| Roundtrip.WideWidthsCount | dep_pipeline/core/metadata.py:409-411 | the name row yields a width for every column exactly when every column is at least 2 wide |
| Roundtrip.WideWidthsSpans | dep_pipeline/core/metadata.py:409-411 | for columns at least 2 wide, each width read is the column size plus one |
| Roundtrip.NameRowReads | dep_pipeline/core/metadata.py:414-416 | for distinct keywords at least two wide, the column names read from the name row are the keywords |
| Roundtrip.ValueLineReads | dep_pipeline/core/metadata.py:144-148 | a written value line reads back as the values, stripped |
| Roundtrip.NonBlankRecordsKept | dep_pipeline/core/metadata.py:414 | no record kept has only whitespace values, and when no record is blank all of them are kept |
| Roundtrip.DataRowsOfValueLines | dep_pipeline/core/metadata.py:144-148 | the written value lines read back as the records that are not all blank |
| Roundtrip.TableTextRows | dep_pipeline/core/metadata.py:414 | the data rows read from a written table are its records that are not all blank, each read back as `read_fwf` reads its values, in order |
| Roundtrip.LoadTableText | dep_pipeline/core/metadata.py:398-421 | loading a written table with distinct keywords gives its base name, the keywords as columns, and the records that are not all blank, read back value by value |
| Roundtrip.WrittenTableText | dep_pipeline/core/metadata.py:27-91 | the file a complete run writes is the table of the records' checked values |
| Roundtrip.LoadWritten | dep_pipeline/core/metadata.py:27-148 | for a schema whose columns are at least 2 wide and whose keywords are distinct, non-empty, unpadded and free of bars and line breaks: when every record passes and every written value fits its column and has no line break, `load_metadata_file_as_df` gives back the keywords and every record that is not all blank, read back value by value, from what `make_metadata` wrote |
| Compare.UnescapeEscape | dep_pipeline/core/metadata.py:391 | `html.escape` is undone by unescaping |
| Compare.EscapeInjective | dep_pipeline/core/metadata.py:391 | two texts escape alike exactly when they are equal |
| Compare.LoweredDifferMeaning | dep_pipeline/core/metadata.py:384-394 | the last step reports a difference exactly when the texts differ other than in letter case; escaping never changes the answer |
| Compare.SmartDiffMeaning | dep_pipeline/core/metadata.py:363-394 | outside `PROGTITL`, two values differ exactly when their compared forms (missing as blank, two-decimal form when both are numbers) differ other than in case |
| Compare.SmartDiffSelf | dep_pipeline/core/metadata.py:365-367 | outside `PROGTITL` a value never differs from itself, and in every column a missing value never differs from a blank one |
| Compare.ProgtitlIgnoresSecond | dep_pipeline/core/metadata.py:371-372 | as written, the `PROGTITL` verdict does not depend on the second file's value |
| Compare.ProgtitlMeaning | dep_pipeline/core/metadata.py:366-394 | as written, two `PROGTITL` values differ exactly when the first value with its double spaces collapsed once, and that text collapsed a second time, differ after formatting, ignoring case |
| Compare.ProgtitlSelfDiffers | dep_pipeline/core/metadata.py:371-372 | as written, the title `a   b` (three spaces) differs from itself; corrected, it does not |
| Compare.ProgtitlCounterexample | dep_pipeline/core/metadata.py:369-372 | `A` and `B` do not differ as written, and do differ once each value's own spaces are collapsed |
| Compare.SmartDiffFixedMeaning | dep_pipeline/core/metadata.py:363-394 | the corrected comparison agrees outside `PROGTITL`. For `PROGTITL` it compares each value with its own double spaces collapsed |
| Compare.SmartDiffFixedSymmetric | dep_pipeline/core/metadata.py:363-394 | the corrected comparison does not depend on the order of the two values |
| Compare.CellOf | dep_pipeline/core/metadata.py:351-352 | reading a column fails with a key error exactly when the table lacks it, and otherwise gives that column's cell |
| Compare.FirstMatch | dep_pipeline/core/metadata.py:346-347 | `.iloc[0]` of the rows with a KOAID succeeds exactly when some row has it. A table without `KOAID` raises |
| Compare.WarningText | dep_pipeline/core/metadata.py:313-355 | every warning starts `Meta compare: ` |
| Compare.OtherColumns | dep_pipeline/core/metadata.py:309-315 | adds one warning per column of the other table the base lacks (unless skipped or silenced). Records exactly the shared columns |
| Compare.BaseColumns | dep_pipeline/core/metadata.py:316-322 | adds one warning per base column the other table lacks (unless skipped or silenced). Records exactly the shared columns |
| Compare.OtherRows | dep_pipeline/core/metadata.py:326-333 | raises exactly when there are rows and a table lacks `KOAID`. Otherwise it adds only missing-in-base warnings |
| Compare.BaseRows | dep_pipeline/core/metadata.py:335-342 | raises exactly when there are rows and a table lacks `KOAID`. Otherwise it adds only missing-in-other warnings |
| Compare.CompareValues | dep_pipeline/core/metadata.py:348-355 | with every compared column present it succeeds, and it adds a warning only for a non-skipped column whose values differ |
| Compare.CompareKoaids | dep_pipeline/core/metadata.py:345-355 | adds only value-difference warnings for non-skipped columns that differ |
| Compare.ComparePair | dep_pipeline/core/metadata.py:303-357 | a pair's result is headed `==> comparing (0)<base> to (<i>)<name>:` |
| Compare.PairFreshSucceeds | dep_pipeline/core/metadata.py:303-357 | comparing two tables that both have `KOAID`, from empty accumulators, never raises |
| Compare.PairMissingKoaids | dep_pipeline/core/metadata.py:326-342 | a missing-KOAID warning is reported exactly for a KOAID one table has and the other lacks, in each direction |
| Compare.PairReported | dep_pipeline/core/metadata.py:303-355 | every warning of a pair is of a kind the comparison may report |
| Compare.CompareAccumulating | dep_pipeline/core/metadata.py:276-359 | as written: no table raises, otherwise one result per table after the first |
| Compare.CompareFromHeadings | dep_pipeline/core/metadata.py:304 | the k-th result compares the base with the k-th other table |
| Compare.ComparePairwise | dep_pipeline/core/metadata.py:276-359 | corrected: no table raises, otherwise one result per table after the first |
| Compare.ComparePairwiseSucceeds | dep_pipeline/core/metadata.py:300-357 | corrected, tables that all have `KOAID` always compare, each result headed by its pair |
| Compare.AccumulatingAgreesOnTwo | dep_pipeline/core/metadata.py:287-288 | with at most two tables the accumulating and the pairwise comparisons agree |
| Compare.AccumulatingCrash | dep_pipeline/core/metadata.py:333-347 | as written, a base and a first table that hold KOAID `K1`, then a second table without rows, raise a missing-row error on the second |
| Compare.CrashCarried | dep_pipeline/core/metadata.py:287-288 | the crash comes from the KOAID list carried over from the first pair |
| Compare.CrashAvoidedPairwise | dep_pipeline/core/metadata.py:300-357 | the same three tables compare without raising once each pair starts afresh |
| Compare.LoadAll | dep_pipeline/core/metadata.py:291-295 | loading succeeds exactly when every path loads as a table, and then each table is that path's. Otherwise it stops at the first path that does not load |
| Compare.LoadAllStops | dep_pipeline/core/metadata.py:291-295 | loading stops with `False` exactly when the first path that does not load is missing, and with `EmptyDataError` exactly when that path exists |
| Compare.LoadedWellFormed | dep_pipeline/core/metadata.py:398-421 | every loaded row has one cell per column |
| Compare.CompareMetaFiles | dep_pipeline/core/metadata.py:276-359 | gives `False` exactly when the first path that does not load is missing, and raises `EmptyDataError` exactly when it exists. An empty list raises. Otherwise one result per file after the first |
| Compare.CompareMetaFilesFixed | dep_pipeline/core/metadata.py:276-359 | the corrected comparison has the same `False`, `EmptyDataError` and empty-list outcomes |
| Compare.MetaFilesCrash | dep_pipeline/core/metadata.py:345-347 | files loading as the three crash tables make the written comparison raise and the corrected one complete |
| Compare.MetaFilesFixedCompletes | dep_pipeline/core/metadata.py:276-359 | corrected, files that all exist and have `KOAID` always compare, one result per file after the first |
| Dqa.CheckKoaid | dep_pipeline/primitives/dep_dqa.py:334-363 | a missing or false KOAID is refused as bad, a recorded one as duplicate, a non-text one raises. An accepted KOAID is the header's text and is not yet recorded |
| Dqa.DateWindow | dep_pipeline/primitives/dep_dqa.py:347-363 | the date test refuses only as out of range, and raises only for text that does not split or parse |
| Dqa.GapTest | dep_pipeline/primitives/dep_dqa.py:354-361 | after the dates parse, a KOAID is refused only as out of range |
| Dqa.KoaidSplit | dep_pipeline/primitives/dep_dqa.py:349 | a KOAID `prefix.kdate.ktime.postfix` splits into its four parts |
| Dqa.DashedCompact | dep_pipeline/primitives/dep_dqa.py:354 | re-dashing the compact `YYYYMMDD` of a date gives `YYYY-MM-DD` |
| Dqa.CompactInjective | dep_pipeline/primitives/dep_dqa.py:352-355 | two dates with the same compact form are the same date |
| Dqa.CompactFormatted | dep_pipeline/primitives/dep_dqa.py:352 | removing the dashes of a `YYYY-MM-DD` date gives its compact form |
| Dqa.DateWindowOfDates | dep_pipeline/primitives/dep_dqa.py:347-363 | for a KOAID dated `d` on night `u`: refused exactly when the dates are more than a day apart and the KOAID's time is before the night's end. A time that does not parse then raises |
| Dqa.NightKoaidAccepted | dep_pipeline/primitives/dep_dqa.py:347-363 | a new KOAID dated within a day of the night is accepted |
| Dqa.FarKoaidRejected | dep_pipeline/primitives/dep_dqa.py:359-361 | a new KOAID dated further away is refused exactly when its time is before the night's end, and accepted otherwise |
| Dqa.KoaidPathInjective | dep_pipeline/primitives/dep_dqa.py:117-120 | the recorded path ends with the KOAID, and two KOAIDs (not already `scam/` or `spec/` paths) share a recorded path exactly when they are equal |
| Dqa.PrefixedNeverDuplicate | dep_pipeline/primitives/dep_dqa.py:115-120 | an `NC`/`NS` KOAID is never among the recorded paths, so it is never refused as a duplicate |
| Dqa.CheckKoaidFixed | dep_pipeline/primitives/dep_dqa.py:334-363 | corrected: the duplicate test looks for the KOAID's recorded path |
| Dqa.TextToWindow | dep_pipeline/primitives/dep_dqa.py:342-363 | for a new text KOAID the check is the date test alone |
| Dqa.LocatedFiles | dep_pipeline/primitives/dep_dqa.py:75-79 | one stripped path per line of the locate list |
| Dqa.Keep | dep_pipeline/primitives/dep_dqa.py:114-120 | a kept file extends the path, base-name and KOAID lists together, the KOAID by its recorded path |
| Dqa.FateOf | dep_pipeline/primitives/dep_dqa.py:99-112 | a file goes to `udf` exactly when a check fails, the KOAID is refused, or the level-0 file is not written. It is kept only when all pass |
| Dqa.ProcessFiles | dep_pipeline/primitives/dep_dqa.py:95-125 | as written: the three lists stay in step, and every file is either kept or copied to `udf` |
| Dqa.ProcessFilesFixed | dep_pipeline/primitives/dep_dqa.py:95-125 | corrected: the same, the kept lists only grow, and the science count rises by exactly the number of science flags among the newly kept files |
| Dqa.KeptFlagsFromFiles | dep_pipeline/primitives/dep_dqa.py:114-125 | each newly kept path carries the science flag of a located file with that path |
| Dqa.TruesAppend | dep_pipeline/primitives/dep_dqa.py:125 | keeping a file raises the science count by one exactly when it is a science frame |
| Dqa.ZeroFilesRaise | dep_pipeline/primitives/dep_dqa.py:82-85 | as written, `_perform` raises `NameError` exactly when no file was located |
| Dqa.LoopNeverRaises | dep_pipeline/primitives/dep_dqa.py:95-125 | the loop as written raises no error the KOAID check does not raise, other than the science counter's |
| Dqa.LoopFixedNeverRaises | dep_pipeline/primitives/dep_dqa.py:95-125 | the corrected loop raises no error the KOAID check does not raise |
| Dqa.NightCheckRaises | dep_pipeline/primitives/dep_dqa.py:334-363 | the night's KOAID check never raises the zero-files `NameError` or the missing-locate-file exception |
| Dqa.Observed | dep_pipeline/primitives/dep_dqa.py:95-104 | the loop sees one file per located path, in order |
| Dqa.MissingLocateRaises | dep_pipeline/primitives/dep_dqa.py:68-71 | the step raises the missing-locate-file exception exactly when `stage/dep_locate<instr>.txt` does not exist, as written and corrected |
| Dqa.EmptyLocateList | dep_pipeline/primitives/dep_dqa.py:68-85 | as written, the step raises the zero-files `NameError` exactly when the locate list exists and lists no file; corrected, it then returns with nothing kept |
| Dqa.NoFilesOnlyEmpty | dep_pipeline/primitives/dep_dqa.py:75-79 | the locate list lists no file exactly when the file is empty |
| Dqa.ZeroFilesReturn | dep_pipeline/primitives/dep_dqa.py:82-85 | corrected, a night with no located files returns with nothing kept, copied or counted |
| Dqa.NoScienceAgrees | dep_pipeline/primitives/dep_dqa.py:125 | without science frames the loop as written and the corrected loop agree |
| Dqa.KeptScienceRaises | dep_pipeline/primitives/dep_dqa.py:125 | as written, the first kept science frame raises `UnboundLocalError` |
| Dqa.RecordsOnce | dep_pipeline/primitives/dep_dqa.py:103-120 | when the check refuses recorded paths, no KOAID path is recorded twice |
| Dqa.FixedRecordsOnce | dep_pipeline/primitives/dep_dqa.py:95-125 | the corrected loop never records a KOAID path twice |
| Dqa.KeptTwice | dep_pipeline/primitives/dep_dqa.py:114-120 | a check that lets an `NC` KOAID through again keeps the file twice |
| Dqa.KeptOnce | dep_pipeline/primitives/dep_dqa.py:114-120 | a check that refuses it the second time keeps it once and copies the repeat to `udf` |
| Dqa.PrefixedRechecked | dep_pipeline/primitives/dep_dqa.py:343-346 | an `NC` KOAID passes the written check again after being recorded, and the corrected check refuses it |
| Dqa.PrefixedDuplicateKept | dep_pipeline/primitives/dep_dqa.py:95-125 | as written, the same `NC` file met twice is kept twice, under the same `scam/` path |
| Dqa.PrefixedDuplicateDropped | dep_pipeline/primitives/dep_dqa.py:95-125 | corrected, the repeat goes to `udf` |
| Dqa.DqaListReadsBack | dep_pipeline/primitives/dep_dqa.py:140-142 | the DQA list, read the way the locate list is read, gives back the kept paths |
| Dqa.FileListReadsBack | dep_pipeline/primitives/dep_dqa.py:145-150 | `filelist.table` holds one line per kept file and reads back as the pairs of base name and KOAID path, then the indented total |
| Tpx.Distinct | dep_pipeline/primitives/dep_dqa.py:408-412 | the kept items are exactly the items, without repeats |
| Tpx.DistinctOrdered | dep_pipeline/primitives/dep_dqa.py:408-412 | items are kept in the order of their first appearance |
| Tpx.JoinOrNone | dep_pipeline/primitives/dep_dqa.py:414-415 | the `/`-join, or `NONE` when that is empty |
| Tpx.JoinOrNoneSplits | dep_pipeline/primitives/dep_dqa.py:414-415 | a non-empty join of items without `/` splits back into the items |
| Tpx.PiStr | dep_pipeline/primitives/dep_dqa.py:403-416 | a night without programs gives `NONE` |
| Tpx.PiStrReadsBack | dep_pipeline/primitives/dep_dqa.py:403-416 | the PI string splits back into the distinct PIs. A name is in it exactly when some program has that PI |
| Tpx.GroupEnd | dep_pipeline/primitives/dep_dqa.py:392 | the lazy group ends at the first `/` after it, unless a line break comes first |
| Tpx.SearchFrom | dep_pipeline/primitives/dep_dqa.py:392 | `re.search` finds the leftmost position where `/sdata`, in any case, is followed by a closed group |
| Tpx.SdataItems | dep_pipeline/primitives/dep_dqa.py:389-396 | the groups found are exactly those of the matching file paths, none containing `/` |
| Tpx.SdataStr | dep_pipeline/primitives/dep_dqa.py:384-400 | a night without programs gives `NONE` |
| Tpx.SdataStrReadsBack | dep_pipeline/primitives/dep_dqa.py:384-400 | the sdata string splits back into the distinct directory numbers |
| Tpx.SearchExample | dep_pipeline/primitives/dep_dqa.py:392-394 | `/s/SData12/a` gives `12`, and `/sdata12` without a closing `/` gives nothing |
| Extension.ColWidths | dep_pipeline/primitives/dep_dqa.py:245-249 | each column is as wide as the larger of its format's width and its name. Building the widths raises exactly when some format's width does not parse |
| Extension.RowTextsCut | dep_pipeline/primitives/dep_dqa.py:270-275 | every row kept has exactly one cell per column, the row's first cells, and a row already that wide comes through unchanged |
| Extension.HduOutput | dep_pipeline/primitives/dep_dqa.py:234-284 | an HDU gives a table exactly when it is a table HDU whose widths and rows can be built. The table's file is named after the file, the index and the HDU |
| Extension.FileTables | dep_pipeline/primitives/dep_dqa.py:223-226 | only files with the suffix contribute tables |
| Extension.ExtFilesListed | dep_pipeline/primitives/dep_dqa.py:223-282 | every table of a listed file with the suffix is written |
| Extension.ExtFilesSource | dep_pipeline/primitives/dep_dqa.py:223-282 | every table written comes from a listed file with the suffix |
| Extension.ExtTextIsTable | dep_pipeline/primitives/dep_dqa.py:251-275 | an extension table is the HDU comment followed by a metadata-style table |
| Extension.CommentLine | dep_pipeline/primitives/dep_dqa.py:252 | the comment is a line of its own |
| Extension.ExtSchemaReadable | dep_pipeline/primitives/dep_dqa.py:255-267 | for distinct column names, the extension layout is a readable schema whose keywords are the column names |
| Extension.ExtTableReadsBack | dep_pipeline/primitives/dep_dqa.py:244-275 | for distinct column names, the table without its comment loads back as the column names and the rows that are not all blank, read back cell by cell |
| Extension.ExtFileNameOfSuffix | dep_pipeline/primitives/dep_dqa.py:278 | a name whose only occurrence of the suffix is at its end becomes `<stem>.ext<i>.<hdu>.tbl` |
| Obtain.RowOf | dep_pipeline/primitives/dep_obtain.py:156-158 | column `i` holds the `i`-th value, or `None` when the line has fewer values |
| Obtain.LineValues | dep_pipeline/primitives/dep_obtain.py:154-155 | a line with a tab splits on tabs, otherwise on spaces, and the values joined back give the stripped line |
| Obtain.GetObtainData | dep_pipeline/primitives/dep_obtain.py:137-141 | raises `get_obtain_data: file "<path>" does not exist!!` exactly when the file is missing |
| Obtain.OaOf | dep_pipeline/primitives/dep_obtain.py:55-63 | `None` without staff data; a single record's `Alias` if it has one; otherwise the alias of the last `oa`/`oar` in the list |
| Obtain.OaScanLast | dep_pipeline/primitives/dep_obtain.py:60-63 | the overwriting loop ends with the alias of the last `oa`/`oar` entry |
| Obtain.LastOaIs | dep_pipeline/primitives/dep_obtain.py:60-63 | that alias is the one of the entry after which no `oa`/`oar` follows |
| Obtain.NoOaKeeps | dep_pipeline/primitives/dep_obtain.py:60-63 | without an `oa`/`oar` entry the OA stays `None` |
| Obtain.InstrBase | dep_pipeline/primitives/dep_obtain.py:68 | `NIRSPEC` becomes `NIRSP`, every other instrument stays |
| Obtain.SingleRecordAsList | dep_pipeline/primitives/dep_obtain.py:72-80 | a single schedule record is written exactly as a list of one, and an empty list exactly as no schedule |
| Obtain.EntryFields | dep_pipeline/primitives/dep_obtain.py:89 | eleven fields, the account never blank (`-` instead) |
| Obtain.ObtainOutput | dep_pipeline/primitives/dep_obtain.py:71-80 | the not-scheduled file `<instr> not scheduled` is written exactly when the schedule is empty |
| Obtain.ParseJoined | dep_pipeline/primitives/dep_obtain.py:154 | a tab-joined line of clean fields parses back into those fields |
| Obtain.ParseSpaced | dep_pipeline/primitives/dep_obtain.py:155 | a space-joined line of clean, space-free fields parses back into those fields |
| Obtain.ReadsBackLines | dep_pipeline/primitives/dep_obtain.py:137-162 | an existing file of tab-joined clean lines reads back as one row per line, in order, each row the line's fields |
| Obtain.ScheduledReadsBack | dep_pipeline/primitives/dep_obtain.py:84-112 | the obtain file of a scheduled night reads back as one row per entry with the OA, account, observers and times written |
| Obtain.NotScheduledReadsBack | dep_pipeline/primitives/dep_obtain.py:76-80 | the obtain file of an unscheduled night reads back as one row: the date, the OA and nine `NONE`s |

## Left out

- Logging, `log_msg`, md5 tables (`make_dir_md5_table`), `os.walk` over the level-0 directory, astropy's file reading, `shutil.copy2`, jpg making: I/O. The FITS files reach the writer as a sequence of records, and reach the DQA loop as their observable outcomes.
- Reading the keyword definitions with `pd.read_csv`: the schema is a sequence of field definitions.
- `pd.read_fwf`'s type inference: a read cell is missing when its stripped text is one of the default missing-value tokens of pandas 1.x (pandas 2 also counts `None`), and otherwise it is that text. Numbers are compared through the formatting parameter.
- Reader.Load: pandas renames a repeated column name (`X`, `X.1`). That renaming is not modelled, so the loading round trips require distinct keywords.
- Roundtrip.LoadTableText: requires distinct keywords, because a repeated column name is renamed on loading.
- Roundtrip.LoadWritten: requires distinct keywords, for the same reason.
- Roundtrip.NameRowReads: requires distinct keywords, for the same reason.
- Extension.ExtTableReadsBack: requires distinct column names, for the same reason.
- Writer.Resolve: astropy's `HIERARCH` and record-valued keyword cards are not modelled. Every header lookup upper-cases the keyword, as astropy does for a standard card.
- `Lower` and `Upper`: only ASCII letters change case, not the rest of Unicode, so a header keyword is matched case-insensitively only in its ASCII letters.
- Dates.StrptimeDate: `\d` is taken as the ASCII digits only.
- Compare.SmartDiffSelf: a value is promised not to differ from itself only outside `PROGTITL`, because as written a title with a run of three spaces differs from itself (see Findings).
- Dqa.ZeroFilesRaise: assumes that neither star-imported module (`dep_pipeline.core.create_prog`, `dep_pipeline.core.common`) binds `dqaFile`, `tpx` or `log` at module level. Those modules are not part of this model; if one did bind them, the notice would be sent instead.
- Dqa.PerformStep: `os.path.exists` is membership in the map of existing paths. The exception's message text and the unreachable `return` after it are not modelled.
- Dqa.Observed: `set_fits_file`, `run_dqa_checks`, `write_lev0_fits_file` and `is_science` are the instrument's code. Each located path's outcome is a parameter.
- Writer.IsKeywordSkip: skip patterns are plain words, so `re.search` is a substring test. Regular-expression syntax in a pattern is not modelled.
- Python's `float()`, `int()` and `"{:.2f}"` formatting: parameters, never interpreted.
- The answers of the telescope API (`get_api_data`) and the previous-date computation: parameters. So is the branch that runs the old PHP obtain script for early dates.
- `notify_zero_files`, the TPX database updates, `check_koapi_send`, `create_prog` and `getProgInfo`: database and network side effects.
- The `hduNames` list in `make_fits_extension_metadata_files`: it is never read.
- `removeFilesByWildcard`: deleting files.
- `header_keyword_report`: a report tool outside the pipeline's data path.
- Writer.MakeMetadata: the files come as records in sorted order, each already carrying its extra values; the lookup of `extraData` by file name (an empty map for a file it does not name) is not modelled separately.
- Extension.HduOutput: any exception while building a table is modelled as a width that does not parse or a row shorter than the columns. Other astropy failures are not modelled.
- Obtain.ScheduledReadsBack: an empty `TelNr` at the end of a line is lost by `strip()` when the file is read back, so the read-back lemmas require fields without surrounding blanks or tabs.

## Findings

| source | as written | input that shows it | evidently intended | confidence | as-written member | corrected member |
|---|---|---|---|---|---|---|
| dep_pipeline/core/metadata.py:287-288 | `compareCols` and `compareKoaids` are created once, before the loop over the tables, so every later pair also looks up the KOAIDs found in earlier pairs | three tables: the base and the first other one hold KOAID `K1`, and the second other one has no rows. The lookup of `K1` in it raises `IndexError` at `.iloc[0]` | each pair compares only the columns and KOAIDs the two tables share | high (proved, not executed) | Compare.AccumulatingCrash | Compare.CrashAvoidedPairwise |
| dep_pipeline/core/metadata.py:372 | `val1 = val0.replace('  ',' ')` sets the second value to the first one collapsed a second time, so the second file's value is ignored and a difference can come only from runs of three or more spaces in the first | `PROGTITL` values `A` and `B` are reported equal; the title `a   b` (three spaces) is reported different from itself | `val1 = val1.replace('  ',' ')` | high (proved, not executed) | Compare.ProgtitlCounterexample | Compare.SmartDiffFixedMeaning |
| dep_pipeline/primitives/dep_dqa.py:125 | `sciFiles += 1` increments a local name never assigned in `_perform` | any night with a science frame that passes DQA raises `UnboundLocalError` | count kept science frames (`self.sciFiles`) | high (proved, not executed) | Dqa.KeptScienceRaises | Dqa.ProcessFilesFixed |
| dep_pipeline/primitives/dep_dqa.py:83-85 | `notify_zero_files(self.context.instrObj, dqaFile, tpx, log)` passes names never assigned in `_perform` (line 134 passes `self.dqaFile, self.tpx, self.logger`) | an empty locate file raises `NameError` before the notice is sent, provided neither star-imported module (`dep_pipeline.core.create_prog` at line 15, `dep_pipeline.core.common` at line 17) binds `dqaFile`, `tpx` or `log` at module level | pass the step's own attributes and return | medium (proved under that assumption, not executed) | Dqa.ZeroFilesRaise | Dqa.ZeroFilesReturn |
| dep_pipeline/primitives/dep_dqa.py:118-120 | `NC`/`NS` KOAIDs are recorded as `scam/…`/`spec/…`, but the duplicate test compares the bare KOAID with the recorded list | the same `NC` file listed twice is kept twice | the duplicate test finds a KOAID already recorded | high (proved, not executed) | Dqa.PrefixedDuplicateKept | Dqa.PrefixedDuplicateDropped |

=== FILE: compare.dfy ===
/** Comparing metadata files (`compare_meta_files`, `val_smart_diff`): every
    table is compared with the first one by column names, by the `KOAID`
    of each row, and value by value for the rows and columns both share. */
module Compare {
  import opened Wrappers
  import opened Text
  import opened Values
  import opened Reader

  /** Columns whose values are never compared. */
  const Skips: seq<string> := ["DQA_DATE", "DQA_VERS"]

  // ---------------------------------------------------------------------
  // html.escape and its inverse

  function EscapeChar(c: char): (r: string)
    ensures r != []
  {
    if c == '&' then "&amp;"
    else if c == '<' then "&lt;"
    else if c == '>' then "&gt;"
    else if c == '"' then "&quot;"
    else if c == '\'' then "&#x27;"
    else [c]
  }

  /** Python `html.escape(s)` (with `quote=True`). */
  function HtmlEscape(s: string): string
    decreases |s|
  {
    if s == [] then [] else EscapeChar(s[0]) + HtmlEscape(s[1..])
  }

  /** Undoes exactly the five replacements `HtmlEscape` makes. */
  function Unescape(s: string): string
    decreases |s|
  {
    if s == [] then []
    else if StartsWith(s, "&amp;") then "&" + Unescape(s[5..])
    else if StartsWith(s, "&lt;") then "<" + Unescape(s[4..])
    else if StartsWith(s, "&gt;") then ">" + Unescape(s[4..])
    else if StartsWith(s, "&quot;") then "\"" + Unescape(s[6..])
    else if StartsWith(s, "&#x27;") then "'" + Unescape(s[6..])
    else [s[0]] + Unescape(s[1..])
  }

  lemma UnescapeCons(c: char, rest: string)
    ensures Unescape(EscapeChar(c) + rest) == [c] + Unescape(rest)
  {
    var e := EscapeChar(c);
    var s := e + rest;
    assert s[|e|..] == rest;
    if c == '&' || c == '<' || c == '>' || c == '"' || c == '\'' {
      assert s[..|e|] == e;
      assert s[0] == '&' && s[1] == e[1];
    } else {
      UnescapePlain(c, rest);
    }
  }

  lemma UnescapePlain(c: char, rest: string)
    requires c != '&'
    ensures Unescape([c] + rest) == [c] + Unescape(rest)
  {
    var s := [c] + rest;
    assert s[0] == c && s[1..] == rest;
    FirstCharDiffers(s, "&amp;");
    FirstCharDiffers(s, "&lt;");
    FirstCharDiffers(s, "&gt;");
    FirstCharDiffers(s, "&quot;");
    FirstCharDiffers(s, "&#x27;");
  }

  /** Unescaping an escaped text gives the text back. */
  lemma {:induction false} UnescapeEscape(s: string)
    ensures Unescape(HtmlEscape(s)) == s
    decreases |s|
  {
    if s != [] {
      UnescapeEscape(s[1..]);
      UnescapeCons(s[0], HtmlEscape(s[1..]));
    }
  }

  /** Two texts escape alike exactly when they are equal. */
  lemma EscapeInjective(a: string, b: string)
    ensures HtmlEscape(a) == HtmlEscape(b) <==> a == b
  {
    if HtmlEscape(a) == HtmlEscape(b) {
      UnescapeEscape(a);
      UnescapeEscape(b);
    }
  }

  // ---------------------------------------------------------------------
  // comparing two values

  /** The text a loaded entry is compared as: a missing value is blank. */
  function Blank(e: Entry): string {
    if e.Na? then "" else e.text
  }

  /** Both values in two-decimal form when `fmt2` (Python's
      `"{:.2f}".format(float(x))`) accepts both, else both as they are. */
  function Formatted(a: string, b: string, fmt2: string -> Option<string>): (string, string) {
    if fmt2(a).Some? && fmt2(b).Some? then (fmt2(a).value, fmt2(b).value) else (a, b)
  }

  /** Equal once ASCII letters are lower-cased. */
  predicate SameIgnoringCase(x: string, y: string) {
    |x| == |y| && forall i :: 0 <= i < |x| ==> LowerChar(x[i]) == LowerChar(y[i])
  }

  /** The last step of `val_smart_diff`: lower-case both texts and report a
      difference when they differ and their escaped forms differ too. */
  function LoweredDiffer(x: string, y: string): bool {
    Lower(x) != Lower(y) && HtmlEscape(Lower(x)) != HtmlEscape(Lower(y))
  }

  /** Two texts differ for `val_smart_diff` exactly when they differ other
      than in letter case: the escaping step never changes the answer. */
  lemma LoweredDifferMeaning(x: string, y: string)
    ensures LoweredDiffer(x, y) <==> !SameIgnoringCase(x, y)
  {
    EscapeInjective(Lower(x), Lower(y));
    if SameIgnoringCase(x, y) {
      assert Lower(x) == Lower(y);
    }
    if Lower(x) == Lower(y) {
      assert forall i :: 0 <= i < |x| ==> Lower(x)[i] == Lower(y)[i];
    }
  }

  /** `val_smart_diff(val0, val1, col)` as written: for `PROGTITL` the first
      value's double spaces are collapsed, and the second value is replaced
      by the collapsed first one collapsed once more. */
  function ValSmartDiff(v0: Entry, v1: Entry, col: string, fmt2: string -> Option<string>): bool {
    var a := Blank(v0);
    var b := Blank(v1);
    var a' := if col == "PROGTITL" then ReplaceAll(a, "  ", " ") else a;
    var b' := if col == "PROGTITL" then ReplaceAll(a', "  ", " ") else b;
    var p := Formatted(a', b', fmt2);
    LoweredDiffer(p.0, p.1)
  }

  /** `val_smart_diff` with `PROGTITL` collapsing each value's own double
      spaces. */
  function ValSmartDiffFixed(v0: Entry, v1: Entry, col: string, fmt2: string -> Option<string>): bool {
    var a := Blank(v0);
    var b := Blank(v1);
    var a', b' := if col == "PROGTITL" then ReplaceAll(a, "  ", " ") else a,
                  if col == "PROGTITL" then ReplaceAll(b, "  ", " ") else b;
    var p := Formatted(a', b', fmt2);
    LoweredDiffer(p.0, p.1)
  }

  /** Outside `PROGTITL`, values differ exactly when their compared forms
      (blank for missing, two-decimal when both are numbers) differ other
      than in letter case. */
  lemma SmartDiffMeaning(v0: Entry, v1: Entry, col: string, fmt2: string -> Option<string>)
    requires col != "PROGTITL"
    ensures ValSmartDiff(v0, v1, col, fmt2) <==>
              !SameIgnoringCase(Formatted(Blank(v0), Blank(v1), fmt2).0, Formatted(Blank(v0), Blank(v1), fmt2).1)
  {
    var p := Formatted(Blank(v0), Blank(v1), fmt2);
    LoweredDifferMeaning(p.0, p.1);
  }

  /** Outside `PROGTITL` a value never differs from itself; in every column
      a missing value never differs from a blank one. */
  lemma SmartDiffSelf(v: Entry, col: string, fmt2: string -> Option<string>)
    ensures col != "PROGTITL" ==> !ValSmartDiff(v, v, col, fmt2)
    ensures !ValSmartDiff(Na, Val(""), col, fmt2) && !ValSmartDiff(Val(""), Na, col, fmt2)
  {
  }

  /** As written, a `PROGTITL` comparison never looks at the second value. */
  lemma ProgtitlIgnoresSecond(v0: Entry, v1: Entry, w1: Entry, fmt2: string -> Option<string>)
    ensures ValSmartDiff(v0, v1, "PROGTITL", fmt2) == ValSmartDiff(v0, w1, "PROGTITL", fmt2)
  {
  }

  /** As written, `PROGTITL` values differ exactly when the first value,
      collapsed once, differs other than in letter case from itself
      collapsed twice (compared as two-decimal numbers when both parse). */
  lemma ProgtitlMeaning(v0: Entry, v1: Entry, fmt2: string -> Option<string>)
    ensures var a := ReplaceAll(Blank(v0), "  ", " ");
            var b := ReplaceAll(a, "  ", " ");
            ValSmartDiff(v0, v1, "PROGTITL", fmt2) <==>
              !SameIgnoringCase(Formatted(a, b, fmt2).0, Formatted(a, b, fmt2).1)
  {
    var a := ReplaceAll(Blank(v0), "  ", " ");
    var b := ReplaceAll(a, "  ", " ");
    LoweredDifferMeaning(Formatted(a, b, fmt2).0, Formatted(a, b, fmt2).1);
  }

  /** Collapsing `a   b` (three spaces) once leaves a double space, and
      collapsing again removes it. */
  lemma CollapseThreeSpaces()
    ensures ReplaceAll("a   b", "  ", " ") == "a  b"
    ensures ReplaceAll("a  b", "  ", " ") == "a b"
  {
    assert !StartsWith("a   b", "  ") by { assert "a   b"[..2][0] == 'a'; }
    assert !StartsWith(" b", "  ") by { assert " b"[..2][1] == 'b'; }
    assert !StartsWith("a  b", "  ") by { assert "a  b"[..2][0] == 'a'; }
    ReplaceSkip("a   b", "  ", " ");
    assert "a   b"[1..] == "   b" && "   b"[2..] == " b" && " b"[1..] == "b" && "b"[1..] == [];
    ReplaceMatch("   b", "  ", " ");
    ReplaceSkip(" b", "  ", " ");
    ReplaceSkip("b", "  ", " ");
    ReplaceSkip("a  b", "  ", " ");
    assert "a  b"[1..] == "  b" && "  b"[2..] == "b";
    ReplaceMatch("  b", "  ", " ");
  }

  /** As written, a title with a run of three spaces differs from itself:
      `a  b` is compared with `a b`. */
  lemma ProgtitlSelfDiffers(fmt2: string -> Option<string>)
    requires fmt2("a  b").None?
    ensures ValSmartDiff(Val("a   b"), Val("a   b"), "PROGTITL", fmt2)
    ensures !ValSmartDiffFixed(Val("a   b"), Val("a   b"), "PROGTITL", fmt2)
  {
    CollapseThreeSpaces();
    ProgtitlMeaning(Val("a   b"), Val("a   b"), fmt2);
    assert Formatted("a  b", "a b", fmt2) == ("a  b", "a b");
  }

  /** Corrected, `PROGTITL` values differ exactly when their collapsed forms
      differ other than in letter case; every other column is compared as
      before. */
  lemma SmartDiffFixedMeaning(v0: Entry, v1: Entry, col: string, fmt2: string -> Option<string>)
    ensures col != "PROGTITL" ==> ValSmartDiffFixed(v0, v1, col, fmt2) == ValSmartDiff(v0, v1, col, fmt2)
    ensures col == "PROGTITL" ==>
              var a, b := ReplaceAll(Blank(v0), "  ", " "), ReplaceAll(Blank(v1), "  ", " ");
              (ValSmartDiffFixed(v0, v1, col, fmt2) <==>
                 !SameIgnoringCase(Formatted(a, b, fmt2).0, Formatted(a, b, fmt2).1))
  {
    var a, b := ReplaceAll(Blank(v0), "  ", " "), ReplaceAll(Blank(v1), "  ", " ");
    LoweredDifferMeaning(Formatted(a, b, fmt2).0, Formatted(a, b, fmt2).1);
  }

  /** Corrected, the comparison is symmetric in every column. */
  lemma SmartDiffFixedSymmetric(v0: Entry, v1: Entry, col: string, fmt2: string -> Option<string>)
    ensures ValSmartDiffFixed(v0, v1, col, fmt2) == ValSmartDiffFixed(v1, v0, col, fmt2)
  {
  }

  /** Two titles that are not numbers and differ in more than case: the
      corrected comparison reports them, the written one does not. */
  lemma ProgtitlCounterexample(fmt2: string -> Option<string>)
    requires fmt2("A").None? && fmt2("B").None?
    ensures !ValSmartDiff(Val("A"), Val("B"), "PROGTITL", fmt2)
    ensures ValSmartDiffFixed(Val("A"), Val("B"), "PROGTITL", fmt2)
  {
    assert !Contains("A", "  ") && !Contains("B", "  ");
    ReplaceAbsent("A", "  ", " ");
    ReplaceAbsent("B", "  ", " ");
    assert Lower("A") != Lower("B") by {
      assert Lower("A")[0] == 'a' && Lower("B")[0] == 'b';
    }
    EscapeInjective(Lower("A"), Lower("B"));
  }

  // ---------------------------------------------------------------------
  // looking up cells

  /** Rows as wide as the header, as every loaded table's are. */
  predicate WellFormed(t: Table) {
    forall r :: r in t.rows ==> |r| == |t.columns|
  }

  /** The exceptions a comparison raises: a `KeyError` for a column a table
      lacks, an `IndexError` for a `KOAID` with no row, and an `IndexError`
      for an empty list of files. */
  datatype Crash = KeyMissing(col: string) | NoRow(koaid: string) | NoTables

  /** `row[col]` for a row of `t`; a cell past the end of a short row is
      missing. */
  function CellOf(t: Table, row: seq<Entry>, col: string): (r: Result<Entry, Crash>)
    ensures r.Failure? <==> col !in t.columns
    ensures r.Failure? ==> r.error == KeyMissing(col)
    ensures r.Success? && |row| == |t.columns| ==> r.value == row[FirstIndex(t.columns, col)]
  {
    if col !in t.columns then Failure(KeyMissing(col))
    else
      var k := FirstIndex(t.columns, col);
      Success(if k < |row| then row[k] else Na)
  }

  /** A row's `KOAID` entry. */
  function KoaidOf(t: Table, row: seq<Entry>): Entry
    requires "KOAID" in t.columns
  {
    CellOf(t, row, "KOAID").value
  }

  /** `t[t['KOAID'] == e]` is not empty: a missing `KOAID` matches nothing. */
  predicate HasMatch(t: Table, e: Entry)
    requires "KOAID" in t.columns
  {
    e.Val? && exists r :: r in t.rows && KoaidOf(t, r) == e
  }

  function FirstMatchIn(t: Table, rows: seq<seq<Entry>>, koaid: string): (r: Result<seq<Entry>, Crash>)
    requires "KOAID" in t.columns
    ensures r.Success? <==> exists row :: row in rows && KoaidOf(t, row) == Val(koaid)
    ensures r.Success? ==> r.value in rows && KoaidOf(t, r.value) == Val(koaid)
    ensures r.Failure? ==> r.error == NoRow(koaid)
    decreases |rows|
  {
    if rows == [] then Failure(NoRow(koaid))
    else if KoaidOf(t, rows[0]) == Val(koaid) then Success(rows[0])
    else
      var r := FirstMatchIn(t, rows[1..], koaid);
      assert forall row :: row in rows <==> row == rows[0] || row in rows[1..];
      r
  }

  /** `t[t['KOAID'] == koaid].iloc[0]`. */
  function FirstMatch(t: Table, koaid: string): (r: Result<seq<Entry>, Crash>)
    ensures "KOAID" !in t.columns ==> r == Failure(KeyMissing("KOAID"))
    ensures "KOAID" in t.columns ==> (r.Success? <==> HasMatch(t, Val(koaid)))
    ensures r.Success? ==> r.value in t.rows
  {
    if "KOAID" !in t.columns then Failure(KeyMissing("KOAID"))
    else FirstMatchIn(t, t.rows, koaid)
  }

  // ---------------------------------------------------------------------
  // warnings

  datatype Warning =
    | ColNotInBase(i: nat, col: string)
    | ColNotInOther(col: string, i: nat)
    | KoaidNotInBase(koaid: Entry)
    | KoaidNotInOther(koaid: Entry, i: nat)
    | ValueDiff(id: string, col: string, v0: Entry, i: nat, v1: Entry)

  /** `'{}'.format(x)` of a loaded entry. */
  function EntryText(e: Entry): string {
    if e.Na? then "nan" else e.text
  }

  function WarningText(w: Warning): (r: string)
    ensures StartsWith(r, "Meta compare: ")
  {
    var p := "Meta compare: ";
    match w
    case ColNotInBase(i, col) =>
      p + "MD" + NatToString(i) + " col \"" + col + "\" not in MD0 col list."
    case ColNotInOther(col, i) =>
      p + "MD0 col \"" + col + "\" not in MD" + NatToString(i) + " col list."
    case KoaidNotInBase(k) =>
      p + "CANNOT FIND KOAID \"" + EntryText(k) + "\" in MD0"
    case KoaidNotInOther(k, i) =>
      p + "CANNOT FIND KOAID \"" + EntryText(k) + "\" in MD" + NatToString(i)
    case ValueDiff(k, col, v0, i, v1) =>
      p + k + ": col \"" + col + "\": (0)\"" + EntryText(v0) + "\" != (" + NatToString(i) + ")\"" + EntryText(v1) + "\""
  }

  /** The list of warnings grown by a phase: the old ones first, then only
      warnings of the kind that phase issues. */
  predicate Extends(ws: seq<Warning>, prior: seq<Warning>, kind: Warning -> bool) {
    |prior| <= |ws| && ws[..|prior|] == prior && forall j :: |prior| <= j < |ws| ==> kind(ws[j])
  }

  // ---------------------------------------------------------------------
  // one table against the base

  /** What the loop over tables carries: this table's warnings and the
      columns and `KOAID`s to compare. */
  datatype Acc = Acc(warnings: seq<Warning>, cols: seq<string>, koaids: seq<string>)

  /** `if x not in xs: xs.append(x)` */
  function AddNew(xs: seq<string>, x: string): (r: seq<string>)
    ensures x in r
    ensures forall y :: y in r <==> y in xs || y == x
  {
    if x in xs then xs else xs + [x]
  }

  /** The table's columns: a column the base lacks is reported unless it is
      skipped or warnings are off; a shared one is kept for comparison. */
  function OtherColumns(i: nat, cols: seq<string>, baseCols: seq<string>, skipWarn: bool, acc: Acc): (r: Acc)
    ensures Extends(r.warnings, acc.warnings, (w: Warning) => w.ColNotInBase? && w.col !in Skips && !skipWarn)
    ensures r.koaids == acc.koaids
    ensures forall c :: c in r.cols <==> c in acc.cols || (c in cols && c in baseCols)
    decreases |cols|
  {
    if cols == [] then acc
    else
      var col := cols[0];
      var next :=
        if col !in baseCols then
          (if col !in Skips && !skipWarn then acc.(warnings := acc.warnings + [ColNotInBase(i, col)]) else acc)
        else acc.(cols := AddNew(acc.cols, col));
      var r := OtherColumns(i, cols[1..], baseCols, skipWarn, next);
      assert forall c :: c in cols <==> c == col || c in cols[1..];
      r
  }

  /** The base's columns, the same way round. */
  function BaseColumns(i: nat, baseCols: seq<string>, cols: seq<string>, skipWarn: bool, acc: Acc): (r: Acc)
    ensures Extends(r.warnings, acc.warnings, (w: Warning) => w.ColNotInOther? && w.col !in Skips && !skipWarn)
    ensures r.koaids == acc.koaids
    ensures forall c :: c in r.cols <==> c in acc.cols || (c in baseCols && c in cols)
    decreases |baseCols|
  {
    if baseCols == [] then acc
    else
      var col := baseCols[0];
      var next :=
        if col !in cols then
          (if col !in Skips && !skipWarn then acc.(warnings := acc.warnings + [ColNotInOther(col, i)]) else acc)
        else acc.(cols := AddNew(acc.cols, col));
      var r := BaseColumns(i, baseCols[1..], cols, skipWarn, next);
      assert forall c :: c in baseCols <==> c == col || c in baseCols[1..];
      r
  }

  /** The table's rows: a `KOAID` the base lacks is reported, a shared one
      is kept for comparison. Either table without a `KOAID` column raises
      once there is a row to look at. */
  function OtherRows(rows: seq<seq<Entry>>, t: Table, base: Table, acc: Acc): (r: Result<Acc, Crash>)
    ensures r.Failure? <==> rows != [] && ("KOAID" !in t.columns || "KOAID" !in base.columns)
    ensures r.Failure? ==> r.error == KeyMissing("KOAID")
    ensures r.Success? ==> Extends(r.value.warnings, acc.warnings, (w: Warning) => w.KoaidNotInBase?)
    ensures r.Success? ==> r.value.cols == acc.cols
    decreases |rows|
  {
    if rows == [] then Success(acc)
    else if "KOAID" !in t.columns || "KOAID" !in base.columns then Failure(KeyMissing("KOAID"))
    else
      var k := KoaidOf(t, rows[0]);
      var next :=
        if !HasMatch(base, k) then acc.(warnings := acc.warnings + [KoaidNotInBase(k)])
        else acc.(koaids := AddNew(acc.koaids, k.text));
      OtherRows(rows[1..], t, base, next)
  }

  /** The base's rows, the same way round. */
  function BaseRows(i: nat, rows: seq<seq<Entry>>, base: Table, t: Table, acc: Acc): (r: Result<Acc, Crash>)
    ensures r.Failure? <==> rows != [] && ("KOAID" !in base.columns || "KOAID" !in t.columns)
    ensures r.Failure? ==> r.error == KeyMissing("KOAID")
    ensures r.Success? ==> Extends(r.value.warnings, acc.warnings, (w: Warning) => w.KoaidNotInOther?)
    ensures r.Success? ==> r.value.cols == acc.cols
    decreases |rows|
  {
    if rows == [] then Success(acc)
    else if "KOAID" !in base.columns || "KOAID" !in t.columns then Failure(KeyMissing("KOAID"))
    else
      var k := KoaidOf(base, rows[0]);
      var next :=
        if !HasMatch(t, k) then acc.(warnings := acc.warnings + [KoaidNotInOther(k, i)])
        else acc.(koaids := AddNew(acc.koaids, k.text));
      BaseRows(i, rows[1..], base, t, next)
  }

  /** The values of one `KOAID`'s rows, column by column. */
  function CompareValues(i: nat, koaid: string, cols: seq<string>, row0: seq<Entry>, row1: seq<Entry>,
                         base: Table, t: Table, diff: (Entry, Entry, string) -> bool,
                         ws: seq<Warning>): (r: Result<seq<Warning>, Crash>)
    ensures (forall c :: c in cols ==> c in base.columns && c in t.columns) ==> r.Success?
    ensures r.Failure? ==> r.error.KeyMissing?
    ensures r.Success? ==> Extends(r.value, ws, (w: Warning) => w.ValueDiff? && w.col !in Skips && diff(w.v0, w.v1, w.col))
    decreases |cols|
  {
    if cols == [] then Success(ws)
    else
      var col := cols[0];
      if col in Skips then CompareValues(i, koaid, cols[1..], row0, row1, base, t, diff, ws)
      else
        var v0 :- CellOf(base, row0, col);
        var v1 :- CellOf(t, row1, col);
        var next := if diff(v0, v1, col) then ws + [ValueDiff(koaid, col, v0, i, v1)] else ws;
        CompareValues(i, koaid, cols[1..], row0, row1, base, t, diff, next)
  }

  /** Every `KOAID` kept so far: the first row carrying it in each table,
      compared over the columns kept so far. */
  function CompareKoaids(i: nat, koaids: seq<string>, cols: seq<string>, base: Table, t: Table,
                         diff: (Entry, Entry, string) -> bool, ws: seq<Warning>): (r: Result<seq<Warning>, Crash>)
    ensures r.Failure? ==> !r.error.NoTables?
    ensures r.Success? ==> Extends(r.value, ws, (w: Warning) => w.ValueDiff? && w.col !in Skips && diff(w.v0, w.v1, w.col))
    decreases |koaids|
  {
    if koaids == [] then Success(ws)
    else
      var row0 :- FirstMatch(base, koaids[0]);
      var row1 :- FirstMatch(t, koaids[0]);
      var next :- CompareValues(i, koaids[0], cols, row0, row1, base, t, diff, ws);
      CompareKoaids(i, koaids[1..], cols, base, t, diff, next)
  }

  /** The result for one table: its heading and its warnings. */
  datatype PairResult = PairResult(compare: string, warnings: seq<Warning>)

  function Heading(base: Table, i: nat, t: Table): string {
    "==> comparing (0)" + base.name + " to (" + NatToString(i) + ")" + t.name + ":"
  }

  /** Table `i` against the base, starting from the columns and `KOAID`s
      carried in; gives its result and the columns and `KOAID`s carried on. */
  function ComparePair(i: nat, base: Table, t: Table, skipWarn: bool, diff: (Entry, Entry, string) -> bool,
                       cols: seq<string>, koaids: seq<string>): (r: Result<(PairResult, Acc), Crash>)
    ensures r.Success? ==> r.value.0.compare == Heading(base, i, t)
    ensures r.Failure? ==> !r.error.NoTables?
  {
    var a1 := OtherColumns(i, t.columns, base.columns, skipWarn, Acc([], cols, koaids));
    var a2 := BaseColumns(i, base.columns, t.columns, skipWarn, a1);
    var a3 :- OtherRows(t.rows, t, base, a2);
    var a4 :- BaseRows(i, base.rows, base, t, a3);
    var ws :- CompareKoaids(i, a4.koaids, a4.cols, base, t, diff, a4.warnings);
    Success((PairResult(Heading(base, i, t), ws), a4))
  }

  // ---------------------------------------------------------------------
  // what one comparison keeps and reports

  /** A `KOAID` kept while reading the table's rows is one of its rows'
      and has a row in the base. */
  lemma {:induction false} OtherRowsKoaids(rows: seq<seq<Entry>>, t: Table, base: Table, acc: Acc)
    requires "KOAID" in t.columns && "KOAID" in base.columns
    ensures OtherRows(rows, t, base, acc).Success?
    ensures forall k :: k in OtherRows(rows, t, base, acc).value.koaids ==>
              k in acc.koaids || (HasMatch(base, Val(k)) && exists row :: row in rows && KoaidOf(t, row) == Val(k))
    decreases |rows|
  {
    if rows != [] {
      var e := KoaidOf(t, rows[0]);
      var next :=
        if !HasMatch(base, e) then acc.(warnings := acc.warnings + [KoaidNotInBase(e)])
        else acc.(koaids := AddNew(acc.koaids, e.text));
      OtherRowsKoaids(rows[1..], t, base, next);
      assert forall row :: row in rows[1..] ==> row in rows;
    }
  }

  /** A `KOAID` kept while reading the base's rows is one of its rows' and
      has a row in the table. */
  lemma {:induction false} BaseRowsKoaids(i: nat, rows: seq<seq<Entry>>, base: Table, t: Table, acc: Acc)
    requires "KOAID" in t.columns && "KOAID" in base.columns
    ensures BaseRows(i, rows, base, t, acc).Success?
    ensures forall k :: k in BaseRows(i, rows, base, t, acc).value.koaids ==>
              k in acc.koaids || (HasMatch(t, Val(k)) && exists row :: row in rows && KoaidOf(base, row) == Val(k))
    decreases |rows|
  {
    if rows != [] {
      var e := KoaidOf(base, rows[0]);
      var next :=
        if !HasMatch(t, e) then acc.(warnings := acc.warnings + [KoaidNotInOther(e, i)])
        else acc.(koaids := AddNew(acc.koaids, e.text));
      BaseRowsKoaids(i, rows[1..], base, t, next);
      assert forall row :: row in rows[1..] ==> row in rows;
    }
  }

  /** Comparing values never raises when every kept `KOAID` has a row in
      both tables and every kept column is in both. */
  lemma {:induction false} CompareKoaidsSucceeds(i: nat, koaids: seq<string>, cols: seq<string>, base: Table, t: Table,
                                                 diff: (Entry, Entry, string) -> bool, ws: seq<Warning>)
    requires "KOAID" in t.columns && "KOAID" in base.columns
    requires forall k :: k in koaids ==> HasMatch(base, Val(k)) && HasMatch(t, Val(k))
    requires forall c :: c in cols ==> c in base.columns && c in t.columns
    ensures CompareKoaids(i, koaids, cols, base, t, diff, ws).Success?
    decreases |koaids|
  {
    if koaids != [] {
      var row0 := FirstMatch(base, koaids[0]).value;
      var row1 := FirstMatch(t, koaids[0]).value;
      var next := CompareValues(i, koaids[0], cols, row0, row1, base, t, diff, ws).value;
      CompareKoaidsSucceeds(i, koaids[1..], cols, base, t, diff, next);
    }
  }

  /** Started afresh, one comparison never raises once both tables have a
      `KOAID` column. */
  lemma PairFreshSucceeds(i: nat, base: Table, t: Table, skipWarn: bool, diff: (Entry, Entry, string) -> bool)
    requires "KOAID" in t.columns && "KOAID" in base.columns
    ensures ComparePair(i, base, t, skipWarn, diff, [], []).Success?
  {
    var a1 := OtherColumns(i, t.columns, base.columns, skipWarn, Acc([], [], []));
    var a2 := BaseColumns(i, base.columns, t.columns, skipWarn, a1);
    OtherRowsKoaids(t.rows, t, base, a2);
    var a3 := OtherRows(t.rows, t, base, a2).value;
    BaseRowsKoaids(i, base.rows, base, t, a3);
    var a4 := BaseRows(i, base.rows, base, t, a3).value;
    assert a2.koaids == [];
    forall k | k in a4.koaids
      ensures HasMatch(base, Val(k)) && HasMatch(t, Val(k))
    {
      if k in a3.koaids {
        var row :| row in t.rows && KoaidOf(t, row) == Val(k);
      } else {
        var row :| row in base.rows && KoaidOf(base, row) == Val(k);
      }
    }
    CompareKoaidsSucceeds(i, a4.koaids, a4.cols, base, t, diff, a4.warnings);
  }

  /** A warning of a kind a phase does not issue is in its list exactly when
      it was there before. */
  lemma ExtendsKeeps(ws: seq<Warning>, prior: seq<Warning>, kind: Warning -> bool, w: Warning)
    requires Extends(ws, prior, kind) && !kind(w)
    ensures w in ws <==> w in prior
  {
    if w in ws {
      var j :| 0 <= j < |ws| && ws[j] == w;
      assert j < |prior| && prior[j] == w;
    }
    if w in prior {
      var j :| 0 <= j < |prior| && prior[j] == w;
      assert ws[j] == w;
    }
  }

  /** Reading the table's rows reports exactly the `KOAID`s of its rows that
      the base lacks. */
  lemma {:induction false} OtherRowsMissing(rows: seq<seq<Entry>>, t: Table, base: Table, acc: Acc, e: Entry)
    requires "KOAID" in t.columns && "KOAID" in base.columns
    ensures OtherRows(rows, t, base, acc).Success?
    ensures KoaidNotInBase(e) in OtherRows(rows, t, base, acc).value.warnings <==>
              KoaidNotInBase(e) in acc.warnings || ((exists row :: row in rows && KoaidOf(t, row) == e) && !HasMatch(base, e))
    decreases |rows|
  {
    if rows != [] {
      var k := KoaidOf(t, rows[0]);
      var next :=
        if !HasMatch(base, k) then acc.(warnings := acc.warnings + [KoaidNotInBase(k)])
        else acc.(koaids := AddNew(acc.koaids, k.text));
      OtherRowsMissing(rows[1..], t, base, next, e);
      assert forall row :: row in rows <==> row == rows[0] || row in rows[1..];
    }
  }

  /** Reading the base's rows reports exactly the `KOAID`s of its rows that
      the table lacks. */
  lemma {:induction false} BaseRowsMissing(i: nat, rows: seq<seq<Entry>>, base: Table, t: Table, acc: Acc, e: Entry)
    requires "KOAID" in t.columns && "KOAID" in base.columns
    ensures BaseRows(i, rows, base, t, acc).Success?
    ensures KoaidNotInOther(e, i) in BaseRows(i, rows, base, t, acc).value.warnings <==>
              KoaidNotInOther(e, i) in acc.warnings || ((exists row :: row in rows && KoaidOf(base, row) == e) && !HasMatch(t, e))
    decreases |rows|
  {
    if rows != [] {
      var k := KoaidOf(base, rows[0]);
      var next :=
        if !HasMatch(t, k) then acc.(warnings := acc.warnings + [KoaidNotInOther(k, i)])
        else acc.(koaids := AddNew(acc.koaids, k.text));
      BaseRowsMissing(i, rows[1..], base, t, next, e);
      assert forall row :: row in rows <==> row == rows[0] || row in rows[1..];
    }
  }

  /** In a comparison that completes, a `KOAID` is reported missing from the
      base exactly when a row of the table carries it and no row of the
      base does, and missing from the table the other way round. */
  lemma PairMissingKoaids(i: nat, base: Table, t: Table, skipWarn: bool, diff: (Entry, Entry, string) -> bool,
                          cols: seq<string>, koaids: seq<string>, e: Entry)
    requires "KOAID" in t.columns && "KOAID" in base.columns
    requires ComparePair(i, base, t, skipWarn, diff, cols, koaids).Success?
    ensures KoaidNotInBase(e) in ComparePair(i, base, t, skipWarn, diff, cols, koaids).value.0.warnings <==>
              (exists row :: row in t.rows && KoaidOf(t, row) == e) && !HasMatch(base, e)
    ensures KoaidNotInOther(e, i) in ComparePair(i, base, t, skipWarn, diff, cols, koaids).value.0.warnings <==>
              (exists row :: row in base.rows && KoaidOf(base, row) == e) && !HasMatch(t, e)
  {
    var a0 := Acc([], cols, koaids);
    var a1 := OtherColumns(i, t.columns, base.columns, skipWarn, a0);
    var a2 := BaseColumns(i, base.columns, t.columns, skipWarn, a1);
    OtherRowsMissing(t.rows, t, base, a2, e);
    var a3 := OtherRows(t.rows, t, base, a2).value;
    BaseRowsMissing(i, base.rows, base, t, a3, e);
    var a4 := BaseRows(i, base.rows, base, t, a3).value;
    var ws := CompareKoaids(i, a4.koaids, a4.cols, base, t, diff, a4.warnings).value;
    var isDiff := (w: Warning) => w.ValueDiff? && w.col !in Skips && diff(w.v0, w.v1, w.col);
    ExtendsKeeps(ws, a4.warnings, isDiff, KoaidNotInBase(e));
    ExtendsKeeps(ws, a4.warnings, isDiff, KoaidNotInOther(e, i));
    ExtendsKeeps(a4.warnings, a3.warnings, (w: Warning) => w.KoaidNotInOther?, KoaidNotInBase(e));
    ExtendsKeeps(a3.warnings, a2.warnings, (w: Warning) => w.KoaidNotInBase?, KoaidNotInOther(e, i));
    ExtendsKeeps(a2.warnings, a1.warnings, (w: Warning) => w.ColNotInOther? && w.col !in Skips && !skipWarn, KoaidNotInBase(e));
    ExtendsKeeps(a2.warnings, a1.warnings, (w: Warning) => w.ColNotInOther? && w.col !in Skips && !skipWarn, KoaidNotInOther(e, i));
    ExtendsKeeps(a1.warnings, a0.warnings, (w: Warning) => w.ColNotInBase? && w.col !in Skips && !skipWarn, KoaidNotInBase(e));
    ExtendsKeeps(a1.warnings, a0.warnings, (w: Warning) => w.ColNotInBase? && w.col !in Skips && !skipWarn, KoaidNotInOther(e, i));
  }

  /** What may be reported: a column only when it is not skipped and
      column warnings are on, a value only when `diff` calls it different
      and its column is not skipped. */
  predicate Reported(w: Warning, skipWarn: bool, diff: (Entry, Entry, string) -> bool) {
    match w
    case ColNotInBase(_, c) => c !in Skips && !skipWarn
    case ColNotInOther(c, _) => c !in Skips && !skipWarn
    case ValueDiff(_, c, v0, _, v1) => c !in Skips && diff(v0, v1, c)
    case _ => true
  }

  /** Every warning of a comparison that completes may be reported. */
  lemma PairReported(i: nat, base: Table, t: Table, skipWarn: bool, diff: (Entry, Entry, string) -> bool,
                     cols: seq<string>, koaids: seq<string>)
    requires ComparePair(i, base, t, skipWarn, diff, cols, koaids).Success?
    ensures forall w :: w in ComparePair(i, base, t, skipWarn, diff, cols, koaids).value.0.warnings ==>
              Reported(w, skipWarn, diff)
  {
    var a1 := OtherColumns(i, t.columns, base.columns, skipWarn, Acc([], cols, koaids));
    var a2 := BaseColumns(i, base.columns, t.columns, skipWarn, a1);
    var a3 := OtherRows(t.rows, t, base, a2).value;
    var a4 := BaseRows(i, base.rows, base, t, a3).value;
    var ws := CompareKoaids(i, a4.koaids, a4.cols, base, t, diff, a4.warnings).value;
    forall j | 0 <= j < |ws|
      ensures Reported(ws[j], skipWarn, diff)
    {
      if j >= |a4.warnings| {
      } else if j >= |a3.warnings| {
        assert ws[j] == a4.warnings[j];
      } else if j >= |a2.warnings| {
        assert ws[j] == a4.warnings[j] == a3.warnings[j];
      } else if j >= |a1.warnings| {
        assert ws[j] == a4.warnings[j] == a3.warnings[j] == a2.warnings[j];
      } else {
        assert ws[j] == a4.warnings[j] == a3.warnings[j] == a2.warnings[j] == a1.warnings[j];
      }
    }
  }

  // ---------------------------------------------------------------------
  // every table against the first

  /** As written: the columns and `KOAID`s to compare are carried from one
      table to the next. */
  function CompareFrom(base: Table, tables: seq<Table>, i: nat, skipWarn: bool, diff: (Entry, Entry, string) -> bool,
                       cols: seq<string>, koaids: seq<string>): (r: Result<seq<PairResult>, Crash>)
    ensures r.Success? ==> |r.value| == |tables|
    ensures r.Failure? ==> !r.error.NoTables?
    decreases |tables|
  {
    if tables == [] then Success([])
    else
      var p :- ComparePair(i, base, tables[0], skipWarn, diff, cols, koaids);
      var rest :- CompareFrom(base, tables[1..], i + 1, skipWarn, diff, p.1.cols, p.1.koaids);
      Success([p.0] + rest)
  }

  function CompareAccumulating(tables: seq<Table>, skipWarn: bool, diff: (Entry, Entry, string) -> bool): (r: Result<seq<PairResult>, Crash>)
    ensures tables == [] <==> r == Failure(NoTables)
    ensures r.Success? ==> |r.value| == |tables| - 1
  {
    if tables == [] then Failure(NoTables)
    else CompareFrom(tables[0], tables[1..], 1, skipWarn, diff, [], [])
  }

  /** Corrected: every table starts afresh. */
  function ComparePairwiseFrom(base: Table, tables: seq<Table>, i: nat, skipWarn: bool,
                               diff: (Entry, Entry, string) -> bool): (r: Result<seq<PairResult>, Crash>)
    ensures r.Success? ==> |r.value| == |tables|
    ensures r.Failure? ==> !r.error.NoTables?
    decreases |tables|
  {
    if tables == [] then Success([])
    else
      var p :- ComparePair(i, base, tables[0], skipWarn, diff, [], []);
      var rest :- ComparePairwiseFrom(base, tables[1..], i + 1, skipWarn, diff);
      Success([p.0] + rest)
  }

  /** Result `k` is headed with the base's name and table `i + k`'s number and name. */
  predicate Headed(results: seq<PairResult>, base: Table, i: nat, tables: seq<Table>) {
    |results| == |tables| && forall k :: 0 <= k < |tables| ==> results[k].compare == Heading(base, i + k, tables[k])
  }

  lemma HeadedCons(p: PairResult, rest: seq<PairResult>, base: Table, i: nat, tables: seq<Table>)
    requires tables != [] && p.compare == Heading(base, i, tables[0])
    requires Headed(rest, base, i + 1, tables[1..])
    ensures Headed([p] + rest, base, i, tables)
  {
    var r := [p] + rest;
    forall k | 1 <= k < |tables| ensures r[k].compare == Heading(base, i + k, tables[k]) {
      assert r[k] == rest[k - 1] && tables[k] == tables[1..][k - 1];
    }
  }

  /** Each result is headed with the base's name and the table's number and name. */
  lemma {:induction false} CompareFromHeadings(base: Table, tables: seq<Table>, i: nat, skipWarn: bool,
                                               diff: (Entry, Entry, string) -> bool, cols: seq<string>, koaids: seq<string>)
    requires CompareFrom(base, tables, i, skipWarn, diff, cols, koaids).Success?
    ensures Headed(CompareFrom(base, tables, i, skipWarn, diff, cols, koaids).value, base, i, tables)
    decreases |tables|
  {
    if tables != [] {
      var p := ComparePair(i, base, tables[0], skipWarn, diff, cols, koaids).value;
      var rest := CompareFrom(base, tables[1..], i + 1, skipWarn, diff, p.1.cols, p.1.koaids);
      assert CompareFrom(base, tables, i, skipWarn, diff, cols, koaids).value == [p.0] + rest.value;
      CompareFromHeadings(base, tables[1..], i + 1, skipWarn, diff, p.1.cols, p.1.koaids);
      HeadedCons(p.0, rest.value, base, i, tables);
    }
  }

  lemma {:induction false} PairwiseHeadings(base: Table, tables: seq<Table>, i: nat, skipWarn: bool,
                                            diff: (Entry, Entry, string) -> bool)
    requires ComparePairwiseFrom(base, tables, i, skipWarn, diff).Success?
    ensures Headed(ComparePairwiseFrom(base, tables, i, skipWarn, diff).value, base, i, tables)
    decreases |tables|
  {
    if tables != [] {
      var p := ComparePair(i, base, tables[0], skipWarn, diff, [], []).value;
      var rest := ComparePairwiseFrom(base, tables[1..], i + 1, skipWarn, diff);
      assert ComparePairwiseFrom(base, tables, i, skipWarn, diff).value == [p.0] + rest.value;
      PairwiseHeadings(base, tables[1..], i + 1, skipWarn, diff);
      HeadedCons(p.0, rest.value, base, i, tables);
    }
  }

  function ComparePairwise(tables: seq<Table>, skipWarn: bool, diff: (Entry, Entry, string) -> bool): (r: Result<seq<PairResult>, Crash>)
    ensures tables == [] <==> r == Failure(NoTables)
    ensures r.Success? ==> |r.value| == |tables| - 1
  {
    if tables == [] then Failure(NoTables)
    else ComparePairwiseFrom(tables[0], tables[1..], 1, skipWarn, diff)
  }

  // ---------------------------------------------------------------------
  // from files

  /** What loading each path gives. */
  function Loads(files: map<string, string>, paths: seq<string>): (r: seq<Loaded>)
    ensures |r| == |paths| && forall k :: 0 <= k < |paths| ==> r[k] == Load(files, paths[k])
  {
    seq(|paths|, k requires 0 <= k < |paths| => Load(files, paths[k]))
  }

  /** Entry `k` is the first that is not a table. */
  predicate FirstNotFrame(loads: seq<Loaded>, k: int) {
    0 <= k < |loads| && !loads[k].Frame? && forall j :: 0 <= j < k ==> loads[j].Frame?
  }

  /** The tables, when every load gave one; otherwise what the first
      other load gave. */
  function Gathered(loads: seq<Loaded>): (r: Result<seq<Table>, Loaded>)
    ensures r.Success? <==> forall k :: 0 <= k < |loads| ==> loads[k].Frame?
    ensures r.Success? ==> |r.value| == |loads| && forall k :: 0 <= k < |loads| ==> loads[k] == Frame(r.value[k])
    ensures r.Failure? ==> exists k :: FirstNotFrame(loads, k) && loads[k] == r.error
    decreases |loads|
  {
    if loads == [] then Success([])
    else if !loads[0].Frame? then
      assert FirstNotFrame(loads, 0);
      Failure(loads[0])
    else
      var rest := Gathered(loads[1..]);
      assert forall k :: 1 <= k < |loads| ==> loads[k] == loads[1..][k - 1];
      if rest.Failure? then
        FirstNotFrameShift(loads, rest.error);
        Failure(rest.error)
      else
        Success([loads[0].table] + rest.value)
  }

  lemma FirstNotFrameShift(loads: seq<Loaded>, e: Loaded)
    requires loads != [] && loads[0].Frame?
    requires exists k :: FirstNotFrame(loads[1..], k) && loads[1..][k] == e
    ensures exists k :: FirstNotFrame(loads, k) && loads[k] == e
  {
    var k :| FirstNotFrame(loads[1..], k) && loads[1..][k] == e;
    assert FirstNotFrame(loads, k + 1);
  }

  /** Every path loaded, in order. The loop stops at the first path that
      is not a file, or whose loading raises, and reports what it got
      there. */
  function LoadAll(files: map<string, string>, paths: seq<string>): (r: Result<seq<Table>, Loaded>)
    ensures r.Success? <==> forall k :: 0 <= k < |paths| ==> Load(files, paths[k]).Frame?
    ensures r.Success? ==> |r.value| == |paths| && forall k :: 0 <= k < |paths| ==> Load(files, paths[k]) == Frame(r.value[k])
    ensures r.Failure? ==> !r.error.Frame? && exists k :: FirstUnloaded(files, paths, k) && Load(files, paths[k]) == r.error
  {
    var loads := Loads(files, paths);
    var r := Gathered(loads);
    if r.Failure? then
      FirstNotFrameLoaded(files, paths, r.error);
      r
    else r
  }

  lemma FirstNotFrameLoaded(files: map<string, string>, paths: seq<string>, e: Loaded)
    requires exists k :: FirstNotFrame(Loads(files, paths), k) && Loads(files, paths)[k] == e
    ensures exists k :: FirstUnloaded(files, paths, k) && Load(files, paths[k]) == e
  {
    var k :| FirstNotFrame(Loads(files, paths), k) && Loads(files, paths)[k] == e;
    assert FirstUnloaded(files, paths, k);
  }

  /** Path `k` is the first that does not load as a table. */
  predicate FirstUnloaded(files: map<string, string>, paths: seq<string>, k: int) {
    && 0 <= k < |paths| && !Load(files, paths[k]).Frame?
    && forall j :: 0 <= j < k ==> Load(files, paths[j]).Frame?
  }

  /** At most one path is the first that does not load. */
  lemma FirstUnloadedUnique(files: map<string, string>, paths: seq<string>, k: int, m: int)
    requires FirstUnloaded(files, paths, k) && FirstUnloaded(files, paths, m)
    ensures k == m
  {
  }

  /** `False`, the list of results, or the exception raised. */
  datatype Outcome = NotLoaded | EmptyDataError | Compared(results: seq<PairResult>) | Crashed(crash: Crash)

  function OutcomeOf(r: Result<seq<PairResult>, Crash>): Outcome {
    match r
    case Success(results) => Compared(results)
    case Failure(c) => Crashed(c)
  }

  /** Loading stops with `False` exactly when the first path that does not
      load is not a file, and with the exception exactly when it is one. */
  lemma LoadAllStops(files: map<string, string>, paths: seq<string>)
    ensures (LoadAll(files, paths).Failure? && LoadAll(files, paths).error.NotAFile?) <==>
              exists k :: FirstUnloaded(files, paths, k) && paths[k] !in files
    ensures (LoadAll(files, paths).Failure? && !LoadAll(files, paths).error.NotAFile?) <==>
              exists k :: FirstUnloaded(files, paths, k) && paths[k] in files
  {
    var r := LoadAll(files, paths);
    if r.Failure? {
      var k :| FirstUnloaded(files, paths, k) && Load(files, paths[k]) == r.error;
      forall m | FirstUnloaded(files, paths, m) ensures m == k {
        FirstUnloadedUnique(files, paths, k, m);
      }
    } else {
      forall m | 0 <= m < |paths| ensures !FirstUnloaded(files, paths, m) {
        assert Load(files, paths[m]).Frame?;
      }
    }
  }

  /** What stopped the loading loop: `False` for a path that is not a
      file, and the exception otherwise. */
  function Unloaded(l: Loaded): Outcome {
    if l.NotAFile? then NotLoaded else EmptyDataError
  }

  /** `compare_meta_files(filepaths, skipColCompareWarn)` as written. */
  function CompareMetaFiles(files: map<string, string>, paths: seq<string>, skipWarn: bool,
                            fmt2: string -> Option<string>): (r: Outcome)
    ensures r.NotLoaded? <==> exists k :: FirstUnloaded(files, paths, k) && paths[k] !in files
    ensures r.EmptyDataError? <==> exists k :: FirstUnloaded(files, paths, k) && paths[k] in files
    ensures paths == [] ==> r == Crashed(NoTables)
    ensures r.Compared? ==> |r.results| == |paths| - 1
  {
    match LoadAll(files, paths)
    case Failure(l) => LoadAllStops(files, paths); Unloaded(l)
    case Success(tables) =>
      OutcomeOf(CompareAccumulating(tables, skipWarn, (a, b, c) => ValSmartDiff(a, b, c, fmt2)))
  }

  /** `compare_meta_files` with both corrections: each table compared
      afresh, and `PROGTITL` values compared with each other. */
  function CompareMetaFilesFixed(files: map<string, string>, paths: seq<string>, skipWarn: bool,
                                 fmt2: string -> Option<string>): (r: Outcome)
    ensures r.NotLoaded? <==> exists k :: FirstUnloaded(files, paths, k) && paths[k] !in files
    ensures r.EmptyDataError? <==> exists k :: FirstUnloaded(files, paths, k) && paths[k] in files
    ensures paths == [] ==> r == Crashed(NoTables)
    ensures r.Compared? ==> |r.results| == |paths| - 1
  {
    match LoadAll(files, paths)
    case Failure(l) => LoadAllStops(files, paths); Unloaded(l)
    case Success(tables) =>
      OutcomeOf(ComparePairwise(tables, skipWarn, (a, b, c) => ValSmartDiffFixed(a, b, c, fmt2)))
  }

  // ---------------------------------------------------------------------
  // the two ways of comparing several tables

  lemma {:induction false} PairwiseFromSucceeds(base: Table, tables: seq<Table>, i: nat, skipWarn: bool,
                                                diff: (Entry, Entry, string) -> bool)
    requires "KOAID" in base.columns
    requires forall k :: 0 <= k < |tables| ==> "KOAID" in tables[k].columns
    ensures ComparePairwiseFrom(base, tables, i, skipWarn, diff).Success?
    decreases |tables|
  {
    if tables != [] {
      PairFreshSucceeds(i, base, tables[0], skipWarn, diff);
      PairwiseFromSucceeds(base, tables[1..], i + 1, skipWarn, diff);
    }
  }

  /** Corrected, comparing never raises once there is a table and every
      table has a `KOAID` column; table `k` is headed with its number. */
  lemma ComparePairwiseSucceeds(tables: seq<Table>, skipWarn: bool, diff: (Entry, Entry, string) -> bool)
    requires tables != []
    requires forall k :: 0 <= k < |tables| ==> "KOAID" in tables[k].columns
    ensures ComparePairwise(tables, skipWarn, diff).Success?
    ensures forall k :: 1 <= k < |tables| ==>
              ComparePairwise(tables, skipWarn, diff).value[k - 1].compare == Heading(tables[0], k, tables[k])
  {
    PairwiseFromSucceeds(tables[0], tables[1..], 1, skipWarn, diff);
    PairwiseHeadings(tables[0], tables[1..], 1, skipWarn, diff);
  }

  /** With one or two tables nothing is carried over, and both ways agree. */
  lemma AccumulatingAgreesOnTwo(tables: seq<Table>, skipWarn: bool, diff: (Entry, Entry, string) -> bool)
    requires |tables| <= 2
    ensures CompareAccumulating(tables, skipWarn, diff) == ComparePairwise(tables, skipWarn, diff)
  {
    if |tables| == 2 {
      var p := ComparePair(1, tables[0], tables[1], skipWarn, diff, [], []);
      assert tables[1..] == [tables[1]] && tables[1..][1..] == [];
      if p.Success? {
        assert CompareFrom(tables[0], [], 2, skipWarn, diff, p.value.1.cols, p.value.1.koaids) == Success([]);
        assert ComparePairwiseFrom(tables[0], [], 2, skipWarn, diff) == Success([]);
      }
    }
  }

  /** Three tables where the third lacks a row the first two share. */
  const CrashBase := Table("md0", ["KOAID"], [[Val("K1")]])
  const CrashFirst := Table("md1", ["KOAID"], [[Val("K1")]])
  const CrashSecond := Table("md2", ["KOAID"], [])

  /** As written, the `KOAID` kept from the first table is looked up in the
      second, which has no row for it: an `IndexError`. */
  lemma AccumulatingCrash(skipWarn: bool, diff: (Entry, Entry, string) -> bool)
    ensures CompareAccumulating([CrashBase, CrashFirst, CrashSecond], skipWarn, diff) == Failure(NoRow("K1"))
  {
    assert [CrashBase, CrashFirst, CrashSecond][1..] == [CrashFirst, CrashSecond];
    CrashCarried(skipWarn, diff);
  }

  /** Started afresh, the same three tables compare without raising. */
  lemma CrashAvoidedPairwise(skipWarn: bool, diff: (Entry, Entry, string) -> bool)
    ensures ComparePairwise([CrashBase, CrashFirst, CrashSecond], skipWarn, diff).Success?
  {
    var tables := [CrashBase, CrashFirst, CrashSecond];
    assert forall k :: 0 <= k < |tables| ==> tables[k].columns == ["KOAID"];
    ComparePairwiseSucceeds(tables, skipWarn, diff);
  }

  lemma CrashCarried(skipWarn: bool, diff: (Entry, Entry, string) -> bool)
    ensures CompareFrom(CrashBase, [CrashFirst, CrashSecond], 1, skipWarn, diff, [], []) == Failure(NoRow("K1"))
  {
    CrashFirstPair(skipWarn, diff);
    CrashSecondPair(skipWarn, diff);
    assert [CrashFirst, CrashSecond][1..] == [CrashSecond];
    assert CompareFrom(CrashBase, [CrashSecond], 2, skipWarn, diff, ["KOAID"], ["K1"]) == Failure(NoRow("K1"));
  }

  /** The first comparison keeps the `KOAID` column and `K1`. */
  lemma CrashFirstPair(skipWarn: bool, diff: (Entry, Entry, string) -> bool)
    ensures ComparePair(1, CrashBase, CrashFirst, skipWarn, diff, [], []).Success?
    ensures ComparePair(1, CrashBase, CrashFirst, skipWarn, diff, [], []).value.1 == Acc([], ["KOAID"], ["K1"])
  {
    var b, t := CrashBase, CrashFirst;
    assert KoaidOf(t, t.rows[0]) == Val("K1") && KoaidOf(b, b.rows[0]) == Val("K1");
    assert HasMatch(b, Val("K1")) by {
      assert b.rows[0] in b.rows;
    }
    assert HasMatch(t, Val("K1")) by {
      assert t.rows[0] in t.rows;
    }
    var a1 := OtherColumns(1, t.columns, b.columns, skipWarn, Acc([], [], []));
    assert a1 == Acc([], ["KOAID"], []);
    var a2 := BaseColumns(1, b.columns, t.columns, skipWarn, a1);
    assert a2 == a1;
    assert AddNew([], "K1") == ["K1"];
    assert t.rows[1..] == [] && b.rows[1..] == [];
    var a3 := OtherRows(t.rows, t, b, a2);
    assert a3 == OtherRows([], t, b, Acc([], ["KOAID"], ["K1"]));
    var a4 := BaseRows(1, b.rows, b, t, a3.value);
    assert a4 == Success(Acc([], ["KOAID"], ["K1"]));
    PairFreshSucceeds(1, b, t, skipWarn, diff);
  }

  /** The second comparison, carrying `K1`, finds no row for it. */
  lemma CrashSecondPair(skipWarn: bool, diff: (Entry, Entry, string) -> bool)
    ensures ComparePair(2, CrashBase, CrashSecond, skipWarn, diff, ["KOAID"], ["K1"]) == Failure(NoRow("K1"))
  {
    var b, t := CrashBase, CrashSecond;
    assert KoaidOf(b, b.rows[0]) == Val("K1");
    assert HasMatch(b, Val("K1")) by {
      assert b.rows[0] in b.rows;
    }
    assert !HasMatch(t, Val("K1"));
    var a1 := OtherColumns(2, t.columns, b.columns, skipWarn, Acc([], ["KOAID"], ["K1"]));
    assert a1 == Acc([], ["KOAID"], ["K1"]);
    var a2 := BaseColumns(2, b.columns, t.columns, skipWarn, a1);
    assert a2 == a1;
    var a3 := OtherRows(t.rows, t, b, a2);
    assert a3 == Success(a2);
    var a4 := BaseRows(2, b.rows, b, t, a2);
    assert a4.Success? && a4.value.koaids == ["K1"] && a4.value.cols == ["KOAID"];
    assert FirstMatch(t, "K1") == Failure(NoRow("K1"));
    assert CompareKoaids(2, ["K1"], ["KOAID"], b, t, diff, a4.value.warnings) == Failure(NoRow("K1"));
  }

  // ---------------------------------------------------------------------
  // from files

  /** Every row of a loaded table is as wide as its header. */
  lemma LoadedWellFormed(files: map<string, string>, path: string)
    requires Load(files, path).Frame?
    ensures WellFormed(Load(files, path).table)
  {
  }

  /** Files that load as the three tables above make the comparison raise
      as written, and not once corrected. */
  lemma MetaFilesCrash(files: map<string, string>, paths: seq<string>, skipWarn: bool, fmt2: string -> Option<string>)
    requires LoadAll(files, paths) == Success([CrashBase, CrashFirst, CrashSecond])
    ensures CompareMetaFiles(files, paths, skipWarn, fmt2) == Crashed(NoRow("K1"))
    ensures CompareMetaFilesFixed(files, paths, skipWarn, fmt2).Compared?
  {
    AccumulatingCrash(skipWarn, (a, b, c) => ValSmartDiff(a, b, c, fmt2));
    CrashAvoidedPairwise(skipWarn, (a, b, c) => ValSmartDiffFixed(a, b, c, fmt2));
  }

  /** Corrected, comparing files that all load and all have a `KOAID`
      column gives one result per file after the first. */
  lemma MetaFilesFixedCompletes(files: map<string, string>, paths: seq<string>, skipWarn: bool, fmt2: string -> Option<string>)
    requires paths != [] && LoadAll(files, paths).Success?
    requires forall k :: 0 <= k < |paths| ==> "KOAID" in LoadAll(files, paths).value[k].columns
    ensures CompareMetaFilesFixed(files, paths, skipWarn, fmt2).Compared?
    ensures |CompareMetaFilesFixed(files, paths, skipWarn, fmt2).results| == |paths| - 1
  {
    ComparePairwiseSucceeds(LoadAll(files, paths).value, skipWarn, (a, b, c) => ValSmartDiffFixed(a, b, c, fmt2));
  }
}

=== FILE: dates.dfy ===
/** Python `datetime.strptime(s, '%Y-%m-%d')` as the standard library
    implements it: the regular expression
    `(\d\d\d\d)-(1[0-2]|0[1-9]|[1-9])-(3[01]|[12]\d|0[1-9]|[1-9]| [1-9])`
    is matched from the start of `s` (alternatives tried in order, with
    backtracking), the match must consume all of `s`, and the resulting
    year/month/day must be a real calendar date. */
module Dates {
  import opened Wrappers
  import opened Values

  datatype Ymd = Ymd(year: int, month: int, day: int)

  predicate IsLeap(y: int) {
    y % 4 == 0 && (y % 100 != 0 || y % 400 == 0)
  }

  function DaysInMonth(y: int, m: int): int
    requires 1 <= m <= 12
  {
    if m == 2 then (if IsLeap(y) then 29 else 28)
    else if m == 4 || m == 6 || m == 9 || m == 11 then 30
    else 31
  }

  /** What `datetime.date(y, m, d)` accepts. */
  predicate ValidDate(d: Ymd) {
    1 <= d.year <= 9999 && 1 <= d.month <= 12 && 1 <= d.day <= DaysInMonth(d.year, d.month)
  }

  function Digit(c: char): nat
    requires IsDigit(c)
  {
    c as int - '0' as int
  }

  predicate InRange(c: char, lo: char, hi: char) {
    lo <= c <= hi
  }

  /** One way a regex group can match: the number it denotes and where it ends. */
  datatype GroupMatch = GroupMatch(value: nat, end: nat)

  /** The matches of `1[0-2]|0[1-9]|[1-9]` at index `i`, in the order tried. */
  function MonthMatches(s: string, i: nat): (ms: seq<GroupMatch>)
    ensures forall k :: 0 <= k < |ms| ==> i < ms[k].end <= |s| && 1 <= ms[k].value <= 12
  {
    var a := if i + 1 < |s| && s[i] == '1' && InRange(s[i + 1], '0', '2')
             then [GroupMatch(10 + Digit(s[i + 1]), i + 2)] else [];
    var b := if i + 1 < |s| && s[i] == '0' && InRange(s[i + 1], '1', '9')
             then [GroupMatch(Digit(s[i + 1]), i + 2)] else [];
    var c := if i < |s| && InRange(s[i], '1', '9') then [GroupMatch(Digit(s[i]), i + 1)] else [];
    a + b + c
  }

  /** The matches of `3[01]|[12]\d|0[1-9]|[1-9]| [1-9]` at index `i`, in the order tried. */
  function DayMatches(s: string, i: nat): (ms: seq<GroupMatch>)
    ensures forall k :: 0 <= k < |ms| ==> i < ms[k].end <= |s| && 1 <= ms[k].value <= 31
  {
    var a := if i + 1 < |s| && s[i] == '3' && InRange(s[i + 1], '0', '1')
             then [GroupMatch(30 + Digit(s[i + 1]), i + 2)] else [];
    var b := if i + 1 < |s| && InRange(s[i], '1', '2') && IsDigit(s[i + 1])
             then [GroupMatch(10 * Digit(s[i]) + Digit(s[i + 1]), i + 2)] else [];
    var c := if i + 1 < |s| && s[i] == '0' && InRange(s[i + 1], '1', '9')
             then [GroupMatch(Digit(s[i + 1]), i + 2)] else [];
    var d := if i < |s| && InRange(s[i], '1', '9') then [GroupMatch(Digit(s[i]), i + 1)] else [];
    var e := if i + 1 < |s| && s[i] == ' ' && InRange(s[i + 1], '1', '9')
             then [GroupMatch(Digit(s[i + 1]), i + 2)] else [];
    a + b + c + d + e
  }

  /** The first month alternative after which `-` and some day alternative
      match; the day is the first day alternative that matches. Returns the
      date and the end of the match. */
  function MatchMonthDay(s: string, year: int, months: seq<GroupMatch>): (r: Option<(Ymd, nat)>)
    requires forall k :: 0 <= k < |months| ==> months[k].end <= |s|
    ensures r.Some? ==> r.value.1 <= |s|
  {
    if months == [] then None
    else
      var m := months[0];
      if m.end < |s| && s[m.end] == '-' && DayMatches(s, m.end + 1) != [] then
        var d := DayMatches(s, m.end + 1)[0];
        Some((Ymd(year, m.value, d.value), d.end))
      else MatchMonthDay(s, year, months[1..])
  }

  /** `re.match` of the `%Y-%m-%d` pattern against `s`. */
  function MatchDatePattern(s: string): Option<(Ymd, nat)> {
    if |s| < 5 || !(IsDigit(s[0]) && IsDigit(s[1]) && IsDigit(s[2]) && IsDigit(s[3])) || s[4] != '-' then None
    else
      var y := 1000 * Digit(s[0]) + 100 * Digit(s[1]) + 10 * Digit(s[2]) + Digit(s[3]);
      MatchMonthDay(s, y, MonthMatches(s, 5))
  }

  /** `datetime.strptime(s, '%Y-%m-%d')`: the parsed date, or `None` where
      Python raises `ValueError` (no match, unconverted data, or a date the
      calendar does not have). */
  function StrptimeDate(s: string): (r: Option<Ymd>)
    ensures r.Some? ==> ValidDate(r.value)
  {
    match MatchDatePattern(s)
    case None => None
    case Some((d, end)) => if end == |s| && ValidDate(d) then Some(d) else None
  }

  function TwoDigits(n: nat): string
    requires n < 100
  {
    [DigitChar(n / 10), DigitChar(n % 10)]
  }

  /** The canonical `YYYY-MM-DD` text of a date. */
  function FormatDate(d: Ymd): (s: string)
    requires ValidDate(d)
    ensures |s| == 10 && s[4] == '-' && s[7] == '-'
    ensures forall i :: 0 <= i < 10 && i != 4 && i != 7 ==> IsDigit(s[i])
  {
    [DigitChar(d.year / 1000), DigitChar(d.year / 100 % 10), DigitChar(d.year / 10 % 10), DigitChar(d.year % 10)]
      + "-" + TwoDigits(d.month as nat) + "-" + TwoDigits(d.day as nat)
  }

  lemma TwoDigitsValue(n: nat)
    requires n < 100
    ensures Digit(TwoDigits(n)[0]) == n / 10 && Digit(TwoDigits(n)[1]) == n % 10
    ensures 10 * Digit(TwoDigits(n)[0]) + Digit(TwoDigits(n)[1]) == n
  {
  }

  lemma YearDigits(y: nat)
    requires y <= 9999
    ensures 1000 * (y / 1000) + 100 * (y / 100 % 10) + 10 * (y / 10 % 10) + y % 10 == y
  {
    var q := y / 10;
    assert y == 10 * q + y % 10;
    var q2 := q / 10;
    assert q == 10 * q2 + q % 10;
    assert y / 100 == q2;
    assert q2 / 10 == y / 1000;
    assert q2 == 10 * (q2 / 10) + q2 % 10;
  }

  lemma MonthMatchFirst(s: string, m: nat)
    requires 1 <= m <= 12 && |s| >= 8
    requires s[5..7] == TwoDigits(m)
    ensures MonthMatches(s, 5) != [] && MonthMatches(s, 5)[0] == GroupMatch(m, 7)
  {
    TwoDigitsValue(m);
    assert s[5] == TwoDigits(m)[0] && s[6] == TwoDigits(m)[1];
  }

  lemma DayMatchFirst(s: string, d: nat)
    requires 1 <= d <= 31 && |s| == 10
    requires s[8..10] == TwoDigits(d)
    ensures DayMatches(s, 8) != [] && DayMatches(s, 8)[0] == GroupMatch(d, 10)
  {
    TwoDigitsValue(d);
    assert s[8] == TwoDigits(d)[0] && s[9] == TwoDigits(d)[1];
  }

  /** Every real date written as `YYYY-MM-DD` passes the `date` column check. */
  lemma FormatDateParses(d: Ymd)
    requires ValidDate(d)
    ensures StrptimeDate(FormatDate(d)) == Some(d)
  {
    var s := FormatDate(d);
    YearDigits(d.year);
    assert 1000 * Digit(s[0]) + 100 * Digit(s[1]) + 10 * Digit(s[2]) + Digit(s[3]) == d.year;
    assert s[5..7] == TwoDigits(d.month as nat);
    assert s[8..10] == TwoDigits(d.day as nat);
    MonthMatchFirst(s, d.month as nat);
    DayMatchFirst(s, d.day as nat);
    assert MatchDatePattern(s) == Some((d, 10));
  }

  /** The pattern accepts a one-digit month and day. */
  lemma StrptimeShortFields()
    ensures StrptimeDate("2021-1-5") == Some(Ymd(2021, 1, 5))
  {
    var s := "2021-1-5";
    assert MonthMatches(s, 5) == [GroupMatch(1, 6)];
    assert DayMatches(s, 7) == [GroupMatch(5, 8)];
  }

  /** The pattern rejects a day the month does not have. */
  lemma StrptimeRejectsFeb30()
    ensures StrptimeDate("2021-02-30") == None
  {
    var s := "2021-02-30";
    assert MonthMatches(s, 5) == [GroupMatch(2, 7)];
    assert DayMatches(s, 8)[0] == GroupMatch(30, 10);
  }

  /** Days from 0001-01-01 to `d`: `date.toordinal()` less one. */
  function DayNumber(d: Ymd): int
    requires ValidDate(d)
  {
    var y := d.year - 1;
    365 * y + y / 4 - y / 100 + y / 400 + DaysBeforeMonth(d.year, d.month) + d.day - 1
  }

  function DaysBeforeMonth(y: int, m: int): int
    requires 1 <= m <= 12
    decreases m
  {
    if m == 1 then 0 else DaysBeforeMonth(y, m - 1) + DaysInMonth(y, m - 1)
  }
}

=== FILE: dqa.dfy ===
/** The KOAID screening of the data quality step (`check_koaid`), the
    path each kept file is recorded under, the loop over a night's files
    in `_perform`, and the `filelist.table` it writes. */
module Dqa {
  import opened Wrappers
  import opened Text
  import opened Values
  import opened Dates
  import Reader

  // ---------------------------------------------------------------------
  // check_koaid

  /** Why a file is turned away. */
  datatype Rejection = BadKoaid | DuplicateKoaid | DateOutOfRange

  /** The exceptions the step raises: an `AttributeError` for a KOAID that
      is not text, a `ValueError` for a text that does not split into the
      expected number of parts, for a number or a date that does not parse,
      the `UnboundLocalError` of the science-file counter, the `NameError`
      of the zero-files notice, whose arguments name locals never assigned,
      and the exception for a missing locate file. */
  datatype Raise = NotText | Unpack(text: string) | NotNumber(text: string) | BadDateText(text: string) | SciFilesUnbound
                 | NoticeArgsUnbound | NoLocateFile

  datatype KoaidCheck = Accepted(koaid: string) | Rejected(why: Rejection) | Raised(err: Raise)

  /** `koaid == False or koaid == None`: a missing keyword, `False`, or a
      number equal to zero. */
  predicate FalseOrNone(koaid: Option<Cell>) {
    match koaid
    case None => true
    case Some(Undefined) => false
    case Some(Defined(v)) =>
      v == Bool(false) || v == Int(0) || (v.Float? && (v.repr == "0.0" || v.repr == "-0.0"))
  }

  /** A header value that is text. */
  predicate IsText(koaid: Option<Cell>) {
    koaid.Some? && koaid.value.Defined? && koaid.value.v.Str?
  }

  /** `utDate.replace('/', '-').replace('-', '')` */
  function CompactDate(utDate: string): string {
    ReplaceAll(ReplaceAll(utDate, "/", "-"), "-", "")
  }

  /** `d[:4] + '-' + d[4:6] + '-' + d[6:8]` */
  function DashedDate(d: string): string {
    PySlice(d, 0, 4) + "-" + PySlice(d, 4, 6) + "-" + PySlice(d, 6, 8)
  }

  /** The end of the night in seconds from `HH:MM:SS`; `toFloat` is Python's
      `float()` on text. */
  function EndTimeSeconds(endTime: string, toFloat: string -> Option<real>): Result<real, Raise> {
    var parts := Split(endTime, ':');
    if |parts| != 3 then Failure(Unpack(endTime))
    else if toFloat(parts[0]).None? then Failure(NotNumber(parts[0]))
    else if toFloat(parts[1]).None? then Failure(NotNumber(parts[1]))
    else if toFloat(parts[2]).None? then Failure(NotNumber(parts[2]))
    else Success(toFloat(parts[0]).value * 3600.0 + toFloat(parts[1]).value * 60.0 + toFloat(parts[2]).value)
  }

  /** `abs((b - a).days)` */
  function DayGap(a: Ymd, b: Ymd): nat
    requires ValidDate(a) && ValidDate(b)
  {
    var d := DayNumber(b) - DayNumber(a);
    if d < 0 then -d else d
  }

  /** The date test: a KOAID `prefix.kdate.ktime.postfix` is turned away
      only when its date is not the UT date, lies more than a day from it,
      and its time of day is before the end of the night. */
  function DateWindow(koaid: string, utDate: string, endTime: string, toFloat: string -> Option<real>): (r: KoaidCheck)
    ensures r.Accepted? ==> r.koaid == koaid
    ensures !r.Rejected? || r.why == DateOutOfRange
    ensures r.Raised? ==> !r.err.NotText? && !r.err.SciFilesUnbound? && !r.err.NoticeArgsUnbound? && !r.err.NoLocateFile?
  {
    var parts := Split(koaid, '.');
    if |parts| != 4 then Raised(Unpack(koaid))
    else
      match EndTimeSeconds(endTime, toFloat)
      case Failure(e) => Raised(e)
      case Success(endSec) => GapTest(koaid, parts[1], parts[2], CompactDate(utDate), endSec, toFloat)
  }

  /** The date test once the KOAID is split and the end of the night known. */
  function GapTest(koaid: string, kdate: string, ktime: string, idate: string, endSec: real,
                   toFloat: string -> Option<real>): (r: KoaidCheck)
    ensures r.Accepted? ==> r.koaid == koaid
    ensures !r.Rejected? || r.why == DateOutOfRange
    ensures r.Raised? ==> !r.err.NotText? && !r.err.SciFilesUnbound? && !r.err.NoticeArgsUnbound? && !r.err.NoLocateFile?
  {
    match StrptimeDate(DashedDate(kdate))
    case None => Raised(BadDateText(DashedDate(kdate)))
    case Some(a) =>
      match StrptimeDate(DashedDate(idate))
      case None => Raised(BadDateText(DashedDate(idate)))
      case Some(b) =>
        if kdate != idate && DayGap(a, b) > 1 then
          match toFloat(ktime)
          case None => Raised(NotNumber(ktime))
          case Some(t) => if t < endSec then Rejected(DateOutOfRange) else Accepted(koaid)
        else Accepted(koaid)
  }

  /** `check_koaid(instrObj, koaidList, log)` for the header's `KOAID`, the
      night's UT date and end time. */
  function CheckKoaid(koaid: Option<Cell>, koaidList: seq<string>, utDate: string, endTime: string,
                      toFloat: string -> Option<real>): (r: KoaidCheck)
    ensures r.Accepted? ==> koaid == Some(Defined(Str(r.koaid))) && r.koaid !in koaidList
    ensures r == Rejected(BadKoaid) <==> FalseOrNone(koaid)
    ensures r == Rejected(DuplicateKoaid) <==> IsText(koaid) && koaid.value.v.s in koaidList
    ensures r == Raised(NotText) <==> !FalseOrNone(koaid) && !IsText(koaid)
  {
    if FalseOrNone(koaid) then Rejected(BadKoaid)
    else if !IsText(koaid) then Raised(NotText)
    else if koaid.value.v.s in koaidList then Rejected(DuplicateKoaid)
    else DateWindow(koaid.value.v.s, utDate, endTime, toFloat)
  }

  /** `check_koaid` with the duplicate test made against the path the KOAID
      would be recorded under. */
  function CheckKoaidFixed(koaid: Option<Cell>, koaidList: seq<string>, utDate: string, endTime: string,
                           toFloat: string -> Option<real>): (r: KoaidCheck)
    ensures r.Accepted? ==> koaid == Some(Defined(Str(r.koaid))) && KoaidPath(r.koaid) !in koaidList
    ensures r == Rejected(BadKoaid) <==> FalseOrNone(koaid)
    ensures r == Rejected(DuplicateKoaid) <==> IsText(koaid) && KoaidPath(koaid.value.v.s) in koaidList
    ensures r == Raised(NotText) <==> !FalseOrNone(koaid) && !IsText(koaid)
  {
    if FalseOrNone(koaid) then Rejected(BadKoaid)
    else if !IsText(koaid) then Raised(NotText)
    else if KoaidPath(koaid.value.v.s) in koaidList then Rejected(DuplicateKoaid)
    else DateWindow(koaid.value.v.s, utDate, endTime, toFloat)
  }

  // ---------------------------------------------------------------------
  // KOAIDs built from a date

  /** `YYYYMMDD` */
  function CompactText(d: Ymd): (s: string)
    requires ValidDate(d)
    ensures |s| == 8 && forall i :: 0 <= i < 8 ==> IsDigit(s[i])
  {
    var f := FormatDate(d);
    f[..4] + f[5..7] + f[8..]
  }

  /** A KOAID: `prefix.YYYYMMDD.time.postfix`. */
  function KoaidText(prefix: string, kdate: string, ktime: string, postfix: string): string {
    prefix + "." + kdate + "." + ktime + "." + postfix
  }

  lemma KoaidSplit(prefix: string, kdate: string, ktime: string, postfix: string)
    requires '.' !in prefix && '.' !in kdate && '.' !in ktime && '.' !in postfix
    ensures Split(KoaidText(prefix, kdate, ktime, postfix), '.') == [prefix, kdate, ktime, postfix]
  {
    var parts := [prefix, kdate, ktime, postfix];
    assert Join(parts, ".") == KoaidText(prefix, kdate, ktime, postfix) by {
      assert parts[3..] == [postfix];
      assert Join(parts[2..], ".") == ktime + "." + postfix by {
        assert parts[2..][1..] == parts[3..];
      }
      assert Join(parts[1..], ".") == kdate + "." + ktime + "." + postfix by {
        assert parts[1..][1..] == parts[2..];
      }
    }
    SplitJoin(parts, '.');
  }

  lemma DashedCompact(d: Ymd)
    requires ValidDate(d)
    ensures DashedDate(CompactText(d)) == FormatDate(d)
  {
    var f, c := FormatDate(d), CompactText(d);
    assert PySlice(c, 0, 4) == f[..4];
    assert PySlice(c, 4, 6) == f[5..7];
    assert PySlice(c, 6, 8) == f[8..];
    assert f == f[..4] + "-" + f[5..7] + "-" + f[8..];
  }

  /** Distinct dates have distinct `YYYYMMDD` texts. */
  lemma CompactInjective(d: Ymd, u: Ymd)
    requires ValidDate(d) && ValidDate(u) && CompactText(d) == CompactText(u)
    ensures d == u
  {
    DashedCompact(d);
    DashedCompact(u);
    FormatDateParses(d);
    FormatDateParses(u);
  }

  /** Removing `-` passes over text without one. */
  lemma {:induction false} DropDash(x: string, y: string)
    requires '-' !in x
    ensures ReplaceAll(x + "-" + y, "-", "") == x + ReplaceAll(y, "-", "")
    decreases |x|
  {
    var s := x + "-" + y;
    if x == [] {
      assert StartsWith(s, "-") && s[1..] == y;
      ReplaceMatch(s, "-", "");
    } else {
      var t := x[1..] + "-" + y;
      assert s[1..] == t && s[0] == x[0];
      assert '-' !in x[1..];
      DropDash(x[1..], y);
      assert !StartsWith(s, "-");
      ReplaceSkip(s, "-", "");
      calc {
        ReplaceAll(s, "-", "");
        [x[0]] + ReplaceAll(t, "-", "");
        [x[0]] + (x[1..] + ReplaceAll(y, "-", ""));
        { assert [x[0]] + x[1..] == x; }
        x + ReplaceAll(y, "-", "");
      }
    }
  }

  /** Digits hold neither `-` nor `/`. */
  lemma DigitsOnly(t: string)
    requires forall i :: 0 <= i < |t| ==> IsDigit(t[i])
    ensures '-' !in t && '/' !in t
  {
  }

  /** Text shaped `YYYY-MM-DD` compacts to its eight digits. */
  lemma CompactDashed(f: string)
    requires |f| == 10 && f[4] == '-' && f[7] == '-'
    requires forall i :: 0 <= i < 10 && i != 4 && i != 7 ==> IsDigit(f[i])
    ensures CompactDate(f) == f[..4] + f[5..7] + f[8..]
  {
    var a, b, c := f[..4], f[5..7], f[8..];
    assert f == a + "-" + (b + "-" + c);
    DigitsOnly(a);
    DigitsOnly(b);
    DigitsOnly(c);
    assert '/' !in f;
    NoCharNoMatch(f, '/');
    ReplaceAbsent(f, "/", "-");
    DropDash(a, b + "-" + c);
    DropDash(b, c);
    NoCharNoMatch(c, '-');
    ReplaceAbsent(c, "-", "");
  }

  /** The UT date written `YYYY-MM-DD` compacts to `YYYYMMDD`. */
  lemma CompactFormatted(u: Ymd)
    requires ValidDate(u)
    ensures CompactDate(FormatDate(u)) == CompactText(u)
  {
    CompactDashed(FormatDate(u));
  }

  /** The date test on a KOAID built from date `d`, on the night of `u`. */
  lemma DateWindowOfDates(prefix: string, d: Ymd, ktime: string, postfix: string, u: Ymd,
                          endTime: string, toFloat: string -> Option<real>)
    requires ValidDate(d) && ValidDate(u)
    requires '.' !in prefix && '.' !in ktime && '.' !in postfix
    requires EndTimeSeconds(endTime, toFloat).Success?
    ensures var koaid := KoaidText(prefix, CompactText(d), ktime, postfix);
            var endSec := EndTimeSeconds(endTime, toFloat).value;
            DateWindow(koaid, FormatDate(u), endTime, toFloat) ==
              if d != u && DayGap(d, u) > 1 then
                match toFloat(ktime)
                case None => Raised(NotNumber(ktime))
                case Some(t) => if t < endSec then Rejected(DateOutOfRange) else Accepted(koaid)
              else Accepted(koaid)
  {
    var kdate := CompactText(d);
    assert '.' !in kdate;
    KoaidSplit(prefix, kdate, ktime, postfix);
    CompactFormatted(u);
    DashedCompact(d);
    DashedCompact(u);
    FormatDateParses(d);
    FormatDateParses(u);
    if CompactText(d) == CompactText(u) {
      CompactInjective(d, u);
    }
  }

  /** A KOAID dated the UT date, the day before or the day after, and not
      seen before, passes the check. */
  lemma NightKoaidAccepted(prefix: string, d: Ymd, ktime: string, postfix: string, koaidList: seq<string>,
                           u: Ymd, endTime: string, toFloat: string -> Option<real>)
    requires ValidDate(d) && ValidDate(u) && DayGap(d, u) <= 1
    requires '.' !in prefix && '.' !in ktime && '.' !in postfix
    requires EndTimeSeconds(endTime, toFloat).Success?
    requires KoaidText(prefix, CompactText(d), ktime, postfix) !in koaidList
    ensures var koaid := KoaidText(prefix, CompactText(d), ktime, postfix);
            CheckKoaid(Some(Defined(Str(koaid))), koaidList, FormatDate(u), endTime, toFloat) == Accepted(koaid)
  {
    TextToWindow(KoaidText(prefix, CompactText(d), ktime, postfix), koaidList, FormatDate(u), endTime, toFloat);
    DateWindowOfDates(prefix, d, ktime, postfix, u, endTime, toFloat);
  }

  /** A KOAID dated more than a day from the UT date is turned away exactly
      when its time of day is before the end of the night. */
  lemma FarKoaidRejected(prefix: string, d: Ymd, ktime: string, postfix: string, koaidList: seq<string>,
                         u: Ymd, endTime: string, toFloat: string -> Option<real>, t: real)
    requires ValidDate(d) && ValidDate(u) && DayGap(d, u) > 1
    requires '.' !in prefix && '.' !in ktime && '.' !in postfix
    requires EndTimeSeconds(endTime, toFloat).Success? && toFloat(ktime) == Some(t)
    requires KoaidText(prefix, CompactText(d), ktime, postfix) !in koaidList
    ensures var koaid := KoaidText(prefix, CompactText(d), ktime, postfix);
            var r := CheckKoaid(Some(Defined(Str(koaid))), koaidList, FormatDate(u), endTime, toFloat);
            (r == Rejected(DateOutOfRange) <==> t < EndTimeSeconds(endTime, toFloat).value)
            && (r.Accepted? <==> t >= EndTimeSeconds(endTime, toFloat).value)
  {
    TextToWindow(KoaidText(prefix, CompactText(d), ktime, postfix), koaidList, FormatDate(u), endTime, toFloat);
    DateWindowOfDates(prefix, d, ktime, postfix, u, endTime, toFloat);
  }

  // ---------------------------------------------------------------------
  // where a kept file is recorded

  /** The KOAID recorded for a kept file: camera (`NC`) and spectrograph
      (`NS`) files go under `scam/` and `spec/`. */
  function KoaidPath(koaid: string): (r: string)
    ensures StartsWith(koaid, "NC") ==> r == "scam/" + koaid
    ensures !StartsWith(koaid, "NC") && StartsWith(koaid, "NS") ==> r == "spec/" + koaid
    ensures !StartsWith(koaid, "NC") && !StartsWith(koaid, "NS") ==> r == koaid
  {
    if StartsWith(koaid, "NC") then "scam/" + koaid
    else if StartsWith(koaid, "NS") then "spec/" + koaid
    else koaid
  }

  /** Recording loses nothing: two KOAIDs (neither already a `scam/` or
      `spec/` path) are recorded under the same path exactly when they are
      the same KOAID, and the recorded path ends with the KOAID. */
  lemma {:induction false} KoaidPathInjective(a: string, b: string)
    requires !StartsWith(a, "scam/") && !StartsWith(a, "spec/")
    requires !StartsWith(b, "scam/") && !StartsWith(b, "spec/")
    ensures KoaidPath(a) == KoaidPath(b) <==> a == b
    ensures |KoaidPath(a)| >= |a| && KoaidPath(a)[|KoaidPath(a)| - |a|..] == a
  {
    var pa, pb := KoaidPath(a), KoaidPath(b);
    assert pa[|pa| - |a|..] == a;
    assert pb[|pb| - |b|..] == b;
    if pa == pb {
      if |pa| - |a| < |pb| - |b| {
        UnprefixedNotPrefixed(a, b);
      } else if |pb| - |b| < |pa| - |a| {
        UnprefixedNotPrefixed(b, a);
      }
    }
  }

  lemma UnprefixedNotPrefixed(a: string, b: string)
    requires !StartsWith(a, "scam/") && !StartsWith(a, "spec/")
    requires |KoaidPath(a)| - |a| < |KoaidPath(b)| - |b|
    ensures KoaidPath(a) != KoaidPath(b)
  {
  }

  /** A camera or spectrograph KOAID is never one of the recorded paths, so
      the duplicate test never turns it away. */
  lemma PrefixedNeverDuplicate(koaid: string, recorded: seq<string>, koaidList: seq<string>,
                               utDate: string, endTime: string, toFloat: string -> Option<real>)
    requires StartsWith(koaid, "NC") || StartsWith(koaid, "NS")
    requires |koaidList| == |recorded| && forall k :: 0 <= k < |recorded| ==> koaidList[k] == KoaidPath(recorded[k])
    ensures koaid !in koaidList
    ensures CheckKoaid(Some(Defined(Str(koaid))), koaidList, utDate, endTime, toFloat) != Rejected(DuplicateKoaid)
  {
    forall k | 0 <= k < |recorded| ensures koaidList[k] != koaid {
      var x := recorded[k];
      if StartsWith(x, "NC") || StartsWith(x, "NS") {
        assert koaidList[k][0] == 's' && koaid[0] == 'N';
      } else {
        assert koaidList[k] == x;
        assert koaid[..2] == "NC" || koaid[..2] == "NS";
      }
    }
  }


  // ---------------------------------------------------------------------
  // the loop over a night's files

  /** The locate list: one path per line, stripped. */
  function LocatedFiles(text: string): (files: seq<string>)
    ensures |files| == |FileLines(UniversalNewlines(text))|
    ensures forall k :: 0 <= k < |files| ==> Unpadded(files[k])
  {
    var lines := FileLines(UniversalNewlines(text));
    seq(|lines|, k requires 0 <= k < |lines| => Strip(lines[k]))
  }

  /** One file as the loop sees it: its path, whether the instrument's
      checks passed, the `KOAID` its header then holds, whether the level-0
      file was written, and whether it is a science frame. */
  datatype FitsFile = FitsFile(path: string, checksPass: bool, koaid: Option<Cell>, written: bool, science: bool)

  /** What the loop keeps: the paths that passed, their base names, the
      recorded KOAIDs, the files copied to `udf`, and the science count;
      `keptScience` says, for each kept file, whether it is a science
      frame. */
  datatype DqaState = DqaState(procFiles: seq<string>, inFiles: seq<string>, outFiles: seq<string>,
                               udf: seq<string>, sciFiles: nat, keptScience: seq<bool>)

  const Start := DqaState([], [], [], [], 0, [])

  /** The KOAID check as the loop applies it: to a header's KOAID and the
      KOAIDs recorded so far. */
  type Checker = (Option<Cell>, seq<string>) -> KoaidCheck

  /** The three lists grow together, each base name that of its path. */
  predicate Lockstep(st: DqaState) {
    && |st.inFiles| == |st.procFiles| && |st.outFiles| == |st.procFiles| && |st.keptScience| == |st.procFiles|
    && forall k :: 0 <= k < |st.procFiles| ==> st.inFiles[k] == Reader.Basename(st.procFiles[k])
  }

  /** A file that passed is listed by path, base name and recorded KOAID. */
  function Keep(st: DqaState, path: string, koaid: string, science: bool): (r: DqaState)
    requires Lockstep(st)
    ensures Lockstep(r)
    ensures r.procFiles == st.procFiles + [path] && r.keptScience == st.keptScience + [science]
    ensures r.outFiles == st.outFiles + [KoaidPath(koaid)] && r.udf == st.udf && r.sciFiles == st.sciFiles
  {
    st.(procFiles := st.procFiles + [path], inFiles := st.inFiles + [Reader.Basename(path)],
        outFiles := st.outFiles + [KoaidPath(koaid)], keptScience := st.keptScience + [science])
  }

  /** Where a file ends up. */
  datatype Fate = ToUdf | Kept(koaid: string) | Raises(err: Raise)

  function FateOf(f: FitsFile, outFiles: seq<string>, check: Checker): (r: Fate)
    ensures r.Kept? ==> f.checksPass && f.written && check(f.koaid, outFiles) == Accepted(r.koaid)
    ensures r.Raises? ==> f.checksPass && check(f.koaid, outFiles) == Raised(r.err)
    ensures r == ToUdf <==> !f.checksPass || check(f.koaid, outFiles).Rejected? || (check(f.koaid, outFiles).Accepted? && !f.written)
  {
    if !f.checksPass then ToUdf
    else match check(f.koaid, outFiles)
      case Raised(e) => Raises(e)
      case Rejected(_) => ToUdf
      case Accepted(k) => if f.written then Kept(k) else ToUdf
  }

  /** The loop as written: counting a science file raises, since the
      counter it increments is a local name never assigned. */
  function ProcessFiles(files: seq<FitsFile>, st: DqaState, check: Checker): (r: Result<DqaState, Raise>)
    requires Lockstep(st)
    ensures r.Success? ==> Lockstep(r.value)
    ensures r.Success? ==> |r.value.procFiles| + |r.value.udf| == |st.procFiles| + |st.udf| + |files|
    decreases |files|
  {
    if files == [] then Success(st)
    else
      var f := files[0];
      match FateOf(f, st.outFiles, check)
      case Raises(e) => Failure(e)
      case ToUdf => ProcessFiles(files[1..], st.(udf := st.udf + [f.path]), check)
      case Kept(k) =>
        if f.science then Failure(SciFilesUnbound)
        else ProcessFiles(files[1..], Keep(st, f.path, k, f.science), check)
  }

  /** How many flags are set. */
  function Trues(bs: seq<bool>): (n: nat)
    ensures n <= |bs|
  {
    if bs == [] then 0 else (if bs[0] then 1 else 0) + Trues(bs[1..])
  }

  lemma {:induction false} TruesAppend(bs: seq<bool>, b: bool)
    ensures Trues(bs + [b]) == Trues(bs) + if b then 1 else 0
    decreases |bs|
  {
    if bs == [] {
      assert bs + [b] == [b] && [b][1..] == [];
    } else {
      assert (bs + [b])[1..] == bs[1..] + [b];
      TruesAppend(bs[1..], b);
    }
  }

  /** Each file's path with its science flag. */
  function PathFlags(files: seq<FitsFile>): (r: seq<(string, bool)>)
    ensures |r| == |files| && forall j :: 0 <= j < |files| ==> r[j] == (files[j].path, files[j].science)
  {
    seq(|files|, j requires 0 <= j < |files| => (files[j].path, files[j].science))
  }

  /** The loop corrected: kept science files are counted. The count grows
      by the number of kept files flagged as science frames. */
  function ProcessFilesFixed(files: seq<FitsFile>, st: DqaState, check: Checker): (r: Result<DqaState, Raise>)
    requires Lockstep(st)
    ensures r.Success? ==> Lockstep(r.value)
    ensures r.Success? ==> |r.value.procFiles| + |r.value.udf| == |st.procFiles| + |st.udf| + |files|
    ensures r.Success? ==> r.value.sciFiles - st.sciFiles <= |r.value.procFiles| - |st.procFiles|
    ensures r.Success? ==> st.procFiles <= r.value.procFiles && st.keptScience <= r.value.keptScience
    ensures r.Success? ==> r.value.sciFiles - st.sciFiles == Trues(r.value.keptScience) - Trues(st.keptScience)
    decreases |files|
  {
    if files == [] then Success(st)
    else
      var f := files[0];
      match FateOf(f, st.outFiles, check)
      case Raises(e) => Failure(e)
      case ToUdf => ProcessFilesFixed(files[1..], st.(udf := st.udf + [f.path]), check)
      case Kept(k) =>
        var next := Keep(st, f.path, k, f.science).(sciFiles := st.sciFiles + if f.science then 1 else 0);
        TruesAppend(st.keptScience, f.science);
        ProcessFilesFixed(files[1..], next, check)
  }

  /** Corrected, each kept file's science flag is that of a file with its
      path, so the count is the number of kept science frames. */
  lemma KeptFlagsFromFiles(files: seq<FitsFile>, st: DqaState, check: Checker)
    requires Lockstep(st) && ProcessFilesFixed(files, st, check).Success?
    ensures var r := ProcessFilesFixed(files, st, check).value;
            forall k :: |st.procFiles| <= k < |r.procFiles| ==> (r.procFiles[k], r.keptScience[k]) in PathFlags(files)
  {
    var pool := set j | 0 <= j < |files| :: PathFlags(files)[j];
    forall j | 0 <= j < |files| ensures (files[j].path, files[j].science) in pool {
      assert PathFlags(files)[j] in pool;
    }
    KeptFlagsIn(files, st, check, pool);
  }

  lemma FlagsFrom(paths: seq<string>, flags: seq<bool>, n: nat, pool: set<(string, bool)>)
    requires n < |paths| <= |flags| && (paths[n], flags[n]) in pool
    requires forall i :: n + 1 <= i < |paths| ==> (paths[i], flags[i]) in pool
    ensures forall i :: n <= i < |paths| ==> (paths[i], flags[i]) in pool
  {
  }

  lemma {:induction false} KeptFlagsIn(files: seq<FitsFile>, st: DqaState, check: Checker, pool: set<(string, bool)>)
    requires Lockstep(st) && ProcessFilesFixed(files, st, check).Success?
    requires forall j :: 0 <= j < |files| ==> (files[j].path, files[j].science) in pool
    ensures var r := ProcessFilesFixed(files, st, check).value;
            forall k :: |st.procFiles| <= k < |r.procFiles| ==> (r.procFiles[k], r.keptScience[k]) in pool
    decreases |files|
  {
    if files != [] {
      var f, tail := files[0], files[1..];
      forall j | 0 <= j < |tail| ensures (tail[j].path, tail[j].science) in pool {
        assert tail[j] == files[j + 1];
      }
      match FateOf(f, st.outFiles, check)
      case ToUdf =>
        KeptFlagsIn(tail, st.(udf := st.udf + [f.path]), check, pool);
      case Kept(k) =>
        var next := Keep(st, f.path, k, f.science).(sciFiles := st.sciFiles + if f.science then 1 else 0);
        KeptFlagsIn(tail, next, check, pool);
        var r := ProcessFilesFixed(tail, next, check).value;
        assert ProcessFilesFixed(files, st, check).value == r;
        var n := |st.procFiles|;
        assert next.procFiles[n] == f.path && next.keptScience[n] == f.science;
        assert r.procFiles[n] == f.path && r.keptScience[n] == f.science;
        assert (f.path, f.science) in pool;
        FlagsFrom(r.procFiles, r.keptScience, n, pool);
    }
  }

  /** `check_koaid` for the night, as written and corrected. */
  function NightCheck(utDate: string, endTime: string, toFloat: string -> Option<real>): Checker {
    (c: Option<Cell>, l: seq<string>) => CheckKoaid(c, l, utDate, endTime, toFloat)
  }

  function NightCheckFixed(utDate: string, endTime: string, toFloat: string -> Option<real>): Checker {
    (c: Option<Cell>, l: seq<string>) => CheckKoaidFixed(c, l, utDate, endTime, toFloat)
  }

  /** `_perform` over the located files, as written: an empty list goes to
      the zero-files notice, which raises; otherwise the loop runs. */
  function Perform(files: seq<FitsFile>, utDate: string, endTime: string, toFloat: string -> Option<real>): Result<DqaState, Raise> {
    if files == [] then Failure(NoticeArgsUnbound)
    else ProcessFiles(files, Start, NightCheck(utDate, endTime, toFloat))
  }

  /** `_perform` corrected: an empty list is noticed and the step returns
      with nothing kept; the loop counts science files and tests duplicates
      against the recorded paths. */
  function PerformFixed(files: seq<FitsFile>, utDate: string, endTime: string, toFloat: string -> Option<real>): Result<DqaState, Raise> {
    if files == [] then Success(Start)
    else ProcessFilesFixed(files, Start, NightCheckFixed(utDate, endTime, toFloat))
  }

  /** A checker that never raises `e` keeps the loop from raising it,
      unless `e` is the science counter's own error. */
  lemma {:induction false} LoopNeverRaises(files: seq<FitsFile>, st: DqaState, check: Checker, e: Raise)
    requires Lockstep(st)
    requires !e.SciFilesUnbound?
    requires forall c, l :: check(c, l).Raised? ==> check(c, l).err != e
    ensures ProcessFiles(files, st, check) != Failure(e)
    decreases |files|
  {
    if files != [] {
      var f := files[0];
      match FateOf(f, st.outFiles, check)
      case Raises(_) =>
      case ToUdf =>
        LoopNeverRaises(files[1..], st.(udf := st.udf + [f.path]), check, e);
      case Kept(k) =>
        if !f.science {
          LoopNeverRaises(files[1..], Keep(st, f.path, k, f.science), check, e);
        }
    }
  }

  /** The same for the corrected loop, which raises nothing of its own. */
  lemma {:induction false} LoopFixedNeverRaises(files: seq<FitsFile>, st: DqaState, check: Checker, e: Raise)
    requires Lockstep(st)
    requires forall c, l :: check(c, l).Raised? ==> check(c, l).err != e
    ensures ProcessFilesFixed(files, st, check) != Failure(e)
    decreases |files|
  {
    if files != [] {
      var f := files[0];
      match FateOf(f, st.outFiles, check)
      case Raises(_) =>
      case ToUdf =>
        LoopFixedNeverRaises(files[1..], st.(udf := st.udf + [f.path]), check, e);
      case Kept(k) =>
        var next := Keep(st, f.path, k, f.science).(sciFiles := st.sciFiles + if f.science then 1 else 0);
        LoopFixedNeverRaises(files[1..], next, check, e);
    }
  }

  /** The night's KOAID check raises neither the zero-files `NameError` nor
      the missing-locate-file exception. */
  lemma NightCheckRaises(utDate: string, endTime: string, toFloat: string -> Option<real>)
    ensures forall c, l :: NightCheck(utDate, endTime, toFloat)(c, l).Raised? ==>
              var e := NightCheck(utDate, endTime, toFloat)(c, l).err; !e.NoticeArgsUnbound? && !e.NoLocateFile?
    ensures forall c, l :: NightCheckFixed(utDate, endTime, toFloat)(c, l).Raised? ==>
              var e := NightCheckFixed(utDate, endTime, toFloat)(c, l).err; !e.NoticeArgsUnbound? && !e.NoLocateFile?
  {
    forall c, l ensures NightCheck(utDate, endTime, toFloat)(c, l) == CheckKoaid(c, l, utDate, endTime, toFloat) { }
    forall c, l ensures NightCheckFixed(utDate, endTime, toFloat)(c, l) == CheckKoaidFixed(c, l, utDate, endTime, toFloat) { }
  }

  /** As written, `_perform` raises the zero-files `NameError` exactly when
      no file was located. */
  lemma ZeroFilesRaise(files: seq<FitsFile>, utDate: string, endTime: string, toFloat: string -> Option<real>)
    ensures Perform(files, utDate, endTime, toFloat) == Failure(NoticeArgsUnbound) <==> files == []
  {
    if files != [] {
      NightCheckRaises(utDate, endTime, toFloat);
      LoopNeverRaises(files, Start, NightCheck(utDate, endTime, toFloat), NoticeArgsUnbound);
    }
  }

  /** Corrected, a night with no located files returns with no file kept,
      none sent to `udf` and no science frame counted. */
  lemma ZeroFilesReturn(files: seq<FitsFile>, utDate: string, endTime: string, toFloat: string -> Option<real>)
    requires files == []
    ensures PerformFixed(files, utDate, endTime, toFloat).Success?
    ensures var st := PerformFixed(files, utDate, endTime, toFloat).value;
            st.procFiles == [] && st.outFiles == [] && st.udf == [] && st.sciFiles == 0
  {
  }

  /** The locate list the step reads: `stage + '/dep_locate' + instr + '.txt'`. */
  function LocatePath(stage: string, instr: string): string {
    stage + "/dep_locate" + instr + ".txt"
  }

  /** The files the loop sees, one per located path; `observe` stands for
      what the instrument object and the FITS header report of the file at
      a path. */
  function Observed(paths: seq<string>, observe: string -> FitsFile): (files: seq<FitsFile>)
    ensures |files| == |paths|
    ensures forall k :: 0 <= k < |paths| ==> files[k] == observe(paths[k])
  {
    seq(|paths|, k requires 0 <= k < |paths| => observe(paths[k]))
  }

  /** `_perform` from the staging directory, as written: `disk` maps each
      existing path to its text; a missing locate list raises, otherwise
      its stripped lines are the night's files. */
  function PerformStep(disk: map<string, string>, stage: string, instr: string, observe: string -> FitsFile,
                       utDate: string, endTime: string, toFloat: string -> Option<real>): Result<DqaState, Raise> {
    var locate := LocatePath(stage, instr);
    if locate !in disk then Failure(NoLocateFile)
    else Perform(Observed(LocatedFiles(disk[locate]), observe), utDate, endTime, toFloat)
  }

  /** The same, corrected. */
  function PerformStepFixed(disk: map<string, string>, stage: string, instr: string, observe: string -> FitsFile,
                            utDate: string, endTime: string, toFloat: string -> Option<real>): Result<DqaState, Raise> {
    var locate := LocatePath(stage, instr);
    if locate !in disk then Failure(NoLocateFile)
    else PerformFixed(Observed(LocatedFiles(disk[locate]), observe), utDate, endTime, toFloat)
  }

  /** The step raises the missing-locate-file exception exactly when the
      locate list does not exist, as written and corrected. */
  lemma MissingLocateRaises(disk: map<string, string>, stage: string, instr: string, observe: string -> FitsFile,
                            utDate: string, endTime: string, toFloat: string -> Option<real>)
    ensures PerformStep(disk, stage, instr, observe, utDate, endTime, toFloat) == Failure(NoLocateFile)
            <==> LocatePath(stage, instr) !in disk
    ensures PerformStepFixed(disk, stage, instr, observe, utDate, endTime, toFloat) == Failure(NoLocateFile)
            <==> LocatePath(stage, instr) !in disk
  {
    var locate := LocatePath(stage, instr);
    if locate in disk {
      var files := Observed(LocatedFiles(disk[locate]), observe);
      if files != [] {
        NightCheckRaises(utDate, endTime, toFloat);
        LoopNeverRaises(files, Start, NightCheck(utDate, endTime, toFloat), NoLocateFile);
        LoopFixedNeverRaises(files, Start, NightCheckFixed(utDate, endTime, toFloat), NoLocateFile);
      }
    }
  }

  /** As written, the step raises the zero-files `NameError` exactly when
      the locate list exists and has no line; corrected, it then returns
      with nothing kept. */
  lemma EmptyLocateList(disk: map<string, string>, stage: string, instr: string, observe: string -> FitsFile,
                        utDate: string, endTime: string, toFloat: string -> Option<real>)
    ensures PerformStep(disk, stage, instr, observe, utDate, endTime, toFloat) == Failure(NoticeArgsUnbound)
            <==> LocatePath(stage, instr) in disk && LocatedFiles(disk[LocatePath(stage, instr)]) == []
    ensures LocatePath(stage, instr) in disk && LocatedFiles(disk[LocatePath(stage, instr)]) == [] ==>
            PerformStepFixed(disk, stage, instr, observe, utDate, endTime, toFloat) == Success(Start)
  {
    var locate := LocatePath(stage, instr);
    if locate in disk {
      var paths := LocatedFiles(disk[locate]);
      ZeroFilesRaise(Observed(paths, observe), utDate, endTime, toFloat);
    }
  }

  /** Only an empty locate file lists no file: a line break alone is a
      line, which strips to an empty path. */
  lemma NoFilesOnlyEmpty(text: string)
    ensures LocatedFiles(text) == [] <==> text == []
  {
    if text != [] {
      var u := UniversalNewlines(text);
      assert u != [];
      assert Concat([]) == [];
    }
  }

  /** With no science frames among them, the loop as written and the
      corrected loop agree. */
  lemma {:induction false} NoScienceAgrees(files: seq<FitsFile>, st: DqaState, check: Checker)
    requires Lockstep(st)
    requires forall k :: 0 <= k < |files| ==> !files[k].science
    ensures ProcessFiles(files, st, check) == ProcessFilesFixed(files, st, check)
    decreases |files|
  {
    if files != [] {
      var f := files[0];
      match FateOf(f, st.outFiles, check)
      case Raises(e) =>
      case ToUdf =>
        NoScienceAgrees(files[1..], st.(udf := st.udf + [f.path]), check);
      case Kept(k) =>
        assert Keep(st, f.path, k, f.science).(sciFiles := st.sciFiles + 0) == Keep(st, f.path, k, f.science);
        NoScienceAgrees(files[1..], Keep(st, f.path, k, f.science), check);
    }
  }

  /** As written, a science frame that is kept raises. */
  lemma {:induction false} KeptScienceRaises(files: seq<FitsFile>, st: DqaState, check: Checker, i: nat)
    requires Lockstep(st) && i < |files| && files[i].science
    requires ProcessFiles(files[..i], st, check).Success?
    requires FateOf(files[i], ProcessFiles(files[..i], st, check).value.outFiles, check).Kept?
    ensures ProcessFiles(files, st, check) == Failure(SciFilesUnbound)
    decreases i
  {
    var f := files[0];
    if i == 0 {
      assert files[..0] == [];
    } else {
      assert files[..i][0] == f && files[..i][1..] == files[1..][..i - 1];
      match FateOf(f, st.outFiles, check)
      case ToUdf =>
        KeptScienceRaises(files[1..], st.(udf := st.udf + [f.path]), check, i - 1);
      case Kept(k) =>
        KeptScienceRaises(files[1..], Keep(st, f.path, k, f.science), check, i - 1);
    }
  }

  /** A check that never accepts a KOAID whose path is already recorded. */
  ghost predicate GuardsPaths(check: Checker) {
    forall c, l :: check(c, l).Accepted? ==> KoaidPath(check(c, l).koaid) !in l
  }

  /** Under such a check, no path is recorded twice. */
  lemma {:induction false} RecordsOnce(files: seq<FitsFile>, st: DqaState, check: Checker)
    requires Lockstep(st) && NoDuplicates(st.outFiles) && GuardsPaths(check)
    requires ProcessFilesFixed(files, st, check).Success?
    ensures NoDuplicates(ProcessFilesFixed(files, st, check).value.outFiles)
    decreases |files|
  {
    if files != [] {
      var f := files[0];
      match FateOf(f, st.outFiles, check)
      case ToUdf =>
        RecordsOnce(files[1..], st.(udf := st.udf + [f.path]), check);
      case Kept(k) =>
        assert KoaidPath(k) !in st.outFiles;
        var next := Keep(st, f.path, k, f.science).(sciFiles := st.sciFiles + if f.science then 1 else 0);
        RecordsOnce(files[1..], next, check);
    }
  }

  /** Corrected, a night's kept files are recorded under distinct paths. */
  lemma FixedRecordsOnce(files: seq<FitsFile>, utDate: string, endTime: string, toFloat: string -> Option<real>)
    requires PerformFixed(files, utDate, endTime, toFloat).Success?
    ensures NoDuplicates(PerformFixed(files, utDate, endTime, toFloat).value.outFiles)
  {
    var check := NightCheckFixed(utDate, endTime, toFloat);
    assert GuardsPaths(check);
    RecordsOnce(files, Start, check);
  }

  lemma KeepTwice(path: string, koaid: string)
    requires StartsWith(koaid, "NC")
    ensures Keep(Start, path, koaid, false) == DqaState([path], [Reader.Basename(path)], ["scam/" + koaid], [], 0, [false])
    ensures Keep(Keep(Start, path, koaid, false), path, koaid, false) ==
              DqaState([path, path], [Reader.Basename(path), Reader.Basename(path)], ["scam/" + koaid, "scam/" + koaid], [], 0, [false, false])
  {
    var b, o := Reader.Basename(path), KoaidPath(koaid);
    assert o == "scam/" + koaid;
    KeepOnce(path, koaid);
    KeepAgain(DqaState([path], [b], [o], [], 0, [false]), path, koaid);
  }

  lemma KeepOnce(path: string, koaid: string)
    ensures Keep(Start, path, koaid, false) == DqaState([path], [Reader.Basename(path)], [KoaidPath(koaid)], [], 0, [false])
  {
    var once := Keep(Start, path, koaid, false);
    assert once.procFiles == [path] && once.keptScience == [false];
    assert once.inFiles == [Reader.Basename(path)] && once.outFiles == [KoaidPath(koaid)];
  }

  lemma KeepAgain(st: DqaState, path: string, koaid: string)
    requires st == DqaState([path], [Reader.Basename(path)], [KoaidPath(koaid)], [], 0, [false])
    ensures Lockstep(st)
    ensures Keep(st, path, koaid, false) ==
              DqaState([path, path], [st.inFiles[0], st.inFiles[0]], [st.outFiles[0], st.outFiles[0]], [], 0, [false, false])
  {
    assert Lockstep(st) by {
      forall k | 0 <= k < |st.procFiles| ensures st.inFiles[k] == Reader.Basename(st.procFiles[k]) {
        assert k == 0 && st.procFiles[0] == path;
      }
    }
    var r := Keep(st, path, koaid, false);
    assert r.procFiles == [path, path] && r.keptScience == [false, false];
    assert r.inFiles == [st.inFiles[0], st.inFiles[0]] && r.outFiles == [st.outFiles[0], st.outFiles[0]];
  }

  /** A check accepting a KOAID both before and after it is recorded keeps
      the same file twice. */
  lemma KeptTwice(f: FitsFile, koaid: string, check: Checker)
    requires StartsWith(koaid, "NC") && f.checksPass && f.written && !f.science
    requires check(f.koaid, []) == Accepted(koaid) && check(f.koaid, ["scam/" + koaid]) == Accepted(koaid)
    ensures ProcessFiles([f, f], Start, check) == Success(DqaState([f.path, f.path],
              [Reader.Basename(f.path), Reader.Basename(f.path)], ["scam/" + koaid, "scam/" + koaid], [], 0, [false, false]))
  {
    var once := Keep(Start, f.path, koaid, false);
    KeepTwice(f.path, koaid);
    assert FateOf(f, once.outFiles, check) == Kept(koaid);
    assert ProcessFiles([f], once, check) == Success(Keep(once, f.path, koaid, false)) by {
      assert [f][1..] == [];
    }
    assert Start.outFiles == [];
    assert ProcessFiles([f, f], Start, check) == ProcessFiles([f], once, check) by {
      assert [f, f][1..] == [f];
    }
  }

  /** A check that accepts a KOAID, then turns it away once its path is
      recorded, keeps the file once. */
  lemma KeptOnce(f: FitsFile, koaid: string, check: Checker)
    requires StartsWith(koaid, "NC") && f.checksPass && f.written && !f.science
    requires check(f.koaid, []) == Accepted(koaid) && check(f.koaid, ["scam/" + koaid]).Rejected?
    ensures ProcessFilesFixed([f, f], Start, check) == Success(DqaState([f.path],
              [Reader.Basename(f.path)], ["scam/" + koaid], [f.path], 0, [false]))
  {
    var once := Keep(Start, f.path, koaid, false).(sciFiles := 0);
    KeepTwice(f.path, koaid);
    assert FateOf(f, once.outFiles, check) == ToUdf;
    assert ProcessFilesFixed([f], once, check) == ProcessFilesFixed([], once.(udf := [f.path]), check) by {
      assert [f][1..] == [];
    }
    assert Start.outFiles == [] && Start.sciFiles == 0;
    assert ProcessFilesFixed([f, f], Start, check) == ProcessFilesFixed([f], once, check) by {
      assert [f, f][1..] == [f];
    }
  }

  /** As written, a camera KOAID that passes the date test passes the
      check again once recorded; corrected, it is then a duplicate. */
  lemma PrefixedRechecked(koaid: string, utDate: string, endTime: string, toFloat: string -> Option<real>)
    requires StartsWith(koaid, "NC")
    requires DateWindow(koaid, utDate, endTime, toFloat).Accepted?
    ensures var c := Some(Defined(Str(koaid)));
            && NightCheck(utDate, endTime, toFloat)(c, []) == Accepted(koaid)
            && NightCheck(utDate, endTime, toFloat)(c, ["scam/" + koaid]) == Accepted(koaid)
            && NightCheckFixed(utDate, endTime, toFloat)(c, []) == Accepted(koaid)
            && NightCheckFixed(utDate, endTime, toFloat)(c, ["scam/" + koaid]) == Rejected(DuplicateKoaid)
  {
    assert koaid !in ["scam/" + koaid] by {
      assert |koaid| < |"scam/" + koaid|;
    }
    TextToWindow(koaid, [], utDate, endTime, toFloat);
    TextToWindow(koaid, ["scam/" + koaid], utDate, endTime, toFloat);
    assert KoaidPath(koaid) == "scam/" + koaid;
  }

  /** A text KOAID not yet listed gets the date test's verdict. */
  lemma TextToWindow(koaid: string, koaidList: seq<string>, utDate: string, endTime: string, toFloat: string -> Option<real>)
    requires koaid !in koaidList
    ensures CheckKoaid(Some(Defined(Str(koaid))), koaidList, utDate, endTime, toFloat) == DateWindow(koaid, utDate, endTime, toFloat)
    ensures KoaidPath(koaid) !in koaidList ==>
              CheckKoaidFixed(Some(Defined(Str(koaid))), koaidList, utDate, endTime, toFloat) == DateWindow(koaid, utDate, endTime, toFloat)
  {
  }

  /** As written, the same camera file twice is recorded twice under one
      path. */
  lemma PrefixedDuplicateKept(f: FitsFile, koaid: string, utDate: string, endTime: string, toFloat: string -> Option<real>)
    requires StartsWith(koaid, "NC") && f.koaid == Some(Defined(Str(koaid)))
    requires f.checksPass && f.written && !f.science
    requires DateWindow(koaid, utDate, endTime, toFloat).Accepted?
    ensures Perform([f, f], utDate, endTime, toFloat) == Success(DqaState([f.path, f.path],
              [Reader.Basename(f.path), Reader.Basename(f.path)], ["scam/" + koaid, "scam/" + koaid], [], 0, [false, false]))
  {
    PrefixedRechecked(koaid, utDate, endTime, toFloat);
    KeptTwice(f, koaid, NightCheck(utDate, endTime, toFloat));
  }

  /** Corrected, the second copy of a file goes to `udf`. */
  lemma PrefixedDuplicateDropped(f: FitsFile, koaid: string, utDate: string, endTime: string, toFloat: string -> Option<real>)
    requires StartsWith(koaid, "NC") && f.koaid == Some(Defined(Str(koaid)))
    requires f.checksPass && f.written && !f.science
    requires DateWindow(koaid, utDate, endTime, toFloat).Accepted?
    ensures PerformFixed([f, f], utDate, endTime, toFloat) == Success(DqaState([f.path],
              [Reader.Basename(f.path)], ["scam/" + koaid], [f.path], 0, [false]))
  {
    PrefixedRechecked(koaid, utDate, endTime, toFloat);
    KeptOnce(f, koaid, NightCheckFixed(utDate, endTime, toFloat));
  }

  /** The stage's own list: every kept path on a line. */
  function DqaListText(procFiles: seq<string>): string {
    Concat(Terminated(procFiles))
  }

  /** Read back as the locate list is, the stage's list gives the kept
      paths, when they are free of line breaks and outer spaces. */
  lemma DqaListReadsBack(procFiles: seq<string>)
    requires forall k :: 0 <= k < |procFiles| ==> procFiles[k] != [] && Unpadded(procFiles[k])
    requires forall k :: 0 <= k < |procFiles| ==> '\n' !in procFiles[k] && '\r' !in procFiles[k]
    ensures LocatedFiles(DqaListText(procFiles)) == procFiles
  {
    var text := DqaListText(procFiles);
    DqaListLines(procFiles);
    StripTerminated(procFiles);
    var located, lines := LocatedFiles(text), Terminated(procFiles);
    assert |located| == |procFiles|;
    forall k | 0 <= k < |procFiles| ensures located[k] == procFiles[k] {
      assert located[k] == Strip(lines[k]);
    }
    SameByIndex(located, procFiles);
  }

  lemma DqaListLines(procFiles: seq<string>)
    requires forall k :: 0 <= k < |procFiles| ==> procFiles[k] != [] && '\n' !in procFiles[k] && '\r' !in procFiles[k]
    ensures FileLines(UniversalNewlines(DqaListText(procFiles))) == Terminated(procFiles)
  {
    ConcatKeepsOut(Terminated(procFiles), '\r');
    FileLinesOfTerminated(procFiles);
  }

  lemma StripTerminated(procFiles: seq<string>)
    requires forall k :: 0 <= k < |procFiles| ==> procFiles[k] != [] && Unpadded(procFiles[k])
    ensures forall k :: 0 <= k < |procFiles| ==> Strip(Terminated(procFiles)[k]) == procFiles[k]
  {
    var lines := Terminated(procFiles);
    forall k | 0 <= k < |procFiles| ensures Strip(lines[k]) == procFiles[k] {
      StripLine(procFiles[k], "\n");
    }
  }

  // ---------------------------------------------------------------------
  // filelist.table

  /** One `in out` line per kept file, then the count. */
  function FileListLines(inFiles: seq<string>, outFiles: seq<string>): (r: seq<string>)
    requires |inFiles| == |outFiles|
    ensures |r| == |inFiles| + 1
    ensures forall k :: 0 <= k < |inFiles| ==> r[k] == inFiles[k] + " " + outFiles[k]
    ensures r[|inFiles|] == "    " + NatToString(|inFiles|) + " Total FITS files"
  {
    seq(|inFiles|, k requires 0 <= k < |inFiles| => inFiles[k] + " " + outFiles[k])
      + ["    " + NatToString(|inFiles|) + " Total FITS files"]
  }

  /** The text of `<date>.filelist.table`. */
  function FileListText(inFiles: seq<string>, outFiles: seq<string>): string
    requires |inFiles| == |outFiles|
  {
    Concat(Terminated(FileListLines(inFiles, outFiles)))
  }

  /** Each line but the last split at its one space. */
  function ReadPairs(lines: seq<string>): (r: Option<seq<(string, string)>>)
    ensures r.Some? ==> |r.value| == |lines|
  {
    if lines == [] then Some([])
    else
      var parts := Split(Reader.DropNewline(lines[0]), ' ');
      if |parts| != 2 then None
      else
        match ReadPairs(lines[1..])
        case None => None
        case Some(ps) => Some([(parts[0], parts[1])] + ps)
  }

  /** Reading a file list back: the name pairs, and the closing line. */
  function ReadFileList(text: string): Option<(seq<(string, string)>, string)> {
    var lines := FileLines(text);
    if lines == [] then None
    else
      match ReadPairs(lines[..|lines| - 1])
      case None => None
      case Some(ps) => Some((ps, Reader.DropNewline(lines[|lines| - 1])))
  }

  function Pairs(xs: seq<string>, ys: seq<string>): (r: seq<(string, string)>)
    requires |xs| == |ys|
    ensures |r| == |xs| && forall k :: 0 <= k < |xs| ==> r[k] == (xs[k], ys[k])
  {
    seq(|xs|, k requires 0 <= k < |xs| => (xs[k], ys[k]))
  }

  lemma PairsCons(xs: seq<string>, ys: seq<string>)
    requires |xs| == |ys| > 0
    ensures Pairs(xs, ys) == [(xs[0], ys[0])] + Pairs(xs[1..], ys[1..])
  {
  }

  lemma PairLineSplits(line: string, x: string, y: string)
    requires line == x + " " + y + "\n" && ' ' !in x && ' ' !in y
    ensures Split(Reader.DropNewline(line), ' ') == [x, y]
  {
    assert Reader.DropNewline(line) == x + " " + y by {
      assert line[..|line| - 1] == x + " " + y;
    }
    SplitCons(x, ' ', y);
  }

  lemma {:induction false} ReadPairsOfLines(lines: seq<string>, xs: seq<string>, ys: seq<string>)
    requires |lines| == |xs| == |ys|
    requires forall k :: 0 <= k < |lines| ==> lines[k] == xs[k] + " " + ys[k] + "\n" && ' ' !in xs[k] && ' ' !in ys[k]
    ensures ReadPairs(lines) == Some(Pairs(xs, ys))
    decreases |lines|
  {
    if lines != [] {
      ReadPairsOfLines(lines[1..], xs[1..], ys[1..]);
      PairLineSplits(lines[0], xs[0], ys[0]);
      PairsCons(xs, ys);
    }
  }

  lemma ListLinesSafe(inFiles: seq<string>, outFiles: seq<string>)
    requires |inFiles| == |outFiles|
    requires forall k :: 0 <= k < |inFiles| ==> '\n' !in inFiles[k] && '\n' !in outFiles[k]
    ensures var ls := FileListLines(inFiles, outFiles); forall k :: 0 <= k < |ls| ==> '\n' !in ls[k]
  {
    var ls := FileListLines(inFiles, outFiles);
    forall k | 0 <= k < |ls| ensures '\n' !in ls[k] {
      if k < |inFiles| {
        assert ls[k] == inFiles[k] + " " + outFiles[k];
      } else {
        var digits := NatToString(|inFiles|);
        assert '\n' !in digits by {
          assert forall c :: c in digits ==> IsDigit(c);
        }
        assert ls[k] == "    " + digits + " Total FITS files";
      }
    }
  }

  lemma FileListFileLines(inFiles: seq<string>, outFiles: seq<string>)
    requires |inFiles| == |outFiles|
    requires forall k :: 0 <= k < |inFiles| ==> '\n' !in inFiles[k] && '\n' !in outFiles[k]
    ensures FileLines(FileListText(inFiles, outFiles)) == Terminated(FileListLines(inFiles, outFiles))
  {
    ListLinesSafe(inFiles, outFiles);
    FileLinesOfTerminated(FileListLines(inFiles, outFiles));
  }

  lemma PairLines(inFiles: seq<string>, outFiles: seq<string>)
    requires |inFiles| == |outFiles|
    requires forall k :: 0 <= k < |inFiles| ==> ' ' !in inFiles[k] && ' ' !in outFiles[k]
    ensures var lines := Terminated(FileListLines(inFiles, outFiles));
            ReadPairs(lines[..|inFiles|]) == Some(Pairs(inFiles, outFiles))
  {
    var lines := Terminated(FileListLines(inFiles, outFiles));
    ReadPairsOfLines(lines[..|inFiles|], inFiles, outFiles);
  }

  lemma CountLine(inFiles: seq<string>, outFiles: seq<string>)
    requires |inFiles| == |outFiles|
    ensures var lines := Terminated(FileListLines(inFiles, outFiles));
            Reader.DropNewline(lines[|inFiles|]) == "    " + NatToString(|inFiles|) + " Total FITS files"
  {
    var line := Terminated(FileListLines(inFiles, outFiles))[|inFiles|];
    assert line[..|line| - 1] == "    " + NatToString(|inFiles|) + " Total FITS files";
  }

  /** Names free of spaces and line breaks read back pair by pair, followed
      by the count of files. */
  lemma FileListReadsBack(inFiles: seq<string>, outFiles: seq<string>)
    requires |inFiles| == |outFiles|
    requires forall k :: 0 <= k < |inFiles| ==> ' ' !in inFiles[k] && '\n' !in inFiles[k] && ' ' !in outFiles[k] && '\n' !in outFiles[k]
    ensures ReadFileList(FileListText(inFiles, outFiles)) ==
              Some((Pairs(inFiles, outFiles), "    " + NatToString(|inFiles|) + " Total FITS files"))
  {
    FileListFileLines(inFiles, outFiles);
    PairLines(inFiles, outFiles);
    CountLine(inFiles, outFiles);
  }
}

=== FILE: extension.dfy ===
/** The extension tables of `make_fits_extension_metadata_files`: for every
    table HDU of every FITS file in a directory, an IPAC-style text file
    with a comment naming the HDU, the column names, a row of `char` types,
    two blank rows, and one line per table row. The layout is that of the
    metadata table with every column typed `char` and null forbidden. */
module Extension {
  import opened Wrappers
  import opened Text
  import opened Values
  import opened Writer
  import opened Roundtrip
  import Reader

  /** A table column: its name and its FITS format (`A20`, `I4`, ...). */
  datatype ExtColumn = ExtColumn(name: string, format: string)

  /** One HDU: the name of its Python class, its name, its columns, and the
      text (`str()`) of every cell of every row. */
  datatype Hdu = Hdu(typeName: string, name: string, columns: seq<ExtColumn>, rows: seq<seq<string>>)

  /** `'TableHDU' in str(type(hdu))`: ASCII and binary tables alike. */
  predicate IsTable(h: Hdu) {
    Contains(h.typeName, "TableHDU")
  }

  function Max(a: int, b: int): int {
    if a < b then b else a
  }

  /** `int(fmt[1:])`, the width a format declares; `toInt` is Python's
      `int()` on text. */
  function FormatWidth(format: string, toInt: string -> Option<int>): Option<int> {
    toInt(PySlice(format, 1, |format|))
  }

  /** Each column as wide as its format declares, or as its name if that is
      longer; nothing when a format's width does not parse. */
  function ColWidths(cols: seq<ExtColumn>, toInt: string -> Option<int>): (r: Option<seq<nat>>)
    ensures r.Some? <==> forall i :: 0 <= i < |cols| ==> FormatWidth(cols[i].format, toInt).Some?
    ensures r.Some? ==> |r.value| == |cols|
    ensures r.Some? ==> forall i :: 0 <= i < |cols| ==>
              r.value[i] >= |cols[i].name| && r.value[i] >= FormatWidth(cols[i].format, toInt).value
              && (r.value[i] == |cols[i].name| || r.value[i] == FormatWidth(cols[i].format, toInt).value)
  {
    if cols == [] then Some([])
    else
      match FormatWidth(cols[0].format, toInt)
      case None => None
      case Some(w) =>
        match ColWidths(cols[1..], toInt)
        case None =>
          var i :| 0 <= i < |cols[1..]| && FormatWidth(cols[1..][i].format, toInt).None?;
          assert cols[1..][i] == cols[i + 1];
          None
        case Some(ws) =>
          assert forall i :: 1 <= i < |cols| ==> cols[i] == cols[1..][i - 1];
          Some([Max(w, |cols[0].name|) as nat] + ws)
  }

  /** The columns as a schema: every column `char`, null forbidden. */
  function ExtSchema(cols: seq<ExtColumn>, widths: seq<nat>): (schema: Schema)
    requires |widths| == |cols|
    ensures |schema| == |cols|
    ensures forall i :: 0 <= i < |cols| ==> schema[i] == FieldSpec(cols[i].name, "char", widths[i], "N")
  {
    seq(|cols|, i requires 0 <= i < |cols| => FieldSpec(cols[i].name, "char", widths[i], "N"))
  }

  /** The cells of each row under the `n` columns; nothing when a row is
      short (the `IndexError` skips the HDU). */
  function RowTexts(rows: seq<seq<string>>, n: nat): (r: Option<seq<seq<string>>>)
    ensures r.Some? <==> forall k :: 0 <= k < |rows| ==> |rows[k]| >= n
    ensures r.Some? ==> |r.value| == |rows| && forall k :: 0 <= k < |rows| ==> r.value[k] == rows[k][..n]
  {
    if forall k :: 0 <= k < |rows| ==> |rows[k]| >= n then
      Some(seq(|rows|, k requires 0 <= k < |rows| => rows[k][..n]))
    else None
  }

  /** The cells kept are the first `n` of each row, so every kept row has
      exactly one cell per column, and rows already that wide come
      through unchanged. */
  lemma {:induction false} RowTextsCut(rows: seq<seq<string>>, n: nat)
    ensures RowTexts(rows, n).Some? ==>
              forall k :: 0 <= k < |rows| ==> |RowTexts(rows, n).value[k]| == n && RowTexts(rows, n).value[k] <= rows[k]
    ensures (forall k :: 0 <= k < |rows| ==> |rows[k]| == n) ==> RowTexts(rows, n) == Some(rows)
  {
    if forall k :: 0 <= k < |rows| ==> |rows[k]| == n {
      var r := RowTexts(rows, n).value;
      assert |r| == |rows|;
      forall k | 0 <= k < |rows| ensures r[k] == rows[k] {
        assert rows[k][..n] == rows[k];
      }
      assert r == rows;
    }
  }

  /** The comment line naming the HDU. */
  function Comment(name: string): string {
    "\\ Extended Header Name: " + name + "\n"
  }

  /** The text written for one table: the comment, the names, the types,
      two blank rows, then the data lines. */
  function ExtText(name: string, schema: Schema, vals: seq<seq<string>>): string
    requires forall k :: 0 <= k < |vals| ==> |vals[k]| == |schema|
  {
    var header := [NameRow(schema), PipeRow(schema, TypeNames(schema)), PipeRow(schema, Blanks(schema)), PipeRow(schema, Blanks(schema))];
    Comment(name) + Concat(Terminated(header + ValueLines(schema, vals)))
  }

  /** `file.replace(endsWith, '.ext' + str(i) + '.' + hdu.name + '.tbl')` */
  function ExtFileName(file: string, endsWith: string, i: nat, name: string): string {
    ReplaceAll(file, endsWith, ".ext" + NatToString(i) + "." + name + ".tbl")
  }

  /** What one HDU yields: the path and text of its table, or nothing when
      it is not a table or building the table raises. */
  function HduOutput(outDir: string, file: string, endsWith: string, i: nat, h: Hdu,
                     toInt: string -> Option<int>): (r: Option<(string, string)>)
    ensures r.Some? <==> IsTable(h) && ColWidths(h.columns, toInt).Some? && RowTexts(h.rows, |h.columns|).Some?
    ensures r.Some? ==> r.value.0 == outDir + ExtFileName(file, endsWith, i, h.name)
  {
    if !IsTable(h) then None
    else match ColWidths(h.columns, toInt)
      case None => None
      case Some(ws) =>
        match RowTexts(h.rows, |h.columns|)
        case None => None
        case Some(vals) => Some((outDir + ExtFileName(file, endsWith, i, h.name), ExtText(h.name, ExtSchema(h.columns, ws), vals)))
  }

  /** The tables of one file's HDUs from index `i` on. */
  function FileOutputs(outDir: string, file: string, endsWith: string, hdus: seq<Hdu>, i: nat,
                       toInt: string -> Option<int>): (r: seq<(string, string)>)
    requires i <= |hdus|
    ensures |r| <= |hdus| - i
    decreases |hdus| - i
  {
    if i == |hdus| then []
    else
      var rest := FileOutputs(outDir, file, endsWith, hdus, i + 1, toInt);
      match HduOutput(outDir, file, endsWith, i, hdus[i], toInt)
      case None => rest
      case Some(o) => [o] + rest
  }

  /** The tables one listed file contributes: none unless its name has
      the suffix. */
  function FileTables(inDir: string, outDir: string, file: string, endsWith: string,
                      hdusOf: string -> seq<Hdu>, toInt: string -> Option<int>): (r: seq<(string, string)>)
    ensures r != [] ==> EndsWith(file, endsWith)
  {
    if EndsWith(file, endsWith) then
      var path := inDir + "/" + file;
      FileOutputs(outDir, Reader.Basename(path), endsWith, hdusOf(path), 0, toInt)
    else []
  }

  /** What each file of a listing contributes, in listing order. */
  function Gather(listing: seq<string>, tablesOf: string -> seq<(string, string)>): seq<(string, string)> {
    if listing == [] then [] else tablesOf(listing[0]) + Gather(listing[1..], tablesOf)
  }

  lemma {:induction false} GatherListed(listing: seq<string>, tablesOf: string -> seq<(string, string)>, k: nat, o: (string, string))
    requires k < |listing| && o in tablesOf(listing[k])
    ensures o in Gather(listing, tablesOf)
    decreases k
  {
    if k > 0 {
      assert listing[1..][k - 1] == listing[k];
      GatherListed(listing[1..], tablesOf, k - 1, o);
    }
  }

  lemma {:induction false} GatherSource(listing: seq<string>, tablesOf: string -> seq<(string, string)>, o: (string, string)) returns (k: nat)
    requires o in Gather(listing, tablesOf)
    ensures k < |listing| && o in tablesOf(listing[k])
    decreases |listing|
  {
    if o in tablesOf(listing[0]) {
      k := 0;
    } else {
      var k' := GatherSource(listing[1..], tablesOf, o);
      k := k' + 1;
      assert listing[1..][k'] == listing[k];
    }
  }

  function TablesOf(inDir: string, outDir: string, endsWith: string, hdusOf: string -> seq<Hdu>,
                    toInt: string -> Option<int>): string -> seq<(string, string)> {
    file => FileTables(inDir, outDir, file, endsWith, hdusOf, toInt)
  }

  /** All tables written for a directory: the files of the sorted listing
      whose names end with `endsWith`, in order; `hdusOf` stands for
      opening a file and listing its HDUs. */
  function ExtFiles(inDir: string, outDir: string, listing: seq<string>, endsWith: string,
                    hdusOf: string -> seq<Hdu>, toInt: string -> Option<int>): (r: seq<(string, string)>)
  {
    Gather(listing, TablesOf(inDir, outDir, endsWith, hdusOf, toInt))
  }

  /** The tables of a file's HDUs, read off its list: every table HDU
      whose table builds is listed ... */
  lemma {:induction false} OutputListed(outDir: string, file: string, endsWith: string, hdus: seq<Hdu>, i: nat,
                                        toInt: string -> Option<int>, j: nat)
    requires i <= j < |hdus| && HduOutput(outDir, file, endsWith, j, hdus[j], toInt).Some?
    ensures HduOutput(outDir, file, endsWith, j, hdus[j], toInt).value in FileOutputs(outDir, file, endsWith, hdus, i, toInt)
    decreases j - i
  {
    if i < j {
      OutputListed(outDir, file, endsWith, hdus, i + 1, toInt, j);
    }
  }

  /** ... and everything listed comes from such an HDU. */
  lemma {:induction false} OutputSource(outDir: string, file: string, endsWith: string, hdus: seq<Hdu>, i: nat,
                                        toInt: string -> Option<int>, o: (string, string)) returns (j: nat)
    requires i <= |hdus| && o in FileOutputs(outDir, file, endsWith, hdus, i, toInt)
    ensures i <= j < |hdus| && HduOutput(outDir, file, endsWith, j, hdus[j], toInt) == Some(o)
    decreases |hdus| - i
  {
    var here := HduOutput(outDir, file, endsWith, i, hdus[i], toInt);
    if here == Some(o) {
      j := i;
    } else {
      j := OutputSource(outDir, file, endsWith, hdus, i + 1, toInt, o);
    }
  }

  /** A directory's tables: every table of every listed file with the
      suffix ... */
  lemma ExtFilesListed(inDir: string, outDir: string, listing: seq<string>, endsWith: string,
                       hdusOf: string -> seq<Hdu>, toInt: string -> Option<int>, k: nat, o: (string, string))
    requires k < |listing| && EndsWith(listing[k], endsWith)
    requires o in FileOutputs(outDir, Reader.Basename(inDir + "/" + listing[k]), endsWith, hdusOf(inDir + "/" + listing[k]), 0, toInt)
    ensures o in ExtFiles(inDir, outDir, listing, endsWith, hdusOf, toInt)
  {
    var tablesOf := TablesOf(inDir, outDir, endsWith, hdusOf, toInt);
    assert tablesOf(listing[k]) == FileTables(inDir, outDir, listing[k], endsWith, hdusOf, toInt);
    GatherListed(listing, tablesOf, k, o);
  }

  /** ... and only those. */
  lemma ExtFilesSource(inDir: string, outDir: string, listing: seq<string>, endsWith: string,
                       hdusOf: string -> seq<Hdu>, toInt: string -> Option<int>, o: (string, string)) returns (k: nat)
    requires o in ExtFiles(inDir, outDir, listing, endsWith, hdusOf, toInt)
    ensures k < |listing| && EndsWith(listing[k], endsWith)
    ensures o in FileOutputs(outDir, Reader.Basename(inDir + "/" + listing[k]), endsWith, hdusOf(inDir + "/" + listing[k]), 0, toInt)
  {
    var tablesOf := TablesOf(inDir, outDir, endsWith, hdusOf, toInt);
    k := GatherSource(listing, tablesOf, o);
    assert tablesOf(listing[k]) == FileTables(inDir, outDir, listing[k], endsWith, hdusOf, toInt);
  }

  // ---------------------------------------------------------------------
  // properties

  /** Below the comment, the text is the metadata table of the same
      columns, every one `char` and not null. */
  lemma ExtTextIsTable(name: string, cols: seq<ExtColumn>, widths: seq<nat>, vals: seq<seq<string>>)
    requires |widths| == |cols| && forall k :: 0 <= k < |vals| ==> |vals[k]| == |cols|
    ensures ExtText(name, ExtSchema(cols, widths), vals) == Comment(name) + TableText(ExtSchema(cols, widths), vals)
  {
    var schema := ExtSchema(cols, widths);
    assert NullMarkers(schema) == Blanks(schema);
  }

  /** A column named by a non-empty single-line word without `|` or
      surrounding whitespace, and a width of at least two. */
  predicate PlainColumn(c: ExtColumn, width: nat) {
    && c.name != [] && Unpadded(c.name) && '|' !in c.name && LineSafe(c.name)
    && width >= 2
  }

  function ColumnNamesOf(cols: seq<ExtColumn>): (r: seq<string>)
    ensures |r| == |cols| && forall i :: 0 <= i < |cols| ==> r[i] == cols[i].name
  {
    seq(|cols|, i requires 0 <= i < |cols| => cols[i].name)
  }

  lemma ExtSchemaReadable(cols: seq<ExtColumn>, ws: seq<nat>)
    requires |ws| == |cols| >= 1
    requires forall i :: 0 <= i < |cols| ==> PlainColumn(cols[i], ws[i]) && ws[i] >= |cols[i].name|
    requires forall i, j :: 0 <= i < j < |cols| ==> cols[i].name != cols[j].name
    ensures ReadableSchema(ExtSchema(cols, ws))
    ensures Keywords(ExtSchema(cols, ws)) == ColumnNamesOf(cols)
  {
    var schema := ExtSchema(cols, ws);
    forall i | 0 <= i < |schema| ensures !Overwide(schema[i]) && LineSafe(schema[i].dataType) {
      assert schema[i].dataType == "char";
    }
  }

  /** Below the comment, an extension table of plain, distinctly named
      columns whose cells fit their widths reads back as the column names
      and the cell texts of every row that is not all filler. */
  lemma ExtTableReadsBack(cols: seq<ExtColumn>, toInt: string -> Option<int>, ws: seq<nat>, vals: seq<seq<string>>, path: string)
    requires ColWidths(cols, toInt) == Some(ws) && |cols| >= 1
    requires forall i :: 0 <= i < |cols| ==> PlainColumn(cols[i], ws[i])
    requires forall i, j :: 0 <= i < j < |cols| ==> cols[i].name != cols[j].name
    requires forall k :: 0 <= k < |vals| ==> |vals[k]| == |cols|
    requires forall k :: 0 <= k < |vals| ==> CleanTexts(ExtSchema(cols, ws), vals[k])
    ensures Reader.Load(map[path := TableText(ExtSchema(cols, ws), vals)], path) ==
              Reader.Frame(Reader.Table(Reader.Basename(path), ColumnNamesOf(cols), ReadTexts(NonBlankRecords(vals))))
  {
    ExtSchemaReadable(cols, ws);
    LoadTableText(ExtSchema(cols, ws), vals, path);
  }

  /** The comment stays on its own line when the HDU name has no line
      break, so the table starts on the line after it. */
  lemma CommentLine(name: string, body: string)
    requires '\n' !in name
    ensures FileLines(Comment(name) + body) == [Comment(name)] + FileLines(body)
  {
    assert '\n' !in "\\ Extended Header Name: " + name;
    assert Comment(name) + body == ("\\ Extended Header Name: " + name) + "\n" + body;
    FileLinesCons("\\ Extended Header Name: " + name, body);
  }

  lemma ReplaceWhole(pat: string, repl: string)
    requires |pat| > 0
    ensures ReplaceAll(pat, pat, repl) == repl
  {
    assert StartsWith(pat, pat) && pat[|pat|..] == [];
    ReplaceMatch(pat, pat, repl);
    assert ReplaceAll([], pat, repl) == [];
  }

  /** No occurrence of `pat` in `s` starts before position `n`. */
  predicate NoMatchBefore(s: string, pat: string, n: nat) {
    n == 0 || (s != [] && !StartsWith(s, pat) && NoMatchBefore(s[1..], pat, n - 1))
  }

  /** Replacing a pattern that occurs only at the very end of a name
      replaces just that end. */
  lemma {:induction false} ReplaceAtEnd(x: string, pat: string, repl: string)
    requires |pat| > 0 && NoMatchBefore(x + pat, pat, |x|)
    ensures ReplaceAll(x + pat, pat, repl) == x + repl
    decreases |x|
  {
    if x == [] {
      assert x + pat == pat;
      ReplaceWhole(pat, repl);
    } else {
      var s, t := x + pat, x[1..] + pat;
      assert s[1..] == t && s[0] == x[0];
      ReplaceAtEnd(x[1..], pat, repl);
      ReplaceSkip(s, pat, repl);
      calc {
        ReplaceAll(s, pat, repl);
        [x[0]] + ReplaceAll(t, pat, repl);
        [x[0]] + (x[1..] + repl);
        { assert [x[0]] + x[1..] == x; }
        x + repl;
      }
    }
  }

  /** `a.fits` becomes `a.ext1.SCI.tbl`: the suffix alone is replaced. */
  lemma ExtFileNameOfSuffix(stem: string, endsWith: string, i: nat, name: string)
    requires |endsWith| > 0 && NoMatchBefore(stem + endsWith, endsWith, |stem|)
    ensures ExtFileName(stem + endsWith, endsWith, i, name) == stem + ".ext" + NatToString(i) + "." + name + ".tbl"
  {
    ReplaceAtEnd(stem, endsWith, ".ext" + NatToString(i) + "." + name + ".tbl");
  }
}

=== FILE: obtain.dfy ===
/** The obtain step's file for a night (`dep_obtain`): one tab-separated
    line per telescope-schedule entry for the instrument, or a single
    not-scheduled line, and the parser `get_obtain_data` that reads such a
    file back into one eleven-column row per line. The schedule and staff
    web queries are replaced by their answers, given as parameters. */
module Obtain {
  import opened Wrappers
  import opened Text

  // ---------------------------------------------------------------------
  // get_obtain_data

  /** One parsed line: the eleven columns `Date OA Account Institution
      Principal ProjCode Observer StartTime EndTime Instrument TelNr`, each
      the value at its position, or nothing when the line is shorter. */
  datatype ObtainRow = ObtainRow(date: Option<string>, oa: Option<string>, account: Option<string>,
                                 institution: Option<string>, principal: Option<string>, projCode: Option<string>,
                                 observer: Option<string>, startTime: Option<string>, endTime: Option<string>,
                                 instrument: Option<string>, telNr: Option<string>)

  /** The row's columns in file order. */
  function Columns(row: ObtainRow): (r: seq<Option<string>>)
    ensures |r| == 11
  {
    [row.date, row.oa, row.account, row.institution, row.principal, row.projCode,
     row.observer, row.startTime, row.endTime, row.instrument, row.telNr]
  }

  function Field(vals: seq<string>, i: nat): Option<string> {
    if i < |vals| then Some(vals[i]) else None
  }

  /** The dictionary built from a line's values: position `i` fills column
      `i`, missing positions are `None`, and values past the eleventh are
      dropped. */
  function RowOf(vals: seq<string>): (r: ObtainRow)
    ensures forall i :: 0 <= i < 11 ==> (Columns(r)[i].Some? <==> i < |vals|)
    ensures forall i :: 0 <= i < 11 && i < |vals| ==> Columns(r)[i] == Some(vals[i])
  {
    ObtainRow(Field(vals, 0), Field(vals, 1), Field(vals, 2), Field(vals, 3), Field(vals, 4), Field(vals, 5),
              Field(vals, 6), Field(vals, 7), Field(vals, 8), Field(vals, 9), Field(vals, 10))
  }

  /** A line's values: the stripped line split on tabs when the raw line
      has one, otherwise on single spaces. */
  function LineValues(line: string): (vals: seq<string>)
    ensures |vals| >= 1
    ensures Join(vals, if '\t' in line then "\t" else " ") == Strip(line)
    ensures '\t' in line ==> forall i :: 0 <= i < |vals| ==> '\t' !in vals[i]
    ensures '\t' !in line ==> forall i :: 0 <= i < |vals| ==> ' ' !in vals[i]
  {
    if '\t' in line then Split(Strip(line), '\t') else Split(Strip(line), ' ')
  }

  function ParseObtainLine(line: string): (r: ObtainRow)
    ensures r.date.Some?
  {
    RowOf(LineValues(line))
  }

  function ParseLines(lines: seq<string>): (rows: seq<ObtainRow>)
    ensures |rows| == |lines|
    ensures forall k :: 0 <= k < |lines| ==> rows[k] == ParseObtainLine(lines[k])
  {
    seq(|lines|, k requires 0 <= k < |lines| => ParseObtainLine(lines[k]))
  }

  /** `get_obtain_data`: an error when the file is missing, otherwise one
      row per line of the file. */
  function GetObtainData(files: map<string, string>, path: string): (r: Result<seq<ObtainRow>, string>)
    ensures r.Failure? <==> path !in files
    ensures r.Failure? ==> r.error == "get_obtain_data: file \"" + path + "\" does not exist!!"
    ensures r.Success? ==> r.value == ParseLines(FileLines(UniversalNewlines(files[path])))
  {
    if path !in files then Failure("get_obtain_data: file \"" + path + "\" does not exist!!")
    else Success(ParseLines(FileLines(UniversalNewlines(files[path]))))
  }

  // ---------------------------------------------------------------------
  // the night's OA

  /** One night-staff record of a list answer. */
  datatype Staff = Staff(kind: string, alias: string)

  /** The night-staff query's answer: nothing, one record as a dictionary
      (which may lack `Alias`), or a list of records. */
  datatype OaData = NoOaData | OaDict(alias: Option<string>) | OaList(staff: seq<Staff>)

  predicate IsOa(s: Staff) {
    s.kind == "oa" || s.kind == "oar"
  }

  /** The loop over a list answer: each OA record overwrites the choice. */
  function OaScan(staff: seq<Staff>, oa: string): string
    decreases |staff|
  {
    if staff == [] then oa
    else OaScan(staff[1..], if IsOa(staff[0]) then staff[0].alias else oa)
  }

  /** The alias of the last OA record, or `oa` when there is none. */
  function LastOaAlias(staff: seq<Staff>, oa: string): string
    decreases |staff|
  {
    if staff == [] then oa
    else if IsOa(staff[|staff| - 1]) then staff[|staff| - 1].alias
    else LastOaAlias(staff[..|staff| - 1], oa)
  }

  /** The night's OA, `None` unless the answer names one. */
  function OaOf(d: OaData): (r: string)
    ensures d.NoOaData? ==> r == "None"
    ensures d.OaDict? ==> r == d.alias.GetOr("None")
    ensures d.OaList? ==> r == LastOaAlias(d.staff, "None")
  {
    match d
    case NoOaData => "None"
    case OaDict(alias) => if alias.Some? then alias.value else "None"
    case OaList(staff) =>
      OaScanLast(staff, "None");
      OaScan(staff, "None")
  }

  lemma {:induction false} OaScanAppend(staff: seq<Staff>, s: Staff, oa: string)
    ensures OaScan(staff + [s], oa) == if IsOa(s) then s.alias else OaScan(staff, oa)
    decreases |staff|
  {
    if staff == [] {
      assert OaScan([s], oa) == OaScan([], if IsOa(s) then s.alias else oa);
    } else {
      assert (staff + [s])[1..] == staff[1..] + [s];
      OaScanAppend(staff[1..], s, if IsOa(staff[0]) then staff[0].alias else oa);
    }
  }

  /** The overwriting loop picks the last OA record. */
  lemma {:induction false} OaScanLast(staff: seq<Staff>, oa: string)
    ensures OaScan(staff, oa) == LastOaAlias(staff, oa)
    decreases |staff|
  {
    if staff != [] {
      var init := staff[..|staff| - 1];
      assert staff == init + [staff[|staff| - 1]];
      OaScanAppend(init, staff[|staff| - 1], oa);
      OaScanLast(init, oa);
    }
  }

  /** An OA record with no OA record after it gives the alias. */
  lemma {:induction false} LastOaIs(staff: seq<Staff>, oa: string, k: nat)
    requires k < |staff| && IsOa(staff[k])
    requires forall j :: k < j < |staff| ==> !IsOa(staff[j])
    ensures LastOaAlias(staff, oa) == staff[k].alias
    decreases |staff|
  {
    if k < |staff| - 1 {
      var init := staff[..|staff| - 1];
      assert init[k] == staff[k];
      LastOaIs(init, oa, k);
    }
  }

  /** With no OA record the default stays. */
  lemma {:induction false} NoOaKeeps(staff: seq<Staff>, oa: string)
    requires forall j :: 0 <= j < |staff| ==> !IsOa(staff[j])
    ensures LastOaAlias(staff, oa) == oa
    decreases |staff|
  {
    if staff != [] {
      NoOaKeeps(staff[..|staff| - 1], oa);
    }
  }

  // ---------------------------------------------------------------------
  // the schedule query and the obtain file

  /** The schedule query names the instrument `NIRSP` for `NIRSPEC`. */
  function InstrBase(instr: string): (r: string)
    ensures r != "NIRSPEC"
    ensures instr != "NIRSPEC" ==> r == instr
    ensures r == "NIRSP" <==> instr == "NIRSPEC" || instr == "NIRSP"
  {
    if instr == "NIRSPEC" then "NIRSP" else instr
  }

  /** One schedule record. */
  datatype SchedEntry = SchedEntry(account: string, institution: string, principal: string, projCode: string,
                                   startTime: string, endTime: string, instrument: string, telNr: string,
                                   schedId: string)

  /** The schedule query's answer: nothing, one record as a dictionary, or
      a list of records. */
  datatype SchedData = NoSchedule | SchedDict(entry: SchedEntry) | SchedList(entries: seq<SchedEntry>)

  function Entries(d: SchedData): (r: seq<SchedEntry>)
    ensures d.SchedDict? ==> r == [d.entry]
  {
    match d
    case NoSchedule => []
    case SchedDict(e) => [e]
    case SchedList(es) => es
  }

  /** The observers of a record: the first answer of the observers query
      for its schedule id (`observersOf`), or `None`. */
  function Observers(observersOf: string -> Option<string>, e: SchedEntry): string {
    observersOf(e.schedId).GetOr("None")
  }

  /** The eleven fields of a record's line; an empty account is written `-`. */
  function EntryFields(prevDate: string, oa: string, e: SchedEntry, observers: string): (r: seq<string>)
    ensures |r| == 11 && r[2] != ""
  {
    [prevDate, oa, if e.account == "" then "-" else e.account, e.institution, e.principal, e.projCode,
     observers, e.startTime, e.endTime, e.instrument, e.telNr]
  }

  /** The line written when nothing is scheduled: date, OA and nine `NONE`. */
  function NotScheduledFields(prevDate: string, oa: string): (r: seq<string>)
    ensures |r| == 11 && r[..2] == [prevDate, oa]
    ensures forall i :: 2 <= i < 11 ==> r[i] == "NONE"
  {
    [prevDate, oa] + seq(9, _ => "NONE")
  }

  /** The files the step writes. */
  datatype ObtainFiles = ObtainFiles(obtain: string, notScheduled: Option<string>)

  function ObtainLines(prevDate: string, oa: string, entries: seq<SchedEntry>,
                       observersOf: string -> Option<string>): (r: seq<string>)
    ensures |r| == |entries|
    ensures forall k :: 0 <= k < |entries| ==>
              r[k] == Join(EntryFields(prevDate, oa, entries[k], Observers(observersOf, entries[k])), "\t")
  {
    seq(|entries|, k requires 0 <= k < |entries| =>
      Join(EntryFields(prevDate, oa, entries[k], Observers(observersOf, entries[k])), "\t"))
  }

  /** The obtain step after its queries: with no schedule record it writes
      the not-scheduled note and the not-scheduled line, otherwise one line
      per record, separated by newlines. */
  function ObtainOutput(instr: string, prevDate: string, oaData: OaData, sched: SchedData,
                        observersOf: string -> Option<string>): (r: ObtainFiles)
    ensures r.notScheduled.Some? <==> Entries(sched) == []
    ensures r.notScheduled.Some? ==> r.notScheduled.value == instr + " not scheduled"
  {
    var oa := OaOf(oaData);
    var entries := Entries(sched);
    if entries == [] then ObtainFiles(Join(NotScheduledFields(prevDate, oa), "\t"), Some(instr + " not scheduled"))
    else ObtainFiles(Join(ObtainLines(prevDate, oa, entries, observersOf), "\n"), None)
  }

  /** A single record answered as a dictionary is written exactly as a
      one-record list; an empty list is written as no schedule at all. */
  lemma {:induction false} SingleRecordAsList(instr: string, prevDate: string, oaData: OaData, e: SchedEntry,
                                              observersOf: string -> Option<string>)
    ensures ObtainOutput(instr, prevDate, oaData, SchedDict(e), observersOf) ==
              ObtainOutput(instr, prevDate, oaData, SchedList([e]), observersOf)
    ensures ObtainOutput(instr, prevDate, oaData, SchedList([]), observersOf) ==
              ObtainOutput(instr, prevDate, oaData, NoSchedule, observersOf)
  {
  }

  // ---------------------------------------------------------------------
  // reading the file back

  /** Fields a line can carry through the parser: none holds a separator or
      a line break, and the line's two ends are not whitespace. */
  predicate Clean(fields: seq<string>) {
    && |fields| >= 2
    && (forall i :: 0 <= i < |fields| ==> '\t' !in fields[i] && '\n' !in fields[i] && '\r' !in fields[i])
    && fields[0] != [] && !IsSpace(fields[0][0])
    && fields[|fields| - 1] != [] && !IsSpace(fields[|fields| - 1][|fields[|fields| - 1]| - 1])
  }

  lemma CleanJoin(fields: seq<string>, sep: string)
    requires Clean(fields)
    ensures Join(fields, sep) != [] && Unpadded(Join(fields, sep))
  {
    JoinStart(fields, sep);
    JoinEnd(fields, sep);
  }

  /** A line of clean fields joined by tabs, with or without its newline,
      parses back to those fields. */
  lemma ParseJoined(fields: seq<string>, end: string)
    requires Clean(fields)
    requires end == "" || end == "\n"
    ensures ParseObtainLine(Join(fields, "\t") + end) == RowOf(fields)
  {
    var line := Join(fields, "\t");
    assert line == fields[0] + "\t" + Join(fields[1..], "\t");
    assert (line + end)[|fields[0]|] == '\t';
    CleanJoin(fields, "\t");
    StripLine(line, end);
    SplitJoin(fields, '\t');
  }

  /** A space-separated line in the older format parses the same way. */
  lemma ParseSpaced(fields: seq<string>, end: string)
    requires Clean(fields)
    requires forall i :: 0 <= i < |fields| ==> ' ' !in fields[i]
    requires end == "" || end == "\n"
    ensures ParseObtainLine(Join(fields, " ") + end) == RowOf(fields)
  {
    var line := Join(fields, " ");
    JoinKeepsOut(fields, " ", '\t');
    assert '\t' !in line + end;
    CleanJoin(fields, " ");
    StripLine(line, end);
    SplitJoin(fields, ' ');
  }

  lemma CleanLine(fields: seq<string>)
    requires Clean(fields)
    ensures Join(fields, "\t") != [] && '\n' !in Join(fields, "\t") && '\r' !in Join(fields, "\t")
  {
    JoinStart(fields, "\t");
    JoinKeepsOut(fields, "\t", '\n');
    JoinKeepsOut(fields, "\t", '\r');
  }

  /** The file's lines are the joined lines, each but the last with its newline. */
  lemma JoinedLines(ls: seq<string>)
    requires |ls| >= 1
    requires forall k :: 0 <= k < |ls| ==> ls[k] != [] && '\n' !in ls[k] && '\r' !in ls[k]
    ensures |FileLines(UniversalNewlines(Join(ls, "\n")))| == |ls|
    ensures forall k :: 0 <= k < |ls| - 1 ==> FileLines(UniversalNewlines(Join(ls, "\n")))[k] == ls[k] + "\n"
    ensures FileLines(UniversalNewlines(Join(ls, "\n")))[|ls| - 1] == ls[|ls| - 1] + ""
  {
    var text := Join(ls, "\n");
    JoinKeepsOut(ls, "\n", '\r');
    assert UniversalNewlines(text) == text;
    FileLinesOfJoin(ls);
    var init := Terminated(ls[..|ls| - 1]);
    var lines := FileLines(text);
    assert lines == init + [ls[|ls| - 1]];
    forall k | 0 <= k < |ls| - 1 ensures lines[k] == ls[k] + "\n" {
      assert lines[k] == init[k];
    }
    assert ls[|ls| - 1] + "" == ls[|ls| - 1];
  }

  /** Lines of clean fields joined by newlines read back as one row each. */
  lemma ReadsBackLines(ls: seq<string>, fieldsOf: seq<seq<string>>, files: map<string, string>, path: string)
    requires |ls| >= 1 && |fieldsOf| == |ls|
    requires forall k :: 0 <= k < |ls| ==> Clean(fieldsOf[k]) && ls[k] == Join(fieldsOf[k], "\t")
    requires path in files && files[path] == Join(ls, "\n")
    ensures GetObtainData(files, path).Success?
    ensures |GetObtainData(files, path).value| == |ls|
    ensures forall k :: 0 <= k < |ls| ==> GetObtainData(files, path).value[k] == RowOf(fieldsOf[k])
  {
    forall k | 0 <= k < |ls| ensures ls[k] != [] && '\n' !in ls[k] && '\r' !in ls[k] {
      CleanLine(fieldsOf[k]);
    }
    JoinedLines(ls);
    var lines := FileLines(UniversalNewlines(files[path]));
    forall k | 0 <= k < |ls| ensures ParseObtainLine(lines[k]) == RowOf(fieldsOf[k]) {
      ParseJoined(fieldsOf[k], if k < |ls| - 1 then "\n" else "");
    }
  }

  /** What a schedule record's line reads back as. */
  function EntryRow(prevDate: string, oa: string, e: SchedEntry, observers: string): ObtainRow {
    ObtainRow(Some(prevDate), Some(oa), Some(if e.account == "" then "-" else e.account), Some(e.institution),
              Some(e.principal), Some(e.projCode), Some(observers), Some(e.startTime), Some(e.endTime),
              Some(e.instrument), Some(e.telNr))
  }

  /** The obtain file of a scheduled night reads back as one row per
      record, holding the night's date, its OA, the record's fields and its
      observers, and `-` for an empty account. */
  lemma ScheduledReadsBack(instr: string, prevDate: string, oaData: OaData, sched: SchedData,
                           observersOf: string -> Option<string>, files: map<string, string>, path: string)
    requires Entries(sched) != []
    requires forall k :: 0 <= k < |Entries(sched)| ==>
               Clean(EntryFields(prevDate, OaOf(oaData), Entries(sched)[k], Observers(observersOf, Entries(sched)[k])))
    requires path in files && files[path] == ObtainOutput(instr, prevDate, oaData, sched, observersOf).obtain
    ensures GetObtainData(files, path).Success?
    ensures |GetObtainData(files, path).value| == |Entries(sched)|
    ensures forall k :: 0 <= k < |Entries(sched)| ==>
              GetObtainData(files, path).value[k] ==
                EntryRow(prevDate, OaOf(oaData), Entries(sched)[k], Observers(observersOf, Entries(sched)[k]))
  {
    ScheduledText(instr, prevDate, oaData, sched, observersOf);
    EntryLinesReadBack(prevDate, OaOf(oaData), Entries(sched), observersOf, files, path);
  }

  lemma ScheduledText(instr: string, prevDate: string, oaData: OaData, sched: SchedData,
                      observersOf: string -> Option<string>)
    requires Entries(sched) != []
    ensures ObtainOutput(instr, prevDate, oaData, sched, observersOf).obtain ==
              Join(ObtainLines(prevDate, OaOf(oaData), Entries(sched), observersOf), "\n")
  {
  }

  lemma EntryLinesReadBack(prevDate: string, oa: string, entries: seq<SchedEntry>,
                           observersOf: string -> Option<string>, files: map<string, string>, path: string)
    requires entries != []
    requires forall k :: 0 <= k < |entries| ==> Clean(EntryFields(prevDate, oa, entries[k], Observers(observersOf, entries[k])))
    requires path in files && files[path] == Join(ObtainLines(prevDate, oa, entries, observersOf), "\n")
    ensures GetObtainData(files, path).Success?
    ensures |GetObtainData(files, path).value| == |entries|
    ensures forall k :: 0 <= k < |entries| ==>
              GetObtainData(files, path).value[k] == EntryRow(prevDate, oa, entries[k], Observers(observersOf, entries[k]))
  {
    var fieldsOf := seq(|entries|, k requires 0 <= k < |entries| =>
                          EntryFields(prevDate, oa, entries[k], Observers(observersOf, entries[k])));
    var ls := ObtainLines(prevDate, oa, entries, observersOf);
    ReadsBackLines(ls, fieldsOf, files, path);
    forall k | 0 <= k < |entries|
      ensures RowOf(fieldsOf[k]) == EntryRow(prevDate, oa, entries[k], Observers(observersOf, entries[k]))
    {
      EntryRowOf(prevDate, oa, entries[k], Observers(observersOf, entries[k]));
    }
  }

  lemma EntryRowOf(prevDate: string, oa: string, e: SchedEntry, observers: string)
    ensures RowOf(EntryFields(prevDate, oa, e, observers)) == EntryRow(prevDate, oa, e, observers)
  {
  }

  lemma NotScheduledClean(prevDate: string, oa: string)
    requires prevDate != [] && !IsSpace(prevDate[0])
    requires '\t' !in prevDate && '\n' !in prevDate && '\r' !in prevDate
    requires '\t' !in oa && '\n' !in oa && '\r' !in oa
    ensures Clean(NotScheduledFields(prevDate, oa))
  {
    var fields := NotScheduledFields(prevDate, oa);
    assert fields[0] == prevDate && fields[1] == oa;
  }

  /** The not-scheduled line reads back as the night's date, its OA and
      `NONE` in the nine other columns. */
  lemma NotScheduledReadsBack(instr: string, prevDate: string, oaData: OaData, sched: SchedData,
                              observersOf: string -> Option<string>, files: map<string, string>, path: string)
    requires Entries(sched) == []
    requires prevDate != [] && !IsSpace(prevDate[0])
    requires '\t' !in prevDate && '\n' !in prevDate && '\r' !in prevDate
    requires '\t' !in OaOf(oaData) && '\n' !in OaOf(oaData) && '\r' !in OaOf(oaData)
    requires path in files && files[path] == ObtainOutput(instr, prevDate, oaData, sched, observersOf).obtain
    ensures GetObtainData(files, path) ==
              Success([ObtainRow(Some(prevDate), Some(OaOf(oaData)), Some("NONE"), Some("NONE"), Some("NONE"),
                                 Some("NONE"), Some("NONE"), Some("NONE"), Some("NONE"), Some("NONE"), Some("NONE"))])
  {
    var fields := NotScheduledFields(prevDate, OaOf(oaData));
    NotScheduledClean(prevDate, OaOf(oaData));
    ReadsBackLines([Join(fields, "\t")], [fields], files, path);
    var rows := GetObtainData(files, path).value;
    assert rows == [RowOf(fields)];
    NotScheduledRow(prevDate, OaOf(oaData));
  }

  lemma NotScheduledRow(prevDate: string, oa: string)
    ensures RowOf(NotScheduledFields(prevDate, oa)) ==
              ObtainRow(Some(prevDate), Some(oa), Some("NONE"), Some("NONE"), Some("NONE"),
                        Some("NONE"), Some("NONE"), Some("NONE"), Some("NONE"), Some("NONE"), Some("NONE"))
  {
    var fields := NotScheduledFields(prevDate, oa);
    assert fields[0] == prevDate && fields[1] == oa;
  }
}

=== FILE: reader.dfy ===
/** Reading a metadata table back (`load_metadata_file_as_df`): the column
    widths come from the `|`-separated first line, the names and the data
    rows from slicing lines at those widths, as `pandas.read_fwf` does with
    its default filler characters, blank-line skipping and pandas 1.x's
    default missing-value tokens. */
module Reader {
  import opened Wrappers
  import opened Text
  import opened Values

  /** One cell of a loaded table: missing (`NaN`) or text. */
  datatype Entry = Na | Val(text: string)

  /** A loaded table: its file's base name, column names, and one row of
      entries per data line. */
  datatype Table = Table(name: string, columns: seq<string>, rows: seq<seq<Entry>>)

  // ---------------------------------------------------------------------
  // widths from the first line

  /** One width per segment longer than one character: its length plus one
      (the `|` before it). */
  function SegmentWidths(segs: seq<string>): (ws: seq<nat>)
    ensures |ws| <= |segs|
    ensures forall i :: 0 <= i < |ws| ==> ws[i] >= 3
  {
    if segs == [] then []
    else (if |segs[0]| <= 1 then [] else [|segs[0]| + 1]) + SegmentWidths(segs[1..])
  }

  /** The column widths derived from the first line of a table file. */
  function ColumnWidths(firstLine: string): seq<nat> {
    SegmentWidths(Split(Strip(firstLine), '|'))
  }

  lemma {:induction false} SegmentWidthsAppend(a: seq<string>, b: seq<string>)
    ensures SegmentWidths(a + b) == SegmentWidths(a) + SegmentWidths(b)
    decreases |a|
  {
    if a != [] {
      assert (a + b)[1..] == a[1..] + b;
      SegmentWidthsAppend(a[1..], b);
    } else {
      assert a + b == b;
    }
  }

  /** Segments of at least two characters each give their length plus one. */
  lemma {:induction false} SegmentWidthsLong(segs: seq<string>)
    requires forall i :: 0 <= i < |segs| ==> |segs[i]| >= 2
    ensures SegmentWidths(segs) == seq(|segs|, i requires 0 <= i < |segs| => |segs[i]| + 1)
    decreases |segs|
  {
    if segs != [] {
      SegmentWidthsLong(segs[1..]);
    }
  }

  // ---------------------------------------------------------------------
  // fixed-width fields

  /** The fields of `line` at consecutive widths; a field past the end of
      the line is short or empty. */
  function FixedFields(line: string, widths: seq<nat>): (fs: seq<string>)
    ensures |fs| == |widths|
    ensures forall i :: 0 <= i < |fs| ==> |fs[i]| <= widths[i]
    decreases |widths|
  {
    if widths == [] then []
    else
      var f := PyPrefix(line, widths[0]);
      var rest := FixedFields(line[|f|..], widths[1..]);
      [f] + rest
  }

  /** The fields are read from the line in order: together they are a
      prefix of it. */
  lemma {:induction false} FixedFieldsPrefix(line: string, widths: seq<nat>)
    ensures StartsWith(line, Concat(FixedFields(line, widths)))
    decreases |widths|
  {
    if widths != [] {
      var f := PyPrefix(line, widths[0]);
      var rest := FixedFields(line[|f|..], widths[1..]);
      FixedFieldsPrefix(line[|f|..], widths[1..]);
      assert line == f + line[|f|..];
      assert ([f] + rest)[0] == f && ([f] + rest)[1..] == rest;
    }
  }

  function Lengths(blocks: seq<string>): (ws: seq<nat>)
    ensures |ws| == |blocks|
    ensures forall i :: 0 <= i < |blocks| ==> ws[i] == |blocks[i]|
  {
    seq(|blocks|, i requires 0 <= i < |blocks| => |blocks[i]|)
  }

  /** Slicing blocks laid side by side at their own lengths gives the
      blocks back, whatever follows them on the line. */
  lemma {:induction false} FixedFieldsOfBlocks(blocks: seq<string>, tail: string)
    ensures FixedFields(Concat(blocks) + tail, Lengths(blocks)) == blocks
    decreases |blocks|
  {
    if blocks != [] {
      var line := Concat(blocks) + tail;
      var ws := Lengths(blocks);
      assert line == blocks[0] + (Concat(blocks[1..]) + tail);
      var f := PyPrefix(line, ws[0]);
      assert f == blocks[0];
      assert line[|f|..] == Concat(blocks[1..]) + tail;
      assert ws[1..] == Lengths(blocks[1..]);
      FixedFieldsOfBlocks(blocks[1..], tail);
      assert FixedFields(line, ws) == [f] + FixedFields(line[|f|..], ws[1..]);
      HeadTail(blocks);
    }
  }

  // ---------------------------------------------------------------------
  // filler and missing values

  /** The filler characters `read_fwf` strips from both ends of a field. */
  predicate IsFiller(c: char) {
    c == ' ' || c == '\t'
  }

  function TrimFillerStart(s: string): (r: string)
    ensures |r| <= |s| && r == s[|s| - |r|..]
    ensures r == [] || !IsFiller(r[0])
  {
    if |s| > 0 && IsFiller(s[0]) then TrimFillerStart(s[1..]) else s
  }

  function TrimFillerEnd(s: string): (r: string)
    ensures |r| <= |s| && r == s[..|r|]
    ensures r == [] || !IsFiller(r[|r| - 1])
  {
    if |s| > 0 && IsFiller(s[|s| - 1]) then TrimFillerEnd(s[..|s| - 1]) else s
  }

  function FillerStrip(s: string): string {
    TrimFillerEnd(TrimFillerStart(s))
  }

  lemma {:induction false} TrimFillerStartAppend(s: string, t: string)
    ensures TrimFillerStart(s + t) ==
              if TrimFillerStart(s) == [] then TrimFillerStart(t) else TrimFillerStart(s) + t
    decreases |s|
  {
    if s == [] {
      assert s + t == t;
    } else if IsFiller(s[0]) {
      assert (s + t)[1..] == s[1..] + t;
      TrimFillerStartAppend(s[1..], t);
    }
  }

  lemma {:induction false} TrimFillerEndSpaces(s: string, n: nat)
    ensures TrimFillerEnd(s + Spaces(n)) == TrimFillerEnd(s)
    decreases n
  {
    if n > 0 {
      assert (s + Spaces(n))[..|s + Spaces(n)| - 1] == s + Spaces(n - 1);
      TrimFillerEndSpaces(s, n - 1);
    } else {
      assert s + Spaces(n) == s;
    }
  }

  lemma {:induction false} TrimFillerStartSpaces(n: nat)
    ensures TrimFillerStart(Spaces(n)) == []
    decreases n
  {
    if n > 0 {
      assert Spaces(n)[1..] == Spaces(n - 1);
      TrimFillerStartSpaces(n - 1);
    }
  }

  /** A value written as `' ' + text.ljust(w)` reads back as the text with
      its filler stripped: the separator and the padding never survive. */
  lemma PaddedFieldStrips(s: string, w: int)
    ensures FillerStrip(" " + LJust(s, w)) == FillerStrip(s)
  {
    var n: nat := if |s| >= w then 0 else w - |s|;
    assert LJust(s, w) == s + Spaces(n);
    assert (" " + LJust(s, w))[1..] == s + Spaces(n);
    TrimFillerStartAppend(s, Spaces(n));
    TrimFillerStartSpaces(n);
    if TrimFillerStart(s) != [] {
      TrimFillerEndSpaces(TrimFillerStart(s), n);
    }
  }

  /** A padded field is blank exactly when its value is all whitespace. */
  lemma PaddedFieldBlank(s: string, w: int)
    ensures Strip(" " + LJust(s, w)) == [] <==> Strip(s) == []
  {
    var n: nat := if |s| >= w then 0 else w - |s|;
    assert LJust(s, w) == s + Spaces(n);
    assert " " + LJust(s, w) == (" " + s) + Spaces(n);
    AllSpaceAppend(" " + s, Spaces(n));
    AllSpaceAppend(" ", s);
    StripEmpty(" " + LJust(s, w));
    StripEmpty(s);
  }

  /** The strings `read_fwf` reads as missing by default in pandas 1.x
      (pandas 2 adds `None`). */
  const NaTokens: set<string> := {
    "", "#N/A", "#N/A N/A", "#NA", "-1.#IND", "-1.#QNAN", "-NaN", "-nan", "1.#IND",
    "1.#QNAN", "<NA>", "N/A", "NA", "NULL", "NaN", "n/a", "nan", "null"
  }

  function ReadEntry(field: string): Entry {
    var t := FillerStrip(field);
    if t in NaTokens then Na else Val(t)
  }

  /** The name pandas gives the `i`-th header field: the field with its
      filler stripped, or `Unnamed: i` when nothing is left. */
  function HeaderName(field: string, i: nat): (r: string)
    ensures FillerStrip(field) != [] ==> r == FillerStrip(field)
  {
    var f := FillerStrip(field);
    if f == [] then "Unnamed: " + NatToString(i) else f
  }

  /** A column name: the header name with every `|` and then surrounding
      whitespace removed. */
  function ColumnName(field: string, i: nat): string {
    Strip(ReplaceAll(HeaderName(field, i), "|", ""))
  }

  function ColumnNames(fields: seq<string>): (r: seq<string>)
    ensures |r| == |fields| && forall i :: 0 <= i < |fields| ==> r[i] == ColumnName(fields[i], i)
  {
    seq(|fields|, i requires 0 <= i < |fields| => ColumnName(fields[i], i))
  }

  /** An empty header field is named after its position. */
  lemma UnnamedColumn(field: string, i: nat)
    requires FillerStrip(field) == []
    ensures ColumnName(field, i) == "Unnamed: " + NatToString(i)
  {
    var u := UnnamedText(i);
    assert HeaderName(field, i) == u;
    ReplaceAbsent(u, "|", "");
    StripUnpadded(u);
  }

  /** `Unnamed: i` has no bar and no surrounding whitespace. */
  function UnnamedText(i: nat): (u: string)
    ensures u == "Unnamed: " + NatToString(i)
    ensures !Contains(u, "|") && Unpadded(u)
  {
    var d := NatToString(i);
    var u := "Unnamed: " + d;
    forall j | 0 <= j < |u| ensures u[j] != '|' {
      if j >= 9 {
        assert u[j] == d[j - 9];
      }
    }
    NoCharNoMatch(u, '|');
    assert u[|u| - 1] == d[|d| - 1];
    u
  }

  lemma CellStrip(kw: string, n: nat)
    requires kw != [] && Unpadded(kw)
    ensures FillerStrip("|" + kw + Spaces(n)) == "|" + kw
  {
    var x := "|" + kw;
    assert "|" + kw + Spaces(n) == x + Spaces(n);
    assert TrimFillerStart(x + Spaces(n)) == x + Spaces(n);
    TrimFillerEndSpaces(x, n);
    assert TrimFillerEnd(x) == x;
  }

  /** A keyword set between bars and padded reads back as itself. */
  lemma ColumnNameOfCell(kw: string, n: nat, i: nat)
    requires kw != [] && Unpadded(kw) && '|' !in kw
    ensures FillerStrip("|" + kw + Spaces(n)) == "|" + kw
    ensures ColumnName("|" + kw + Spaces(n), i) == kw
  {
    var x := "|" + kw;
    CellStrip(kw, n);
    assert HeaderName("|" + kw + Spaces(n), i) == x;
    assert StartsWith(x, "|");
    assert x[1..] == kw;
    NoCharNoMatch(kw, '|');
    ReplaceMatch(x, "|", "");
    ReplaceAbsent(kw, "|", "");
    assert ReplaceAll(x, "|", "") == kw;
    StripUnpadded(kw);
  }

  // ---------------------------------------------------------------------
  // the whole file

  /** A line as the parser sees it, without its newline. */
  function DropNewline(line: string): string {
    if line != [] && line[|line| - 1] == '\n' then line[..|line| - 1] else line
  }

  /** Each field read as an entry. */
  function ReadFields(fs: seq<string>): (r: seq<Entry>)
    ensures |r| == |fs| && forall i :: 0 <= i < |fs| ==> r[i] == ReadEntry(fs[i])
  {
    seq(|fs|, i requires 0 <= i < |fs| => ReadEntry(fs[i]))
  }

  function RowEntries(line: string, widths: seq<nat>): (r: seq<Entry>)
    ensures |r| == |widths|
  {
    ReadFields(FixedFields(line, widths))
  }

  /** Fields that are all whitespace, so that `str.strip()` empties each:
      `read_fwf` skips the line they come from as blank. */
  predicate BlankFields(fs: seq<string>)
    decreases |fs|
  {
    fs == [] || (AllSpace(fs[0]) && BlankFields(fs[1..]))
  }

  /** Blank fields are the ones that each strip to nothing. */
  lemma {:induction false} BlankFieldsEach(fs: seq<string>)
    ensures BlankFields(fs) <==> forall i :: 0 <= i < |fs| ==> Strip(fs[i]) == []
    decreases |fs|
  {
    if fs != [] {
      var tail := fs[1..];
      BlankFieldsEach(tail);
      forall i | 0 <= i < |fs| ensures Strip(fs[i]) == [] <==> AllSpace(fs[i]) {
        StripEmpty(fs[i]);
      }
      if forall i :: 0 <= i < |fs| ==> Strip(fs[i]) == [] {
        forall i | 0 <= i < |tail| ensures Strip(tail[i]) == [] {
          assert tail[i] == fs[i + 1];
        }
      }
      if BlankFields(fs) {
        forall i | 0 <= i < |fs| ensures Strip(fs[i]) == [] {
          if i > 0 {
            assert fs[i] == tail[i - 1];
          }
        }
      }
    }
  }

  predicate BlankLine(line: string, widths: seq<nat>) {
    BlankFields(FixedFields(DropNewline(line), widths))
  }

  /** One row per line that is not blank at the widths. */
  function DataRows(lines: seq<string>, widths: seq<nat>): (rows: seq<seq<Entry>>)
    ensures |rows| <= |lines|
    ensures forall k :: 0 <= k < |rows| ==> |rows[k]| == |widths|
  {
    if lines == [] then []
    else if BlankLine(lines[0], widths) then DataRows(lines[1..], widths)
    else [RowEntries(DropNewline(lines[0]), widths)] + DataRows(lines[1..], widths)
  }

  /** A blank line adds no row, wherever it stands among the data lines. */
  lemma {:induction false} BlankLineSkipped(a: seq<string>, line: string, b: seq<string>, widths: seq<nat>)
    requires BlankLine(line, widths)
    ensures DataRows(a + [line] + b, widths) == DataRows(a + b, widths)
    decreases |a|
  {
    if a == [] {
      assert a + [line] + b == [line] + b && ([line] + b)[1..] == b && a + b == b;
    } else {
      assert (a + [line] + b)[1..] == a[1..] + [line] + b;
      assert (a + b)[1..] == a[1..] + b;
      assert (a + [line] + b)[0] == a[0] == (a + b)[0];
      BlankLineSkipped(a[1..], line, b, widths);
    }
  }

  /** The lines `read_fwf` reads: all but the second to fourth. */
  function Unskipped(lines: seq<string>): (r: seq<string>)
    ensures |lines| >= 1 ==> r != [] && r[0] == lines[0]
    ensures |lines| >= 4 ==> r == [lines[0]] + lines[4..]
  {
    if |lines| <= 1 then lines
    else if |lines| <= 4 then [lines[0]]
    else [lines[0]] + lines[4..]
  }

  /** The first non-blank line names the columns and the non-blank lines
      after it are the rows; with no such line there are no columns to
      parse, and `read_fwf` raises `EmptyDataError`. */
  function HeaderAndRows(name: string, lines: seq<string>, widths: seq<nat>): (r: Option<Table>)
    ensures r.Some? ==> r.value.name == name && |r.value.columns| == |widths|
    ensures r.Some? ==> forall k :: 0 <= k < |r.value.rows| ==> |r.value.rows[k]| == |widths|
    decreases |lines|
  {
    if lines == [] then None
    else if BlankLine(lines[0], widths) then HeaderAndRows(name, lines[1..], widths)
    else
      var names := ColumnNames(FixedFields(DropNewline(lines[0]), widths));
      var rows := DataRows(lines[1..], widths);
      Some(Table(name, names, rows))
  }

  /** There is no table exactly when every line is blank. */
  lemma {:induction false} HeaderAndRowsNone(name: string, lines: seq<string>, widths: seq<nat>)
    ensures HeaderAndRows(name, lines, widths).None? <==> forall k :: 0 <= k < |lines| ==> BlankLine(lines[k], widths)
    decreases |lines|
  {
    if lines != [] {
      var tail := lines[1..];
      HeaderAndRowsNone(name, tail, widths);
      if forall k :: 0 <= k < |lines| ==> BlankLine(lines[k], widths) {
        forall k | 0 <= k < |tail| ensures BlankLine(tail[k], widths) {
          assert tail[k] == lines[k + 1];
        }
      }
      if BlankLine(lines[0], widths) && forall k :: 0 <= k < |tail| ==> BlankLine(tail[k], widths) {
        forall k | 0 <= k < |lines| ensures BlankLine(lines[k], widths) {
          if k > 0 {
            assert lines[k] == tail[k - 1];
          }
        }
      }
    }
  }

  /** Blank lines before the header are passed over: the header is the
      first non-blank line, and the data rows are read from the lines
      after it. */
  lemma HeaderAfterBlanks(name: string, lines: seq<string>, j: nat, widths: seq<nat>)
    requires j < |lines| && !BlankLine(lines[j], widths)
    requires forall k :: 0 <= k < j ==> BlankLine(lines[k], widths)
    ensures HeaderAndRows(name, lines, widths) ==
              Some(Table(name, ColumnNames(FixedFields(DropNewline(lines[j]), widths)), DataRows(lines[j + 1..], widths)))
  {
    BlanksSkipped(name, lines, j, widths);
    var rest := lines[j..];
    assert rest[0] == lines[j] && rest[1..] == lines[j + 1..];
    HeaderFirst(name, rest, widths);
  }

  /** Blank lines before the header change nothing. */
  lemma {:induction false} BlanksSkipped(name: string, lines: seq<string>, j: nat, widths: seq<nat>)
    requires j <= |lines|
    requires forall k :: 0 <= k < j ==> BlankLine(lines[k], widths)
    ensures HeaderAndRows(name, lines, widths) == HeaderAndRows(name, lines[j..], widths)
    decreases j
  {
    if j > 0 {
      HeaderSkip(name, lines, widths);
      BlankPrefixTail(lines, j, widths);
      BlanksSkipped(name, lines[1..], j - 1, widths);
      assert lines[1..][j - 1..] == lines[j..];
    }
  }

  lemma BlankPrefixTail(lines: seq<string>, j: nat, widths: seq<nat>)
    requires 1 <= j <= |lines|
    requires forall k :: 0 <= k < j ==> BlankLine(lines[k], widths)
    ensures forall k :: 0 <= k < j - 1 ==> BlankLine(lines[1..][k], widths)
  {
    forall k | 0 <= k < j - 1 ensures BlankLine(lines[1..][k], widths) {
      assert lines[1..][k] == lines[k + 1];
    }
  }

  lemma HeaderFirst(name: string, lines: seq<string>, widths: seq<nat>)
    requires lines != [] && !BlankLine(lines[0], widths)
    ensures HeaderAndRows(name, lines, widths) ==
              Some(Table(name, ColumnNames(FixedFields(DropNewline(lines[0]), widths)), DataRows(lines[1..], widths)))
  {
  }

  lemma HeaderSkip(name: string, lines: seq<string>, widths: seq<nat>)
    requires lines != [] && BlankLine(lines[0], widths)
    ensures HeaderAndRows(name, lines, widths) == HeaderAndRows(name, lines[1..], widths)
  {
  }

  /** The table in a file's text: the first line gives the widths, the
      three lines after it are skipped, and the rest give the names and
      the data. */
  function ParseTable(name: string, text: string): Option<Table> {
    var lines := FileLines(UniversalNewlines(text));
    var widths := ColumnWidths(if lines == [] then "" else lines[0]);
    HeaderAndRows(name, Unskipped(lines), widths)
  }

  /** `os.path.basename`: what follows the last `/`. */
  function Basename(path: string): (r: string)
    ensures '/' !in r
    ensures EndsWith(path, r)
    ensures r == path || (|r| < |path| && path[|path| - |r| - 1] == '/')
    decreases |path|
  {
    if '/' !in path then path
    else
      var i := IndexOf(path, '/');
      var t := path[i + 1..];
      var r := Basename(t);
      EndsWithTail(path, i + 1, r);
      assert path[|path| - |r| - 1] == '/' by {
        if r == t {
          assert |path| - |r| - 1 == i;
        } else {
          assert t[|t| - |r| - 1] == path[|path| - |r| - 1];
        }
      }
      r
  }

  /** What loading a path gives: `False` when it is not a file, the
      `EmptyDataError` `read_fwf` raises, or the table. */
  datatype Loaded = NotAFile | EmptyData | Frame(table: Table)

  /** `load_metadata_file_as_df`. */
  function Load(files: map<string, string>, path: string): (r: Loaded)
    ensures r.NotAFile? <==> path !in files
    ensures path in files && files[path] == "" ==> r == EmptyData
    ensures r.Frame? ==> r.table.name == Basename(path) && '/' !in r.table.name
    ensures r.Frame? ==> forall k :: 0 <= k < |r.table.rows| ==> |r.table.rows[k]| == |r.table.columns|
  {
    if path !in files then NotAFile
    else
      match ParseTable(Basename(path), files[path])
      case None => EmptyData
      case Some(t) => Frame(t)
  }
}

=== FILE: roundtrip.dfy ===
/** Reading back what `make_metadata` wrote: over a schema whose keywords
    are plain words that fit their columns, the table loaded from a
    written file has the keywords as its column names and, for every
    record not written wholly blank, the written values with their padding
    stripped. */
module Roundtrip {
  import opened Wrappers
  import opened Text
  import opened Values
  import opened Writer
  import opened Reader

  // ---------------------------------------------------------------------
  // the widths of a written name row

  /** Cells set between bars, and a closing bar, are the bar-joined cells
      with an empty piece at each end. */
  lemma PipeRowIsJoin(cells: seq<string>)
    ensures PipeCells(cells) + "|" == Join([""] + cells + [""], "|")
  {
    PipeCellsJoin(cells);
    assert [""] + cells + [""] == [""] + (cells + [""]);
    JoinCons("", cells + [""], "|");
  }

  lemma {:induction false} PipeCellsJoin(cells: seq<string>)
    ensures PipeCells(cells) + "|" == "|" + Join(cells + [""], "|")
    decreases |cells|
  {
    if cells == [] {
      assert cells + [""] == [""];
    } else {
      var c, cs := cells[0], cells[1..];
      PipeCellsJoin(cs);
      assert cells + [""] == [c] + (cs + [""]);
      JoinCons(c, cs + [""], "|");
      BarShift(c, PipeCells(cs), Join(cs + [""], "|"));
    }
  }

  lemma BarShift(c: string, p: string, j: string)
    requires p + "|" == "|" + j
    ensures "|" + c + p + "|" == "|" + (c + "|" + j)
  {
    assert "|" + c + p + "|" == "|" + c + (p + "|");
    assert "|" + (c + "|" + j) == "|" + c + ("|" + j);
  }

  lemma JoinCons(x: string, rest: seq<string>, sep: string)
    requires rest != []
    ensures Join([x] + rest, sep) == x + sep + Join(rest, sep)
  {
    assert ([x] + rest)[1..] == rest;
  }

  /** Splitting a bar row on `|` gives its cells, with an empty piece at
      each end. */
  lemma PipeRowSplit(cells: seq<string>)
    requires forall i :: 0 <= i < |cells| ==> '|' !in cells[i]
    ensures Split(PipeCells(cells) + "|", '|') == [""] + cells + [""]
  {
    var parts := [""] + cells + [""];
    BarFreeEnds(cells);
    SplitJoin(parts, '|');
    PipeRowIsJoin(cells);
  }

  lemma BarFreeEnds(cells: seq<string>)
    requires forall i :: 0 <= i < |cells| ==> '|' !in cells[i]
    ensures forall i :: 0 <= i < |[""] + cells + [""]| ==> '|' !in ([""] + cells + [""])[i]
  {
    var parts := [""] + cells + [""];
    forall i | 0 <= i < |parts| ensures '|' !in parts[i] {
      if 0 < i < |parts| - 1 {
        assert parts[i] == cells[i - 1];
      }
    }
  }

  /** A bar row followed by its newline strips to the row. */
  lemma StripBarRow(cells: seq<string>)
    ensures Strip(PipeCells(cells) + "|" + "\n") == PipeCells(cells) + "|"
  {
    var row := PipeCells(cells) + "|";
    assert row[0] == '|' by {
      if cells != [] {
        assert row == "|" + cells[0] + PipeCells(cells[1..]) + "|";
      }
    }
    StripSurrounded("", row, "\n");
    assert "" + row + "\n" == row + "\n";
  }

  /** The widths read from a bar row with its newline are those of its
      cells longer than one character. */
  lemma PipeRowWidths(cells: seq<string>)
    requires forall i :: 0 <= i < |cells| ==> '|' !in cells[i]
    ensures ColumnWidths(PipeCells(cells) + "|" + "\n") == SegmentWidths(cells)
  {
    var line := PipeCells(cells) + "|" + "\n";
    var parts := [""] + cells + [""];
    assert Split(Strip(line), '|') == parts by {
      StripBarRow(cells);
      PipeRowSplit(cells);
    }
    assert SegmentWidths(parts) == SegmentWidths(cells) by {
      SegmentWidthsAppend([""] + cells, [""]);
      SegmentWidthsAppend([""], cells);
    }
    WidthsFromParts(line, parts, SegmentWidths(cells));
  }

  lemma WidthsFromParts(line: string, parts: seq<string>, ws: seq<nat>)
    requires Split(Strip(line), '|') == parts
    requires SegmentWidths(parts) == ws
    ensures ColumnWidths(line) == ws
  {
  }

  /** The widths a schema's columns should read back as: size plus one for
      each column wider than one character. */
  function WideWidths(schema: Schema): (ws: seq<nat>)
    ensures |ws| <= |schema|
  {
    if schema == [] then []
    else (if schema[0].colSize <= 1 then [] else [schema[0].colSize + 1]) + WideWidths(schema[1..])
  }

  lemma {:induction false} CellWidths(schema: Schema, cells: seq<string>)
    requires |cells| == |schema|
    requires forall i :: 0 <= i < |schema| ==> |cells[i]| == schema[i].colSize
    ensures SegmentWidths(cells) == WideWidths(schema)
    decreases |schema|
  {
    if schema != [] {
      CellWidths(schema[1..], cells[1..]);
    }
  }

  /** The name row written for a schema reads back as the widths of its
      columns wider than one character, each its size plus one, provided no
      keyword holds a `|`. */
  lemma HeaderWidths(schema: Schema)
    requires forall i :: 0 <= i < |schema| ==> !Overwide(schema[i]) && '|' !in schema[i].keyword
    ensures ColumnWidths(NameRow(schema) + "\n") == WideWidths(schema)
  {
    var cells := Padded(schema, Keywords(schema));
    assert forall i :: 0 <= i < |cells| ==> '|' !in cells[i] && |cells[i]| == schema[i].colSize by {
      NameCells(schema);
    }
    PipeRowWidths(cells);
    CellWidths(schema, cells);
  }

  /** Every column keeps a width exactly when every column is at least two
      wide; a narrower column is dropped silently. */
  lemma {:induction false} WideWidthsCount(schema: Schema)
    ensures |WideWidths(schema)| == |schema| <==> forall i :: 0 <= i < |schema| ==> schema[i].colSize >= 2
    decreases |schema|
  {
    if schema != [] {
      WideWidthsCount(schema[1..]);
      assert forall i :: 0 <= i < |schema[1..]| ==> schema[1..][i] == schema[i + 1];
    }
  }

  /** When every column is at least two wide, each reads back as its size
      plus one. */
  lemma {:induction false} WideWidthsSpans(schema: Schema)
    requires forall i :: 0 <= i < |schema| ==> schema[i].colSize >= 2
    ensures WideWidths(schema) == Spans(schema)
    decreases |schema|
  {
    if schema != [] {
      WideWidthsSpans(schema[1..]);
      SpansCons(schema);
    }
  }

  lemma SpansCons(schema: Schema)
    requires schema != []
    ensures Spans(schema) == [schema[0].colSize + 1] + Spans(schema[1..])
  {
    var ws := [schema[0].colSize + 1] + Spans(schema[1..]);
    forall i | 0 <= i < |schema| ensures ws[i] == Spans(schema)[i] {
      if i > 0 {
        assert ws[i] == Spans(schema[1..])[i - 1];
      }
    }
  }

  lemma NameCells(schema: Schema)
    requires forall i :: 0 <= i < |schema| ==> !Overwide(schema[i]) && '|' !in schema[i].keyword
    ensures forall i :: 0 <= i < |schema| ==>
              '|' !in Padded(schema, Keywords(schema))[i] && |Padded(schema, Keywords(schema))[i]| == schema[i].colSize
  {
    forall i | 0 <= i < |schema|
      ensures '|' !in Padded(schema, Keywords(schema))[i]
    {
      LJustKeepsOut(schema[i].keyword, schema[i].colSize, '|');
    }
  }

  /** Padding adds only spaces. */
  lemma LJustKeepsOut(s: string, w: int, c: char)
    requires c != ' ' && c !in s
    ensures c !in LJust(s, w)
  {
  }

  // ---------------------------------------------------------------------
  // the written table read back


  /** Text that stays on one line. */
  predicate LineSafe(s: string) {
    '\n' !in s && '\r' !in s
  }

  /** A schema whose table reads back column for column: every column at
      least two wide and wide enough for its keyword, and every keyword a
      non-empty single-line word without a `|` or surrounding whitespace,
      used by no other column. */
  predicate ReadableSchema(schema: Schema) {
    && |schema| >= 1
    && (forall i, j :: 0 <= i < j < |schema| ==> schema[i].keyword != schema[j].keyword)
    && forall i :: 0 <= i < |schema| ==>
         && schema[i].colSize >= 2 && !Overwide(schema[i])
         && schema[i].keyword != [] && Unpadded(schema[i].keyword) && '|' !in schema[i].keyword
         && LineSafe(schema[i].keyword) && LineSafe(schema[i].dataType)
  }

  /** The widths a readable schema's columns read back as. */
  function Spans(schema: Schema): (ws: seq<nat>)
    ensures |ws| == |schema| && forall i :: 0 <= i < |schema| ==> ws[i] == schema[i].colSize + 1
  {
    seq(|schema|, i requires 0 <= i < |schema| => schema[i].colSize + 1)
  }

  /** The blocks of a record line holding the texts `vals`, one per column. */
  function ValueBlocks(schema: Schema, vals: seq<string>): (r: seq<string>)
    requires |vals| == |schema|
    ensures |r| == |schema|
    ensures forall i :: 0 <= i < |schema| ==> r[i] == " " + LJust(vals[i], schema[i].colSize)
  {
    seq(|schema|, i requires 0 <= i < |schema| => " " + LJust(vals[i], schema[i].colSize))
  }

  /** One text per column, each fitting its column on one line. */
  predicate CleanTexts(schema: Schema, vals: seq<string>) {
    |vals| == |schema| && forall i :: 0 <= i < |schema| ==> |vals[i]| <= schema[i].colSize && LineSafe(vals[i])
  }

  /** The file text of a table with these record texts. */
  function TableText(schema: Schema, vals: seq<seq<string>>): string
    requires forall k :: 0 <= k < |vals| ==> |vals[k]| == |schema|
  {
    Concat(Terminated(PreambleRows(schema) + ValueLines(schema, vals)))
  }

  function ValueLines(schema: Schema, vals: seq<seq<string>>): (r: seq<string>)
    requires forall k :: 0 <= k < |vals| ==> |vals[k]| == |schema|
    ensures |r| == |vals|
    ensures forall k :: 0 <= k < |vals| ==> r[k] == Concat(ValueBlocks(schema, vals[k]))
  {
    seq(|vals|, k requires 0 <= k < |vals| => Concat(ValueBlocks(schema, vals[k])))
  }

  /** The records that are not all filler: the ones `read_fwf` reads as
      rows. */
  function NonBlankRecords(vals: seq<seq<string>>): (r: seq<seq<string>>)
    ensures |r| <= |vals|
  {
    if vals == [] then []
    else if BlankFields(vals[0]) then NonBlankRecords(vals[1..])
    else [vals[0]] + NonBlankRecords(vals[1..])
  }

  /** No record kept is all filler, and when none is, all are kept. */
  lemma NonBlankRecordsKept(vals: seq<seq<string>>)
    ensures forall k :: 0 <= k < |NonBlankRecords(vals)| ==> !BlankFields(NonBlankRecords(vals)[k])
    ensures (forall k :: 0 <= k < |vals| ==> !BlankFields(vals[k])) ==> NonBlankRecords(vals) == vals
  {
    NonBlankRecordsNonBlank(vals);
    if forall k :: 0 <= k < |vals| ==> !BlankFields(vals[k]) {
      NonBlankRecordsAll(vals);
    }
  }

  lemma {:induction false} NonBlankRecordsNonBlank(vals: seq<seq<string>>)
    ensures forall k :: 0 <= k < |NonBlankRecords(vals)| ==> !BlankFields(NonBlankRecords(vals)[k])
    decreases |vals|
  {
    if vals != [] {
      var rest := NonBlankRecords(vals[1..]);
      NonBlankRecordsNonBlank(vals[1..]);
      if !BlankFields(vals[0]) {
        var r := [vals[0]] + rest;
        assert NonBlankRecords(vals) == r;
        forall k | 0 <= k < |r| ensures !BlankFields(r[k]) {
          if k > 0 {
            assert r[k] == rest[k - 1];
          }
        }
      }
    }
  }

  lemma {:induction false} NonBlankRecordsAll(vals: seq<seq<string>>)
    requires forall k :: 0 <= k < |vals| ==> !BlankFields(vals[k])
    ensures NonBlankRecords(vals) == vals
    decreases |vals|
  {
    if vals != [] {
      var tail := vals[1..];
      forall k | 0 <= k < |tail| ensures !BlankFields(tail[k]) {
        assert tail[k] == vals[k + 1];
      }
      NonBlankRecordsAll(tail);
      assert !BlankFields(vals[0]);
      assert vals == [vals[0]] + tail;
    }
  }

  /** What the texts of a table read back as. */
  function ReadTexts(vals: seq<seq<string>>): (rows: seq<seq<Entry>>)
    ensures |rows| == |vals|
  {
    if vals == [] then [] else [ReadFields(vals[0])] + ReadTexts(vals[1..])
  }
  lemma {:induction false} PipeCellsKeepsOut(cells: seq<string>, c: char)
    requires c != '|'
    requires forall i :: 0 <= i < |cells| ==> c !in cells[i]
    ensures c !in PipeCells(cells)
    decreases |cells|
  {
    if cells != [] {
      PipeCellsKeepsOut(cells[1..], c);
    }
  }

  /** A preamble row of single-line texts is a single line. */
  lemma PipeRowSafe(schema: Schema, texts: seq<string>)
    requires |texts| == |schema|
    requires forall i :: 0 <= i < |texts| ==> LineSafe(texts[i])
    ensures LineSafe(PipeRow(schema, texts))
  {
    var cells := Padded(schema, texts);
    forall i | 0 <= i < |cells| ensures LineSafe(cells[i]) {
      LJustKeepsOut(texts[i], schema[i].colSize, '\n');
      LJustKeepsOut(texts[i], schema[i].colSize, '\r');
    }
    PipeCellsKeepsOut(cells, '\n');
    PipeCellsKeepsOut(cells, '\r');
  }

  lemma NameRowSafe(schema: Schema)
    ensures (forall i :: 0 <= i < |schema| ==> LineSafe(schema[i].keyword)) ==> LineSafe(NameRow(schema))
  {
    if forall i :: 0 <= i < |schema| ==> LineSafe(schema[i].keyword) {
      PipeRowSafe(schema, Keywords(schema));
    }
  }

  lemma TypeRowSafe(schema: Schema)
    ensures (forall i :: 0 <= i < |schema| ==> LineSafe(schema[i].dataType)) ==> LineSafe(PipeRow(schema, TypeNames(schema)))
  {
    if forall i :: 0 <= i < |schema| ==> LineSafe(schema[i].dataType) {
      PipeRowSafe(schema, TypeNames(schema));
    }
  }

  lemma UnitRowSafe(schema: Schema)
    ensures LineSafe(PipeRow(schema, Blanks(schema)))
  {
    PipeRowSafe(schema, Blanks(schema));
  }

  lemma NullRowSafe(schema: Schema)
    ensures LineSafe(PipeRow(schema, NullMarkers(schema)))
  {
    PipeRowSafe(schema, NullMarkers(schema));
  }

  /** The preamble rows are single lines when every keyword and type name is. */
  lemma PreambleSafe(schema: Schema)
    requires forall i :: 0 <= i < |schema| ==> LineSafe(schema[i].keyword) && LineSafe(schema[i].dataType)
    ensures forall j :: 0 <= j < 4 ==> LineSafe(PreambleRows(schema)[j])
  {
    forall j | 0 <= j < 4 ensures LineSafe(PreambleRows(schema)[j]) {
      if j == 0 {
        NameRowSafe(schema);
      } else if j == 1 {
        TypeRowSafe(schema);
      } else if j == 2 {
        UnitRowSafe(schema);
      } else {
        NullRowSafe(schema);
      }
    }
  }

  /** A line of clean texts is a non-empty single line of blocks, each its
      column's width plus one. */
  lemma ValueLineShape(schema: Schema, vals: seq<string>)
    requires |schema| >= 1 && CleanTexts(schema, vals)
    ensures Lengths(ValueBlocks(schema, vals)) == Spans(schema)
    ensures LineSafe(Concat(ValueBlocks(schema, vals))) && Concat(ValueBlocks(schema, vals)) != []
  {
    var blocks := ValueBlocks(schema, vals);
    forall i | 0 <= i < |blocks| ensures LineSafe(blocks[i]) {
      LJustKeepsOut(vals[i], schema[i].colSize, '\n');
      LJustKeepsOut(vals[i], schema[i].colSize, '\r');
    }
    ConcatKeepsOut(blocks, '\n');
    ConcatKeepsOut(blocks, '\r');
    assert Concat(blocks) == blocks[0] + Concat(blocks[1..]);
  }

  /** A line of clean texts reads back as the texts, filler stripped. */
  lemma ValueLineReads(schema: Schema, vals: seq<string>)
    requires |schema| >= 1 && CleanTexts(schema, vals)
    ensures RowEntries(Concat(ValueBlocks(schema, vals)), Spans(schema)) == ReadFields(vals)
  {
    BlocksSliced(schema, vals);
    BlocksRead(schema, vals);
  }

  /** Slicing a line of clean texts at the spans gives its blocks. */
  lemma BlocksSliced(schema: Schema, vals: seq<string>)
    requires |schema| >= 1 && CleanTexts(schema, vals)
    ensures FixedFields(Concat(ValueBlocks(schema, vals)), Spans(schema)) == ValueBlocks(schema, vals)
  {
    var blocks := ValueBlocks(schema, vals);
    ValueLineShape(schema, vals);
    assert Concat(blocks) + "" == Concat(blocks);
    FixedFieldsOfBlocks(blocks, "");
  }

  /** Each padded block reads as its text would. */
  lemma BlocksRead(schema: Schema, vals: seq<string>)
    requires |vals| == |schema|
    ensures ReadFields(ValueBlocks(schema, vals)) == ReadFields(vals)
  {
    var blocks := ValueBlocks(schema, vals);
    forall i | 0 <= i < |schema| ensures ReadEntry(blocks[i]) == ReadEntry(vals[i]) {
      PaddedFieldStrips(vals[i], schema[i].colSize);
    }
  }

  /** A record's line is blank exactly when its texts are all whitespace. */
  lemma ValueLineBlank(schema: Schema, vals: seq<string>)
    requires |schema| >= 1 && CleanTexts(schema, vals)
    ensures BlankLine(Concat(ValueBlocks(schema, vals)) + "\n", Spans(schema)) <==> BlankFields(vals)
  {
    var line := Concat(ValueBlocks(schema, vals));
    DropNewlineAdded(line);
    BlocksSliced(schema, vals);
    var blocks := ValueBlocks(schema, vals);
    forall i | 0 <= i < |schema| ensures Strip(blocks[i]) == [] <==> Strip(vals[i]) == [] {
      PaddedFieldBlank(vals[i], schema[i].colSize);
    }
    BlankFieldsEach(blocks);
    BlankFieldsEach(vals);
  }

  lemma ReadTextsCons(v: seq<string>, rest: seq<seq<string>>)
    ensures ReadTexts([v] + rest) == [ReadFields(v)] + ReadTexts(rest)
  {
    var vs := [v] + rest;
    assert vs[0] == v && vs[1..] == rest;
  }

  /** The first record line gives a row unless the record is all filler. */
  lemma DataRowsFirst(schema: Schema, vals: seq<seq<string>>)
    requires |schema| >= 1 && CleanTable(schema, vals) && vals != []
    ensures DataRows(Terminated(ValueLines(schema, vals)), Spans(schema)) ==
              (if BlankFields(vals[0]) then [] else [ReadFields(vals[0])])
                + DataRows(Terminated(ValueLines(schema, vals[1..])), Spans(schema))
  {
    var t := Terminated(ValueLines(schema, vals));
    var line := Concat(ValueBlocks(schema, vals[0]));
    assert t[0] == line + "\n";
    assert ValueLines(schema, vals)[1..] == ValueLines(schema, vals[1..]);
    assert t[1..] == Terminated(ValueLines(schema, vals[1..]));
    ValueLineBlank(schema, vals[0]);
    DropNewlineAdded(line);
    ValueLineReads(schema, vals[0]);
  }

  /** The record lines read back as the records that are not all filler,
      in order. */
  lemma {:induction false} DataRowsOfValueLines(schema: Schema, vals: seq<seq<string>>)
    requires |schema| >= 1 && CleanTable(schema, vals)
    ensures DataRows(Terminated(ValueLines(schema, vals)), Spans(schema)) == ReadTexts(NonBlankRecords(vals))
    decreases |vals|
  {
    if vals != [] {
      DataRowsFirst(schema, vals);
      assert CleanTable(schema, vals[1..]) by {
        assert forall k :: 0 <= k < |vals[1..]| ==> vals[1..][k] == vals[k + 1];
      }
      DataRowsOfValueLines(schema, vals[1..]);
      var rest := NonBlankRecords(vals[1..]);
      if BlankFields(vals[0]) {
        assert NonBlankRecords(vals) == rest;
      } else {
        assert NonBlankRecords(vals) == [vals[0]] + rest;
        ReadTextsCons(vals[0], rest);
      }
    }
  }

  function Bars(cells: seq<string>): (r: seq<string>)
    ensures |r| == |cells| && forall i :: 0 <= i < |cells| ==> r[i] == "|" + cells[i]
  {
    seq(|cells|, i requires 0 <= i < |cells| => "|" + cells[i])
  }

  lemma {:induction false} PipeCellsBars(cells: seq<string>)
    ensures PipeCells(cells) == Concat(Bars(cells))
    decreases |cells|
  {
    if cells != [] {
      assert Bars(cells)[1..] == Bars(cells[1..]);
      PipeCellsBars(cells[1..]);
    }
  }

  /** The name row of a schema whose keywords fit sliced at the column
      spans gives each padded keyword behind its bar. */
  lemma NameRowFields(schema: Schema)
    requires forall i :: 0 <= i < |schema| ==> !Overwide(schema[i])
    ensures FixedFields(NameRow(schema), Spans(schema)) == Bars(Padded(schema, Keywords(schema)))
  {
    var bars := Bars(Padded(schema, Keywords(schema)));
    PipeCellsBars(Padded(schema, Keywords(schema)));
    forall i | 0 <= i < |schema| ensures Lengths(bars)[i] == Spans(schema)[i] {
    }
    assert Lengths(bars) == Spans(schema);
    FixedFieldsOfBlocks(bars, "|");
  }

  /** One column's cell of the name row reads back as its keyword. */
  lemma NameCellReads(schema: Schema, i: nat)
    requires ReadableSchema(schema) && i < |schema|
    ensures ColumnName(Bars(Padded(schema, Keywords(schema)))[i], i) == schema[i].keyword
    ensures FillerStrip(Bars(Padded(schema, Keywords(schema)))[i]) == "|" + schema[i].keyword
  {
    var kw := schema[i].keyword;
    assert Bars(Padded(schema, Keywords(schema)))[i] == "|" + kw + Spaces(schema[i].colSize - |kw|);
    ColumnNameOfCell(kw, schema[i].colSize - |kw|, i);
  }

  /** The name row of a readable schema reads back as its keywords. */
  lemma NameRowReads(schema: Schema)
    requires ReadableSchema(schema)
    ensures ColumnNames(FixedFields(NameRow(schema), Spans(schema))) == Keywords(schema)
  {
    var names := FixedFields(NameRow(schema), Spans(schema));
    assert names == Bars(Padded(schema, Keywords(schema))) by {
      NameRowFields(schema);
    }
    forall i | 0 <= i < |names| ensures ColumnName(names[i], i) == Keywords(schema)[i] {
      NameCellReads(schema, i);
    }
  }

  /** The name row is not blank: its first field holds a bar. */
  lemma NameRowNotBlank(schema: Schema)
    requires ReadableSchema(schema)
    ensures !BlankLine(NameRow(schema) + "\n", Spans(schema))
  {
    DropNewlineAdded(NameRow(schema));
    NameRowFields(schema);
    var cell := Bars(Padded(schema, Keywords(schema)))[0];
    assert cell == "|" + schema[0].keyword + Spaces(schema[0].colSize - |schema[0].keyword|);
    assert !IsSpace(cell[0]);
    StripEmpty(cell);
    BlankFieldsEach(Bars(Padded(schema, Keywords(schema))));
  }

  /** The parsed table of a text whose lines are known. */
  lemma ParseTableOfLines(name: string, text: string, lines: seq<string>, widths: seq<nat>)
    requires FileLines(UniversalNewlines(text)) == lines && |lines| >= 4
    requires ColumnWidths(lines[0]) == widths && !BlankLine(lines[0], widths)
    ensures ParseTable(name, text) ==
              Some(Table(name,
                         ColumnNames(FixedFields(DropNewline(lines[0]), widths)),
                         DataRows(lines[4..], widths)))
  {
    var u := Unskipped(lines);
    assert u[1..] == lines[4..];
  }

  /** Every record text clean for its column. */
  predicate CleanTable(schema: Schema, vals: seq<seq<string>>) {
    forall k :: 0 <= k < |vals| ==> CleanTexts(schema, vals[k])
  }

  /** The lines of a table of clean texts: the four preamble rows, then one
      per record. */
  lemma TableTextLines(schema: Schema, vals: seq<seq<string>>)
    requires ReadableSchema(schema) && CleanTable(schema, vals)
    ensures FileLines(UniversalNewlines(TableText(schema, vals))) == Terminated(PreambleRows(schema) + ValueLines(schema, vals))
  {
    var vl := ValueLines(schema, vals);
    var rows := PreambleRows(schema) + vl;
    forall k | 0 <= k < |vl| ensures LineSafe(vl[k]) {
      ValueLineShape(schema, vals[k]);
    }
    PreambleSafe(schema);
    assert forall k :: 0 <= k < |rows| ==> LineSafe(rows[k]);
    ConcatKeepsOut(Terminated(rows), '\r');
    FileLinesOfTerminated(rows);
  }

  /** The record lines of a table of clean texts read back as the texts
      of the records that are not all filler; a blank record is dropped. */
  lemma TableTextRows(schema: Schema, vals: seq<seq<string>>)
    requires ReadableSchema(schema) && CleanTable(schema, vals)
    ensures DataRows(Terminated(ValueLines(schema, vals)), Spans(schema)) == ReadTexts(NonBlankRecords(vals))
  {
    DataRowsOfValueLines(schema, vals);
  }

  /** The first of four leading lines, and what follows them, after the
      lines are terminated. */
  lemma TerminatedPreamble(rows: seq<string>, rest: seq<string>)
    requires |rows| == 4
    ensures Terminated(rows + rest)[0] == rows[0] + "\n"
    ensures Terminated(rows + rest)[4..] == Terminated(rest)
  {
    var t := Terminated(rows + rest);
    forall k | 0 <= k < |rest| ensures t[4..][k] == Terminated(rest)[k] {
      assert (rows + rest)[4 + k] == rest[k];
    }
  }

  /** The terminated name row of a readable schema splits at the spans,
      and reads as the name row once its newline is dropped. */
  lemma NameLine(schema: Schema)
    requires ReadableSchema(schema)
    ensures ColumnWidths(NameRow(schema) + "\n") == Spans(schema)
    ensures DropNewline(NameRow(schema) + "\n") == NameRow(schema)
  {
    HeaderWidths(schema);
    WideWidthsSpans(schema);
    DropNewlineAdded(NameRow(schema));
  }

  lemma DropNewlineAdded(line: string)
    ensures DropNewline(line + "\n") == line
  {
    assert (line + "\n")[..|line|] == line;
  }

  /** Loading the text of a table of clean texts over a readable schema
      gives back the base name, the keywords as column names, and one row
      per record that is not all filler, holding what each text reads as. */
  lemma LoadTableText(schema: Schema, vals: seq<seq<string>>, path: string)
    requires ReadableSchema(schema) && CleanTable(schema, vals)
    ensures Load(map[path := TableText(schema, vals)], path) ==
              Frame(Table(Basename(path), Keywords(schema), ReadTexts(NonBlankRecords(vals))))
  {
    var vl := ValueLines(schema, vals);
    var lines := Terminated(PreambleRows(schema) + vl);
    TableTextLines(schema, vals);
    TerminatedPreamble(PreambleRows(schema), vl);
    NameLine(schema);
    NameRowNotBlank(schema);
    ParseTableOfLines(Basename(path), TableText(schema, vals), lines, Spans(schema));
    NameRowReads(schema);
    TableTextRows(schema, vals);
  }

  /** The texts a record's fields are written as. */
  function WrittenTexts(schema: Schema, rec: Record): (r: seq<string>)
    requires RecordOk(schema, rec)
    ensures |r| == |schema|
  {
    seq(|schema|, i requires 0 <= i < |schema| => PyStr(WrittenValue(schema[i], rec)))
  }

  lemma RecordLineTexts(schema: Schema, rec: Record)
    requires RecordOk(schema, rec)
    ensures RecordLine(schema, rec) == Concat(ValueBlocks(schema, WrittenTexts(schema, rec)))
  {
    RenderFieldsBlocks(schema, rec, NoWarns);
    assert RecordBlocks(schema, rec) == ValueBlocks(schema, WrittenTexts(schema, rec));
  }

  /** Loading a table `make_metadata` wrote gives back the base name, the
      keywords as column names, and one row per record not written wholly
      blank, holding what each written value reads as, when the schema is
      readable and every written value fits its column on one line. */
  lemma LoadWritten(schema: Schema, records: seq<Record>, path: string)
    requires ReadableSchema(schema)
    requires forall k :: 0 <= k < |records| ==> RecordOk(schema, records[k])
    requires forall k :: 0 <= k < |records| ==> CleanTexts(schema, WrittenTexts(schema, records[k]))
    ensures MakeMetadata(schema, records).error.None?
    ensures Load(map[path := MakeMetadata(schema, records).text], path) ==
              Frame(Table(Basename(path), Keywords(schema), ReadTexts(NonBlankRecords(WrittenTable(schema, records)))))
  {
    MakeMetadataComplete(schema, records);
    WrittenTableText(schema, records);
    LoadTableText(schema, WrittenTable(schema, records), path);
  }

  /** The texts of every record's fields. */
  function WrittenTable(schema: Schema, records: seq<Record>): (vals: seq<seq<string>>)
    requires forall k :: 0 <= k < |records| ==> RecordOk(schema, records[k])
    ensures |vals| == |records|
    ensures forall k :: 0 <= k < |records| ==> vals[k] == WrittenTexts(schema, records[k])
  {
    seq(|records|, k requires 0 <= k < |records| => WrittenTexts(schema, records[k]))
  }

  /** A metadata file whose records all pass is the table text of what
      their fields are written as. */
  lemma WrittenTableText(schema: Schema, records: seq<Record>)
    requires forall k :: 0 <= k < |records| ==> RecordOk(schema, records[k])
    requires forall i :: 0 <= i < |schema| ==> !Overwide(schema[i])
    ensures MakeMetadata(schema, records).text == TableText(schema, WrittenTable(schema, records))
  {
    var vals := WrittenTable(schema, records);
    MakeMetadataComplete(schema, records);
    MakeMetadataText(schema, records);
    forall k | 0 <= k < |records| ensures RecordLines(schema, records)[k] == ValueLines(schema, vals)[k] {
      RecordLineTexts(schema, records[k]);
    }
    assert RecordLines(schema, records) == ValueLines(schema, vals);
  }
}

=== FILE: text.dfy ===
/** The Python `str` operations the pipeline relies on, over `seq<char>`:
    `strip`, `ljust`, slicing, `split` on one separator character, `join`,
    `in` (substring), `startswith`, `lower`, `replace`, and the way a text
    file opened in text mode is read line by line. */
module Text {

  /** Python's `str.isspace` for one character: the characters `str.strip()`
      removes when it is called without arguments. */
  predicate IsSpace(c: char) {
    var n := c as int;
    || 9 <= n <= 13
    || 28 <= n <= 32
    || n == 0x85 || n == 0xA0 || n == 0x1680
    || 0x2000 <= n <= 0x200A
    || n == 0x2028 || n == 0x2029 || n == 0x202F || n == 0x205F || n == 0x3000
  }

  /** True when neither end of `s` is whitespace, i.e. `strip` leaves it alone. */
  predicate Unpadded(s: string) {
    s == [] || (!IsSpace(s[0]) && !IsSpace(s[|s| - 1]))
  }

  function TrimStart(s: string): (r: string)
    ensures |r| <= |s| && r == s[|s| - |r|..]
    ensures r == [] || !IsSpace(r[0])
    ensures forall i :: 0 <= i < |s| - |r| ==> IsSpace(s[i])
  {
    if |s| > 0 && IsSpace(s[0]) then TrimStart(s[1..]) else s
  }

  function TrimEnd(s: string): (r: string)
    ensures |r| <= |s| && r == s[..|r|]
    ensures r == [] || !IsSpace(r[|r| - 1])
    ensures forall i :: |r| <= i < |s| ==> IsSpace(s[i])
  {
    if |s| > 0 && IsSpace(s[|s| - 1]) then TrimEnd(s[..|s| - 1]) else s
  }

  /** Python `s.strip()`: the infix of `s` left after removing whitespace at both ends. */
  function Strip(s: string): (r: string)
    ensures Unpadded(r)
    ensures IsInfix(r, s)
  {
    var t := TrimStart(s);
    var r := TrimEnd(t);
    assert r == s[|s| - |t|..][..|r|];
    assert OccursAt(s, r, |s| - |t|);
    r
  }

  /** `r` occurs in `s` as a contiguous run of characters. */
  predicate IsInfix(r: string, s: string) {
    exists i :: 0 <= i <= |s| - |r| && OccursAt(s, r, i)
  }

  /** `sub` occurs in `s` starting at index `i`. */
  predicate OccursAt(s: string, sub: string, i: int) {
    0 <= i <= |s| - |sub| && s[i..i + |sub|] == sub
  }

  lemma StripUnpadded(s: string)
    requires Unpadded(s)
    ensures Strip(s) == s
  {
  }

  predicate AllSpace(s: string) {
    forall i :: 0 <= i < |s| ==> IsSpace(s[i])
  }

  /** `strip()` leaves nothing exactly when every character is whitespace. */
  lemma StripEmpty(s: string)
    ensures Strip(s) == [] <==> AllSpace(s)
  {
    var t := TrimStart(s);
    if t != [] {
      assert !IsSpace(s[|s| - |t|]);
      assert !IsSpace(t[0]);
    }
  }

  lemma AllSpaceAppend(a: string, b: string)
    ensures AllSpace(a + b) <==> AllSpace(a) && AllSpace(b)
  {
    if AllSpace(a) && AllSpace(b) {
      forall i | 0 <= i < |a + b| ensures IsSpace((a + b)[i]) {
        if i >= |a| {
          assert (a + b)[i] == b[i - |a|];
        }
      }
    }
    if AllSpace(a + b) {
      forall i | 0 <= i < |a| ensures IsSpace(a[i]) {
        assert a[i] == (a + b)[i];
      }
      forall i | 0 <= i < |b| ensures IsSpace(b[i]) {
        assert b[i] == (a + b)[|a| + i];
      }
    }
  }

  /** `s` with a suffix and/or prefix of whitespace strips to the same thing. */
  lemma StripSurrounded(pre: string, s: string, post: string)
    requires AllSpace(pre) && AllSpace(post)
    requires s != [] && Unpadded(s)
    ensures Strip(pre + s + post) == s
  {
    assert TrimStart(pre + s + post) == s + post by {
      assert pre + s + post == pre + (s + post);
      TrimStartSpaces(pre, s + post);
    }
    assert TrimEnd(s + post) == s by {
      TrimEndSpaces(s, post);
    }
  }

  /** Stripping a line whose ends are not whitespace removes only its newline. */
  lemma StripLine(line: string, end: string)
    requires line != [] && Unpadded(line)
    requires end == "" || end == "\n"
    ensures Strip(line + end) == line
  {
    if end == "" {
      assert line + end == line;
      StripUnpadded(line);
    } else {
      StripSurrounded([], line, end);
      assert [] + line + end == line + end;
    }
  }


  lemma TrimStartSpaces(pre: string, s: string)
    requires AllSpace(pre)
    requires s != [] && !IsSpace(s[0])
    ensures TrimStart(pre + s) == s
    decreases |pre|
  {
    if pre != [] {
      assert (pre + s)[1..] == pre[1..] + s;
      TrimStartSpaces(pre[1..], s);
    }
  }

  lemma TrimEndSpaces(s: string, post: string)
    requires AllSpace(post)
    requires s != [] && !IsSpace(s[|s| - 1])
    ensures TrimEnd(s + post) == s
    decreases |post|
  {
    if post != [] {
      assert (s + post)[..|s + post| - 1] == s + post[..|post| - 1];
      TrimEndSpaces(s, post[..|post| - 1]);
    }
  }

  function Spaces(n: nat): (r: string)
    ensures |r| == n
    ensures forall i :: 0 <= i < n ==> r[i] == ' '
  {
    seq(n, _ => ' ')
  }

  /** Python `s.ljust(w)`: `s` padded on the right with spaces up to width `w`;
      never shortened. */
  function LJust(s: string, w: int): (r: string)
    ensures |r| == if |s| >= w then |s| else w
    ensures r[..|s|] == s
    ensures forall i :: |s| <= i < |r| ==> r[i] == ' '
  {
    if |s| >= w then s else s + Spaces(w - |s|)
  }

  /** Python `s[:n]`, including the negative-`n` case that counts from the end. */
  function PyPrefix(s: string, n: int): (r: string)
    ensures |r| == if n >= 0 then (if n <= |s| then n else |s|)
                  else (if -n <= |s| then |s| + n else 0)
    ensures r == s[..|r|]
  {
    if n >= 0 then (if n <= |s| then s[..n] else s)
    else (if -n <= |s| then s[..|s| + n] else [])
  }

  /** Python `s[a:b]` for non-negative bounds: out-of-range bounds are clamped. */
  function PySlice(s: string, a: nat, b: nat): (r: string)
    ensures a <= b <= |s| ==> r == s[a..b]
    ensures |r| <= |s|
  {
    var lo := if a <= |s| then a else |s|;
    var hi := if b <= |s| then b else |s|;
    if lo <= hi then s[lo..hi] else []
  }

  function IndexOf(s: string, c: char): (i: nat)
    requires c in s
    ensures i < |s| && s[i] == c && c !in s[..i]
  {
    if s[0] == c then 0 else 1 + IndexOf(s[1..], c)
  }

  /** Python `xs.index(x)`: the position of the first `x`. */
  function FirstIndex(xs: seq<string>, x: string): (k: nat)
    requires x in xs
    ensures k < |xs| && xs[k] == x && x !in xs[..k]
  {
    if xs[0] == x then 0 else 1 + FirstIndex(xs[1..], x)
  }

  /** No text occurs twice. */
  predicate NoDuplicates(xs: seq<string>) {
    forall i, j :: 0 <= i < j < |xs| ==> xs[i] != xs[j]
  }

  /** Python `sep.join(parts)`. */
  function Join(parts: seq<string>, sep: string): string
  {
    if |parts| == 0 then ""
    else if |parts| == 1 then parts[0]
    else parts[0] + sep + Join(parts[1..], sep)
  }

  /** Python `s.split(c)` for a one-character separator: the pieces between
      occurrences of `c`, always at least one. */
  function Split(s: string, c: char): (parts: seq<string>)
    ensures |parts| >= 1
    ensures forall i :: 0 <= i < |parts| ==> c !in parts[i]
    ensures Join(parts, [c]) == s
    decreases |s|
  {
    if c !in s then [s]
    else
      var i := IndexOf(s, c);
      var rest := Split(s[i + 1..], c);
      assert ([s[..i]] + rest)[1..] == rest;
      assert s == s[..i] + [c] + s[i + 1..];
      [s[..i]] + rest
  }

  lemma SplitCons(x: string, c: char, y: string)
    requires c !in x
    ensures Split(x + [c] + y, c) == [x] + Split(y, c)
  {
    var s := x + [c] + y;
    assert s[|x|] == c;
    assert c in s;
    var i := IndexOf(s, c);
    assert i == |x|;
    assert s[..i] == x;
    assert s[i + 1..] == y;
  }

  /** `split` undoes `join` when no piece contains the separator. */
  lemma {:induction false} SplitJoin(parts: seq<string>, c: char)
    requires |parts| >= 1
    requires forall i :: 0 <= i < |parts| ==> c !in parts[i]
    ensures Split(Join(parts, [c]), c) == parts
    decreases |parts|
  {
    if |parts| == 1 {
      assert Join(parts, [c]) == parts[0];
    } else {
      var rest := parts[1..];
      assert Join(parts, [c]) == parts[0] + [c] + Join(rest, [c]);
      SplitCons(parts[0], c, Join(rest, [c]));
      SplitJoin(rest, c);
      assert parts == [parts[0]] + rest;
    }
  }

  /** A character in none of the pieces and not in the separator is not in the join. */
  lemma {:induction false} JoinKeepsOut(parts: seq<string>, sep: string, c: char)
    requires c !in sep
    requires forall i :: 0 <= i < |parts| ==> c !in parts[i]
    ensures c !in Join(parts, sep)
    decreases |parts|
  {
    if |parts| > 1 {
      JoinKeepsOut(parts[1..], sep, c);
    }
  }

  /** The join starts with the first piece's first character ... */
  lemma JoinStart(parts: seq<string>, sep: string)
    requires |parts| >= 1 && parts[0] != []
    ensures Join(parts, sep) != [] && Join(parts, sep)[0] == parts[0][0]
  {
    if |parts| > 1 {
      assert Join(parts, sep) == parts[0] + (sep + Join(parts[1..], sep));
    }
  }

  /** ... and ends with the last piece's last character. */
  lemma {:induction false} JoinEnd(parts: seq<string>, sep: string)
    requires |parts| >= 1 && parts[|parts| - 1] != []
    ensures Join(parts, sep) != []
    ensures Join(parts, sep)[|Join(parts, sep)| - 1] == parts[|parts| - 1][|parts[|parts| - 1]| - 1]
    decreases |parts|
  {
    if |parts| > 1 {
      JoinEnd(parts[1..], sep);
      assert Join(parts, sep) == (parts[0] + sep) + Join(parts[1..], sep);
    }
  }

  /** Python `sub in s`. */
  predicate Contains(s: string, sub: string) {
    IsInfix(sub, s)
  }

  lemma OccursAtChar(s: string, c: char, i: int)
    requires 0 <= i < |s|
    ensures OccursAt(s, [c], i) ==> s[i] == c
  {
    assert s[i..i + 1][0] == s[i];
  }

  /** Text without a character does not contain it. */
  lemma NoCharNoMatch(s: string, c: char)
    requires c !in s
    ensures !Contains(s, [c])
  {
    forall i | 0 <= i <= |s| - 1 ensures !OccursAt(s, [c], i) {
      OccursAtChar(s, c, i);
    }
  }

  predicate StartsWith(s: string, pre: string) {
    |pre| <= |s| && s[..|pre|] == pre
  }

  /** Text does not start with a prefix whose first character it lacks. */
  lemma FirstCharDiffers(s: string, pre: string)
    requires s != [] && pre != [] && s[0] != pre[0]
    ensures !StartsWith(s, pre)
  {
    if |pre| <= |s| {
      assert s[..|pre|][0] == s[0];
    }
  }

  predicate EndsWith(s: string, suffix: string) {
    |suffix| <= |s| && s[|s| - |suffix|..] == suffix
  }

  /** A suffix of a tail of `s` is a suffix of `s`. */
  lemma EndsWithTail(s: string, k: nat, r: string)
    requires k <= |s| && EndsWith(s[k..], r)
    ensures EndsWith(s, r)
  {
    assert s[k..][|s[k..]| - |r|..] == s[|s| - |r|..];
  }

  function LowerChar(c: char): char {
    if 'A' <= c <= 'Z' then (c as int + 32) as char else c
  }

  /** Python `s.lower()` on ASCII letters; other characters are kept. */
  function Lower(s: string): (r: string)
    ensures |r| == |s|
    ensures forall i :: 0 <= i < |s| ==> r[i] == LowerChar(s[i])
  {
    seq(|s|, i requires 0 <= i < |s| => LowerChar(s[i]))
  }

  function UpperChar(c: char): char {
    if 'a' <= c <= 'z' then (c as int - 32) as char else c
  }

  /** Python `s.upper()` on ASCII letters; other characters are kept. */
  function Upper(s: string): (r: string)
    ensures |r| == |s|
    ensures forall i :: 0 <= i < |s| ==> r[i] == UpperChar(s[i])
  {
    seq(|s|, i requires 0 <= i < |s| => UpperChar(s[i]))
  }

  /** Python `s.replace(pat, repl)`: every non-overlapping occurrence, left to
      right; an empty `pat` inserts `repl` around every character. */
  function ReplaceAll(s: string, pat: string, repl: string): (r: string)
    decreases |s|
  {
    if |pat| == 0 then
      (if s == [] then repl else repl + [s[0]] + ReplaceAll(s[1..], pat, repl))
    else if StartsWith(s, pat) then repl + ReplaceAll(s[|pat|..], pat, repl)
    else if s == [] then []
    else [s[0]] + ReplaceAll(s[1..], pat, repl)
  }

  /** `replace` leaves text without the pattern unchanged. */
  lemma {:induction false} ReplaceAbsent(s: string, pat: string, repl: string)
    requires |pat| > 0 && !Contains(s, pat)
    ensures ReplaceAll(s, pat, repl) == s
    decreases |s|
  {
    if s != [] {
      assert !StartsWith(s, pat) by {
        if StartsWith(s, pat) {
          assert OccursAt(s, pat, 0);
        }
      }
      assert !Contains(s[1..], pat) by {
        if Contains(s[1..], pat) {
          var i :| 0 <= i <= |s[1..]| - |pat| && OccursAt(s[1..], pat, i);
          assert s[i + 1..i + 1 + |pat|] == s[1..][i..i + |pat|];
          assert OccursAt(s, pat, i + 1);
        }
      }
      ReplaceAbsent(s[1..], pat, repl);
      assert s == [s[0]] + s[1..];
    }
  }

  /** One step of `replace`: a match is replaced ... */
  lemma ReplaceMatch(s: string, pat: string, repl: string)
    requires |pat| > 0 && StartsWith(s, pat)
    ensures ReplaceAll(s, pat, repl) == repl + ReplaceAll(s[|pat|..], pat, repl)
  {
  }

  /** ... and any other character is kept. */
  lemma ReplaceSkip(s: string, pat: string, repl: string)
    requires |pat| > 0 && s != [] && !StartsWith(s, pat)
    ensures ReplaceAll(s, pat, repl) == [s[0]] + ReplaceAll(s[1..], pat, repl)
  {
  }

  /** Reading a file in text mode with universal newlines: `\r\n` and a lone
      `\r` both become `\n`. */
  function UniversalNewlines(s: string): (r: string)
    ensures '\r' !in r
    ensures '\r' !in s ==> r == s
    decreases |s|
  {
    if s == [] then []
    else if s[0] == '\r' then
      (if |s| >= 2 && s[1] == '\n' then "\n" + UniversalNewlines(s[2..])
       else "\n" + UniversalNewlines(s[1..]))
    else
      assert '\r' !in s ==> '\r' !in s[1..];
      [s[0]] + UniversalNewlines(s[1..])
  }

  function Concat(ss: seq<string>): string {
    if ss == [] then "" else ss[0] + Concat(ss[1..])
  }

  /** A character in none of the pieces is not in their concatenation. */
  lemma {:induction false} ConcatKeepsOut(ss: seq<string>, c: char)
    requires forall i :: 0 <= i < |ss| ==> c !in ss[i]
    ensures c !in Concat(ss)
    decreases |ss|
  {
    if ss != [] {
      ConcatKeepsOut(ss[1..], c);
    }
  }

  /** The lines `for line in file` yields: each keeps its `\n`, only the last
      may lack one, and none is empty. */
  function FileLines(s: string): (lines: seq<string>)
    ensures Concat(lines) == s
    ensures forall k :: 0 <= k < |lines| ==> lines[k] != []
    decreases |s|
  {
    if s == [] then []
    else if '\n' !in s then [s]
    else
      var i := IndexOf(s, '\n');
      var line, rest := s[..i + 1], FileLines(s[i + 1..]);
      var lines := [line] + rest;
      assert lines[1..] == rest;
      assert Concat(lines) == s by {
        assert s == line + s[i + 1..];
      }
      lines
  }

  /** Each line followed by a newline, as a writer emits them. */
  function Terminated(ls: seq<string>): (r: seq<string>)
    ensures |r| == |ls|
    ensures forall k :: 0 <= k < |ls| ==> r[k] == ls[k] + "\n"
  {
    if ls == [] then [] else [ls[0] + "\n"] + Terminated(ls[1..])
  }

  /** Lines ending in `\n` read back one by one. */
  lemma {:induction false} FileLinesOfTerminated(ls: seq<string>)
    requires forall k :: 0 <= k < |ls| ==> '\n' !in ls[k]
    ensures FileLines(Concat(Terminated(ls))) == Terminated(ls)
    decreases |ls|
  {
    if ls != [] {
      var t := Terminated(ls);
      assert t[1..] == Terminated(ls[1..]);
      FileLinesOfTerminated(ls[1..]);
      FileLinesCons(ls[0], Concat(t[1..]));
      assert Concat(t) == ls[0] + "\n" + Concat(t[1..]);
    }
  }

  lemma FileLinesCons(line: string, rest: string)
    requires '\n' !in line
    ensures FileLines(line + "\n" + rest) == [line + "\n"] + FileLines(rest)
  {
    var s := line + "\n" + rest;
    assert s[|line|] == '\n';
    var i := IndexOf(s, '\n');
    assert i == |line|;
    assert s[..i + 1] == line + "\n";
    assert s[i + 1..] == rest;
  }

  /** Lines joined by `\n`, as a writer emits them without a final newline,
      read back as those lines, each but the last keeping its `\n`. */
  lemma {:induction false} FileLinesOfJoin(ls: seq<string>)
    requires |ls| >= 1
    requires forall k :: 0 <= k < |ls| ==> ls[k] != [] && '\n' !in ls[k]
    ensures FileLines(Join(ls, "\n")) == Terminated(ls[..|ls| - 1]) + [ls[|ls| - 1]]
    decreases |ls|
  {
    if |ls| == 1 {
      assert Join(ls, "\n") == ls[0];
    } else {
      var rest := ls[1..];
      var joined := Join(rest, "\n");
      assert Join(ls, "\n") == ls[0] + "\n" + joined;
      FileLinesCons(ls[0], joined);
      forall k | 0 <= k < |rest| ensures rest[k] != [] && '\n' !in rest[k] {
        assert rest[k] == ls[k + 1];
      }
      FileLinesOfJoin(rest);
      var init, last := rest[..|rest| - 1], rest[|rest| - 1];
      InitCons(ls);
      assert ls[|ls| - 1] == last;
      TerminatedCons(ls[0], init);
      var first, t := [ls[0] + "\n"], Terminated(init);
      assert FileLines(Join(ls, "\n")) == first + (t + [last]);
      assert Terminated(ls[..|ls| - 1]) == first + t;
      AppendAssoc(first, t, [last]);
    }
  }

  /** Sequences agreeing at every index are equal. */
  lemma SameByIndex<T>(a: seq<T>, b: seq<T>)
    requires |a| == |b| && forall k :: 0 <= k < |a| ==> a[k] == b[k]
    ensures a == b
  {
  }

  lemma AppendAssoc<T>(a: seq<T>, b: seq<T>, c: seq<T>)
    ensures (a + b) + c == a + (b + c)
  {
  }

  lemma HeadTail<T>(s: seq<T>)
    requires |s| >= 1
    ensures [s[0]] + s[1..] == s
  {
  }

  lemma InitCons<T>(s: seq<T>)
    requires |s| >= 2
    ensures s[..|s| - 1] == [s[0]] + s[1..][..|s| - 2]
  {
  }

  lemma TerminatedCons(line: string, ls: seq<string>)
    ensures Terminated([line] + ls) == [line + "\n"] + Terminated(ls)
  {
    assert ([line] + ls)[0] == line && ([line] + ls)[1..] == ls;
  }
}

=== FILE: tpx.dfy ===
/** The two summary strings the data quality step stores for a night: the
    distinct PIs of the night's programs (`get_tpx_pi_str`) and the distinct
    `sdata` directory numbers their files came from (`get_tpx_sdata_str`),
    each joined with `/`, or `NONE` when that is empty. */
module Tpx {
  import opened Wrappers
  import opened Text

  /** One row of the night's program data: a file and its program's PI. */
  datatype ProgRow = ProgRow(file: string, progpi: string)

  // ---------------------------------------------------------------------
  // distinct items in order of first appearance

  /** The list the loop `if item not in items: items.append(item)` keeps. */
  function Distinct(xs: seq<string>): (r: seq<string>)
    ensures forall x :: x in r <==> x in xs
    ensures NoDuplicates(r)
    ensures |r| <= |xs|
  {
    if xs == [] then []
    else
      var d := Distinct(xs[..|xs| - 1]);
      var x := xs[|xs| - 1];
      assert xs == xs[..|xs| - 1] + [x];
      if x in d then d else d + [x]
  }

  lemma FirstIndexAppend(xs: seq<string>, y: string, x: string)
    requires x in xs
    ensures FirstIndex(xs + [y], x) == FirstIndex(xs, x)
  {
    var k := FirstIndex(xs, x);
    var ys := xs + [y];
    assert ys[k] == x && ys[..k] == xs[..k];
  }

  lemma FirstIndexLast(xs: seq<string>, y: string)
    requires y !in xs
    ensures FirstIndex(xs + [y], y) == |xs|
  {
    var ys := xs + [y];
    assert ys[|xs|] == y && ys[..|xs|] == xs;
  }

  /** Items are listed in the order they first appear. */
  lemma {:induction false} DistinctOrdered(xs: seq<string>)
    ensures forall i, j :: 0 <= i < j < |Distinct(xs)| ==> FirstIndex(xs, Distinct(xs)[i]) < FirstIndex(xs, Distinct(xs)[j])
    decreases |xs|
  {
    if xs != [] {
      var init, x := xs[..|xs| - 1], xs[|xs| - 1];
      DistinctOrdered(init);
      assert xs == init + [x];
      var d, r := Distinct(init), Distinct(xs);
      forall i, j | 0 <= i < j < |r| ensures FirstIndex(xs, r[i]) < FirstIndex(xs, r[j]) {
        assert r[i] == d[i] && d[i] in init;
        FirstIndexAppend(init, x, d[i]);
        if j < |d| {
          assert r[j] == d[j] && d[j] in init;
          FirstIndexAppend(init, x, d[j]);
          assert FirstIndex(init, d[i]) < FirstIndex(init, d[j]);
        } else {
          assert r[j] == x && x !in init;
          FirstIndexLast(init, x);
          assert FirstIndex(init, d[i]) < |init|;
        }
      }
    }
  }

  /** `'/'.join(items)`, or `NONE` when that is empty. */
  function JoinOrNone(items: seq<string>): (r: string)
    ensures items == [] ==> r == "NONE"
    ensures Join(items, "/") != "" ==> r == Join(items, "/")
  {
    var text := Join(items, "/");
    if text == "" then "NONE" else text
  }

  /** Items without `/` whose join is not empty split back out of it. */
  lemma JoinOrNoneSplits(items: seq<string>)
    requires Join(items, "/") != ""
    requires forall k :: 0 <= k < |items| ==> '/' !in items[k]
    ensures Split(JoinOrNone(items), '/') == items
  {
    SplitJoin(items, '/');
  }

  // ---------------------------------------------------------------------
  // get_tpx_pi_str

  function Pis(rows: seq<ProgRow>): (r: seq<string>)
    ensures |r| == |rows| && forall k :: 0 <= k < |rows| ==> r[k] == rows[k].progpi
  {
    seq(|rows|, k requires 0 <= k < |rows| => rows[k].progpi)
  }

  /** The night's distinct PIs, `/`-separated. */
  function PiStr(rows: seq<ProgRow>): (r: string)
    ensures rows == [] ==> r == "NONE"
  {
    JoinOrNone(Distinct(Pis(rows)))
  }

  /** PI names free of `/` read back from the string as the distinct PIs in
      order of first appearance. */
  lemma PiStrReadsBack(rows: seq<ProgRow>)
    requires forall k :: 0 <= k < |rows| ==> '/' !in rows[k].progpi
    requires Join(Distinct(Pis(rows)), "/") != ""
    ensures Split(PiStr(rows), '/') == Distinct(Pis(rows))
    ensures forall pi :: pi in Split(PiStr(rows), '/') <==> exists k :: 0 <= k < |rows| && rows[k].progpi == pi
  {
    var d := Distinct(Pis(rows));
    forall k | 0 <= k < |d| ensures '/' !in d[k] {
      assert d[k] in Pis(rows);
    }
    JoinOrNoneSplits(d);
  }

  // ---------------------------------------------------------------------
  // get_tpx_sdata_str: re.search(r'/sdata(.*?)/', path, re.I)

  /** Letters of `sdata` under `re.I`: either case, and for `s` also the
      long s (U+017F), which Unicode case folding maps to `s`. */
  predicate IsS(c: char) { c == 's' || c == 'S' || c == '\U{017F}' }
  predicate IsD(c: char) { c == 'd' || c == 'D' }
  predicate IsA(c: char) { c == 'a' || c == 'A' }
  predicate IsT(c: char) { c == 't' || c == 'T' }

  /** `/sdata` in any case starts at `p`. */
  predicate SdataAt(s: string, p: nat) {
    p + 6 <= |s| && s[p] == '/' && IsS(s[p + 1]) && IsD(s[p + 2]) && IsA(s[p + 3]) && IsT(s[p + 4]) && IsA(s[p + 5])
  }

  /** Where the lazy group `(.*?)/` closes: the first `/` from `i` on, so
      long as no line break (which `.` does not match) comes first. */
  function GroupEnd(s: string, i: nat): (r: Option<nat>)
    ensures r.Some? ==> i <= r.value < |s| && s[r.value] == '/'
    ensures r.Some? ==> forall k :: i <= k < r.value ==> s[k] != '/' && s[k] != '\n'
    ensures r.None? ==> forall k :: i <= k < |s| && s[k] == '/' ==> '\n' in s[i..k]
    decreases |s| - i
  {
    if i >= |s| then None
    else if s[i] == '/' then Some(i)
    else if s[i] == '\n' then None
    else
      var r := GroupEnd(s, i + 1);
      assert r.None? ==> forall k :: i < k < |s| && s[k] == '/' ==> s[i + 1..k] == s[i..k][1..];
      r
  }

  /** The pattern matched at position `p`, and its group. */
  function MatchAt(s: string, p: nat): (r: Option<string>)
    ensures r.Some? ==> '/' !in r.value && '\n' !in r.value
  {
    if !SdataAt(s, p) then None
    else match GroupEnd(s, p + 6)
      case None => None
      case Some(q) => Some(s[p + 6..q])
  }

  /** `re.search` from `p` on: the match at the leftmost position that has one. */
  function SearchFrom(s: string, p: nat): (r: Option<(nat, string)>)
    ensures r.Some? ==> p <= r.value.0 < |s| && MatchAt(s, r.value.0) == Some(r.value.1)
    ensures r.Some? ==> forall q :: p <= q < r.value.0 ==> MatchAt(s, q).None?
    ensures r.None? ==> forall q :: p <= q ==> MatchAt(s, q).None?
    decreases |s| - p
  {
    if p >= |s| then None
    else match MatchAt(s, p)
      case Some(g) => Some((p, g))
      case None => SearchFrom(s, p + 1)
  }

  /** The group of the first match in a path, if any. */
  function MatchOf(path: string): Option<string> {
    match SearchFrom(path, 0)
    case None => None
    case Some((_, g)) => Some(g)
  }

  /** The groups of the rows whose file path matches, in row order. */
  function SdataItems(rows: seq<ProgRow>): (r: seq<string>)
    ensures |r| <= |rows|
    ensures forall k :: 0 <= k < |r| ==> '/' !in r[k]
    ensures forall x :: x in r <==> exists k :: 0 <= k < |rows| && MatchOf(rows[k].file) == Some(x)
  {
    if rows == [] then []
    else
      var rest := SdataItems(rows[1..]);
      assert forall k :: 1 <= k < |rows| ==> rows[k] == rows[1..][k - 1];
      match MatchOf(rows[0].file)
      case None => rest
      case Some(g) => [g] + rest
  }

  /** The night's distinct `sdata` directory numbers, `/`-separated. */
  function SdataStr(rows: seq<ProgRow>): (r: string)
    ensures rows == [] ==> r == "NONE"
  {
    JoinOrNone(Distinct(SdataItems(rows)))
  }

  /** The directory numbers read back from the string as the distinct
      groups in order of first appearance. */
  lemma SdataStrReadsBack(rows: seq<ProgRow>)
    requires Join(Distinct(SdataItems(rows)), "/") != ""
    ensures Split(SdataStr(rows), '/') == Distinct(SdataItems(rows))
  {
    var d := Distinct(SdataItems(rows));
    forall k | 0 <= k < |d| ensures '/' !in d[k] {
      assert d[k] in SdataItems(rows);
    }
    JoinOrNoneSplits(d);
  }

  /** The group is what lies between `/sdata` and the next `/`, whatever
      the case of `sdata`. */
  lemma SearchExample()
    ensures MatchOf("/s/SData12/a") == Some("12")
    ensures MatchOf("/sdata12") == None
  {
    var s := "/s/SData12/a";
    assert !SdataAt(s, 0) && !SdataAt(s, 1);
    assert SdataAt(s, 2);
    assert GroupEnd(s, 10) == Some(10);
    assert GroupEnd(s, 8) == Some(10);
    assert s[8..10] == "12";
    assert MatchAt(s, 2) == Some("12");
    assert SearchFrom(s, 2) == Some((2, "12"));
    assert SearchFrom(s, 1) == SearchFrom(s, 2);
    var t := "/sdata12";
    assert GroupEnd(t, 8) == None;
    assert GroupEnd(t, 6) == None;
  }
}

=== FILE: validator.dfy ===
/** The per-value check every metadata cell goes through
    (`check_keyword_val`) and the exponent-keeping truncation it applies to
    `double` columns (`truncate_float`). */
module Validator {
  import opened Wrappers
  import opened Text
  import opened Values
  import opened Dates

  /** The upstream error text that is read as a null value. */
  const ErrorSentinel := "#### Error ###"

  /** `val in errVals`: the upstream error text becomes `'null'`. */
  function Coerce(v: Value): (r: Value)
    ensures v == Str(ErrorSentinel) ==> r == Str("null")
    ensures v != Str(ErrorSentinel) ==> r == v
  {
    if v == Str(ErrorSentinel) then Str("null") else v
  }

  /** `val == 'null' or val == ''`: only strings can compare equal. */
  predicate IsNullText(v: Value) {
    v == Str("null") || v == Str("")
  }

  // ---------------------------------------------------------------------
  // truncate_float

  predicate IsE(c: char) {
    c == 'e' || c == 'E'
  }

  predicate HasE(s: string) {
    exists i :: 0 <= i < |s| && IsE(s[i])
  }

  /** Index of the first `e`/`E` in `s`, or `|s|`. */
  function FirstE(s: string): (i: nat)
    ensures i <= |s|
    ensures forall k :: 0 <= k < i ==> !IsE(s[k])
    ensures i < |s| <==> HasE(s)
    ensures i < |s| ==> IsE(s[i])
  {
    if s == [] then 0 else if IsE(s[0]) then 0 else 1 + FirstE(s[1..])
  }

  /** `re.split('e', s, flags=re.IGNORECASE)`, keeping only what
      `truncate_float` reads: `parts[0]` and `'e' + parts[1]`. */
  function Mantissa(s: string): string
  {
    s[..FirstE(s)]
  }

  function Exponent(s: string): (exp: string)
    ensures HasE(s) ==> exp != [] && exp[0] == 'e'
    ensures !HasE(s) ==> exp == ""
  {
    if !HasE(s) then ""
    else
      var rest := s[FirstE(s) + 1..];
      "e" + rest[..FirstE(rest)]
  }

  /** `truncate_float(f, n)` applied to `s == '{}'.format(f)`: without an
      exponent the first `n` characters; with one, the mantissa shortened so
      that mantissa and exponent together take `n` characters. */
  function TruncateFloat(s: string, n: int): (r: string)
    ensures !HasE(s) ==> r == PyPrefix(s, n)
    ensures HasE(s) ==> EndsWith(r, Exponent(s))
    ensures HasE(s) ==> StartsWith(Mantissa(s), r[..|r| - |Exponent(s)|])
    ensures HasE(s) && |Exponent(s)| <= n ==> |r| <= n
    ensures HasE(s) && |Exponent(s)| > n ==> |r| > n
  {
    var exp := Exponent(s);
    var m := if HasE(s) then Mantissa(s) else s;
    var r := PyPrefix(m, n - |exp|) + exp;
    assert r[..|r| - |exp|] == PyPrefix(m, n - |exp|);
    r
  }

  /** Where the exponent does not fit, the result is wider than the column:
      `'1e-05'` cut to two characters is `'e-05'`. */
  lemma TruncateFloatOverflow()
    ensures TruncateFloat("1e-05", 2) == "e-05"
  {
    assert IsE("1e-05"[1]);
    assert FirstE("1e-05") == 1;
    assert FirstE("-05") == 3;
  }

  /** A float text without exponent is cut like any string. */
  lemma TruncateFloatPlain()
    ensures TruncateFloat("12.345678", 8) == "12.34567"
  {
    var s := "12.345678";
    assert forall i :: 0 <= i < |s| ==> !IsE(s[i]);
    assert PyPrefix(s, 8) == s[..8];
  }

  lemma FirstEAt(s: string, i: nat)
    requires i <= |s|
    requires forall k :: 0 <= k < i ==> !IsE(s[k])
    requires i < |s| ==> IsE(s[i])
    ensures FirstE(s) == i
  {
  }

  /** For `mantissa + 'e' + exponent digits` the exponent is kept whole and
      the mantissa gets what is left of the width. */
  lemma TruncateFloatSplit(m: string, x: string, n: int)
    requires !HasE(m) && !HasE(x)
    ensures Mantissa(m + "e" + x) == m && Exponent(m + "e" + x) == "e" + x
    ensures TruncateFloat(m + "e" + x, n) == PyPrefix(m, n - 1 - |x|) + "e" + x
  {
    var s := m + "e" + x;
    FirstEAt(s, |m|);
    assert s[|m| + 1..] == x;
    FirstEAt(x, |x|);
    assert Exponent(s) == "e" + x;
    assert Mantissa(s) == m;
  }

  // ---------------------------------------------------------------------
  // type check

  /** What the type check counts as a mismatch for a non-null value, by
      declared column type. A `date` or `datetime` value that is not a string
      is not here: it makes `strptime` raise instead. The `datetime` format
      uses the directives `%i`/`%s`, which `strptime` rejects, so every
      string counts. */
  predicate TypeMismatch(dataType: string, v: Value) {
    || (dataType == "char" && (v.Float? || (v.Int? && v.i != 0)))
    || (dataType == "integer" && !v.Int?)
    || (dataType == "double" && (v.Str? || v.Bool?))
    || (dataType == "date" && v.Str? && StrptimeDate(v.s).None?)
    || (dataType == "datetime" && v.Str?)
  }

  /** The value the type check hands on: in a `char` column booleans become
      `'T'`/`'F'` and the integer 0 becomes `''`; all else passes through. */
  function Typed(dataType: string, v: Value): Value {
    if dataType == "char" && v.Bool? then Str(if v.b then "T" else "F")
    else if dataType == "char" && v == Int(0) then Str("")
    else v
  }

  /** `strptime` raises `TypeError` on a value that is not a string. */
  predicate RaisesOnType(dataType: string, v: Value) {
    (dataType == "date" || dataType == "datetime") && !v.Str?
  }

  datatype TypeOutcome = TypeOutcome(v: Value, mismatch: bool)

  /** The `if/elif` chain on `fmt['dataType']`. */
  function TypeCheck(keyword: string, dataType: string, v: Value): (r: Result<TypeOutcome, Error>)
    ensures r.Failure? <==> RaisesOnType(dataType, v)
    ensures r.Failure? ==> r.error == StrptimeTypeError(keyword)
    ensures r.Success? ==> r.value.v == Typed(dataType, v)
    ensures r.Success? ==> (r.value.mismatch <==> TypeMismatch(dataType, v))
  {
    if dataType == "char" then
      match v
      case Bool(b) => Success(TypeOutcome(Str(if b then "T" else "F"), false))
      case Int(i) => if i == 0 then Success(TypeOutcome(Str(""), false)) else Success(TypeOutcome(v, true))
      case Str(_) => Success(TypeOutcome(v, false))
      case Float(_) => Success(TypeOutcome(v, true))
    else if dataType == "integer" then
      Success(TypeOutcome(v, v.Str? || v.Bool? || v.Float?))
    else if dataType == "double" then
      Success(TypeOutcome(v, !(v.Float? || v.Int?)))
    else if dataType == "date" then
      if v.Str? then Success(TypeOutcome(v, StrptimeDate(v.s).None?)) else Failure(StrptimeTypeError(keyword))
    else if dataType == "datetime" then
      if v.Str? then Success(TypeOutcome(v, true)) else Failure(StrptimeTypeError(keyword))
    else
      Success(TypeOutcome(v, false))
  }

  // ---------------------------------------------------------------------
  // width check

  /** The truncation step: a value whose text is wider than the column is
      cut (by `truncate_float` in a `double` column) and reported. */
  function Truncate(dataType: string, v: Value, colSize: nat): (r: (Value, bool))
    ensures r.1 <==> |PyStr(v)| > colSize
    ensures !r.1 ==> r.0 == v
    ensures r.1 ==> r.0.Str?
    ensures r.1 && dataType != "double" ==> |r.0.s| == colSize && StartsWith(PyStr(v), r.0.s)
    ensures r.1 && dataType == "double" && HasE(PyStr(v)) ==>
              EndsWith(r.0.s, Exponent(PyStr(v)))
    ensures r.1 && dataType == "double" && !HasE(PyStr(v)) ==>
              |r.0.s| == colSize && StartsWith(PyStr(v), r.0.s)
  {
    var s := PyStr(v);
    if |s| > colSize then
      if dataType == "double" then (Str(TruncateFloat(s, colSize)), true)
      else (Str(s[..colSize]), true)
    else (v, false)
  }

  /** Whether a truncated value fits its column: always, except in a `double`
      column whose exponent alone is wider than the column. */
  predicate ExponentFits(dataType: string, s: string, colSize: nat) {
    dataType != "double" || !HasE(s) || |Exponent(s)| <= colSize
  }

  /** Values already within the column pass unchanged and uncounted, so a
      truncated value that fits is left alone by a second truncation. */
  lemma TruncateIdempotent(dataType: string, v: Value, colSize: nat)
    requires ExponentFits(dataType, PyStr(v), colSize)
    ensures |PyStr(Truncate(dataType, v, colSize).0)| <= colSize
    ensures Truncate(dataType, Truncate(dataType, v, colSize).0, colSize)
         == (Truncate(dataType, v, colSize).0, false)
  {
  }

  // ---------------------------------------------------------------------
  // check_keyword_val

  datatype Checked = Checked(v: Value, warns: Warns)

  /** `check_keyword_val(keyword, val, fmt, warns)`: the value to write and
      the updated counters, or the exception raised. */
  function CheckKeywordVal(keyword: string, val: Value, spec: FieldSpec, warns: Warns): (r: Result<Checked, Error>)
    // the error cases
    ensures r == Failure(NullViolation(keyword)) <==> IsNullText(Coerce(val)) && spec.NotNull()
    ensures r == Failure(StrptimeTypeError(keyword)) <==> RaisesOnType(spec.dataType, val)
    ensures r.Failure? ==> r.error in {NullViolation(keyword), StrptimeTypeError(keyword)}
    // a permitted null is returned as it is and counts nothing
    ensures IsNullText(Coerce(val)) && !spec.NotNull() ==> r == Success(Checked(Coerce(val), warns))
    // each counter moves by at most one, for the stated reason
    ensures r.Success? ==>
              r.value.warns.typeCount == warns.typeCount +
                (if !IsNullText(Coerce(val)) && TypeMismatch(spec.dataType, val) then 1 else 0)
    ensures r.Success? ==>
              r.value.warns.truncCount == warns.truncCount +
                (if !IsNullText(Coerce(val)) && |PyStr(Typed(spec.dataType, val))| > spec.colSize then 1 else 0)
    // the value written
    ensures r.Success? && !IsNullText(Coerce(val)) && |PyStr(Typed(spec.dataType, val))| <= spec.colSize ==>
              r.value.v == Typed(spec.dataType, val)
    ensures r.Success? && !IsNullText(Coerce(val)) && ExponentFits(spec.dataType, PyStr(Typed(spec.dataType, val)), spec.colSize) ==>
              |PyStr(r.value.v)| <= spec.colSize
  {
    var c := Coerce(val);
    if IsNullText(c) then
      if spec.NotNull() then Failure(NullViolation(keyword)) else Success(Checked(c, warns))
    else
      var t :- TypeCheck(keyword, spec.dataType, c);
      var w := if t.mismatch then warns.(typeCount := warns.typeCount + 1) else warns;
      var (v, cut) := Truncate(spec.dataType, t.v, spec.colSize);
      Success(Checked(v, if cut then w.(truncCount := w.truncCount + 1) else w))
  }

  /** In a `char` column a boolean is written `T`/`F` and the integer 0 as an
      empty string, neither counted as a mismatch. */
  lemma CharCoercions(keyword: string, spec: FieldSpec, warns: Warns, b: bool)
    requires spec.dataType == "char" && spec.colSize >= 1
    ensures CheckKeywordVal(keyword, Bool(b), spec, warns) == Success(Checked(Str(if b then "T" else "F"), warns))
    ensures CheckKeywordVal(keyword, Int(0), spec, warns) == Success(Checked(Str(""), warns))
  {
  }

  /** A value that is not a string, other than a boolean or 0, raises the
      type counter of a `char` column by exactly one. */
  lemma CharOtherTypesCount(keyword: string, spec: FieldSpec, warns: Warns, v: Value)
    requires spec.dataType == "char"
    requires v.Float? || (v.Int? && v.i != 0)
    ensures CheckKeywordVal(keyword, v, spec, warns).Success?
    ensures CheckKeywordVal(keyword, v, spec, warns).value.warns.typeCount == warns.typeCount + 1
  {
  }

  /** Every non-null string in a `datetime` column counts as a mismatch. */
  lemma DatetimeAlwaysMismatch(keyword: string, spec: FieldSpec, warns: Warns, s: string)
    requires spec.dataType == "datetime"
    requires !IsNullText(Coerce(Str(s)))
    ensures CheckKeywordVal(keyword, Str(s), spec, warns).Success?
    ensures CheckKeywordVal(keyword, Str(s), spec, warns).value.warns.typeCount == warns.typeCount + 1
  {
  }

  /** Whether a value fails its check does not depend on the counters. */
  lemma FailureIgnoresWarns(keyword: string, val: Value, spec: FieldSpec, w1: Warns, w2: Warns)
    ensures CheckKeywordVal(keyword, val, spec, w1).Failure? == CheckKeywordVal(keyword, val, spec, w2).Failure?
  {
  }

  /** Checking a value that came out of a check again writes the same thing
      and counts no new truncation, provided its exponent fit the first time. */
  lemma RecheckIsNoop(keyword: string, val: Value, spec: FieldSpec, warns: Warns)
    requires CheckKeywordVal(keyword, val, spec, warns).Success?
    requires !IsNullText(Coerce(val))
    requires ExponentFits(spec.dataType, PyStr(Typed(spec.dataType, val)), spec.colSize)
    requires !IsNullText(Coerce(CheckKeywordVal(keyword, val, spec, warns).value.v))
    ensures var c := CheckKeywordVal(keyword, val, spec, warns).value;
            var again := CheckKeywordVal(keyword, c.v, spec, c.warns);
            again.Success? ==> again.value.v == c.v && again.value.warns.truncCount == c.warns.truncCount
  {
    var c := CheckKeywordVal(keyword, val, spec, warns).value;
    assert Typed(spec.dataType, c.v) == c.v;
  }
}

=== FILE: values.dfy ===
/** The data the metadata engine works on: header values as Python hands
    them over (a tagged variant instead of runtime types), the schema rows of
    a keywords format file, the run's warning counters and the exceptions
    the engine raises. */
module Values {
  import opened Text

  /** A header or extra value as Python sees it: `str`, `int`, `bool` or
      `float`. A float is kept as the text Python's `str()` gives for it;
      its numeric value never matters to the engine. */
  datatype Value = Str(s: string) | Int(i: int) | Bool(b: bool) | Float(repr: string)

  /** A header card's value: a value, or astropy's `fits.Undefined`. A keyword
      missing from both lookups is the third case, "absent". */
  datatype Cell = Defined(v: Value) | Undefined

  predicate IsDigit(c: char) {
    '0' <= c <= '9'
  }

  function DigitChar(d: nat): (c: char)
    requires d < 10
    ensures IsDigit(c) && c as int - '0' as int == d
  {
    ('0' as int + d) as char
  }

  /** Decimal digits of `n`, most significant first, without leading zeros. */
  function NatToString(n: nat): (r: string)
    ensures r != [] && (forall i :: 0 <= i < |r| ==> IsDigit(r[i]))
    ensures |r| > 1 ==> r[0] != '0'
    ensures n < 10 <==> |r| == 1
  {
    if n < 10 then [DigitChar(n)] else NatToString(n / 10) + [DigitChar(n % 10)]
  }

  /** Python `str(i)` for an `int`. */
  function IntToString(i: int): (r: string)
    ensures r != []
    ensures i < 0 <==> r[0] == '-'
  {
    if i < 0 then "-" + NatToString(-i) else NatToString(i)
  }

  /** Python `str(v)` (equally `'{}'.format(v)`). */
  function PyStr(v: Value): string {
    match v
    case Str(s) => s
    case Int(i) => IntToString(i)
    case Bool(b) => if b then "True" else "False"
    case Float(repr) => repr
  }

  /** One row of a keywords format file: the column name, its declared type
      (`char`, `integer`, `double`, `date`, `datetime`; other text is kept and
      checked against nothing), its width, and `allowNull` (`N` forbids null). */
  datatype FieldSpec = FieldSpec(keyword: string, dataType: string, colSize: nat, allowNull: string) {
    predicate NotNull() {
      allowNull == "N"
    }
  }

  type Schema = seq<FieldSpec>

  /** The run's `warns` dictionary: data type mismatches and truncations. */
  datatype Warns = Warns(typeCount: nat, truncCount: nat)

  const NoWarns := Warns(0, 0)

  /** The exceptions the metadata engine raises. `StrptimeTypeError` is the
      `TypeError` `datetime.strptime` raises when a `date`/`datetime` column
      is handed a value that is not a string. */
  datatype Error =
    | ConfigError(keyword: string, colSize: nat)
    | NullViolation(keyword: string)
    | StrptimeTypeError(keyword: string)
}

=== FILE: wrappers.dfy ===
/** Failure-compatible wrappers used across the model: an optional value and
    a result that carries either a value or the exception the pipeline raises. */
module Wrappers {

  datatype Option<+T> = None | Some(value: T) {
    predicate IsFailure() {
      None?
    }

    function PropagateFailure<U>(): Option<U>
      requires None?
    {
      None
    }

    function Extract(): T
      requires Some?
    {
      value
    }

    function GetOr(default: T): T {
      match this
      case Some(v) => v
      case None => default
    }
  }

  datatype Result<+R, +E> = Success(value: R) | Failure(error: E) {
    predicate IsFailure() {
      Failure?
    }

    function PropagateFailure<U>(): Result<U, E>
      requires Failure?
    {
      Failure(error)
    }

    function Extract(): R
      requires Success?
    {
      value
    }
  }
}

=== FILE: writer.dfy ===
/** Writing a metadata table (`make_metadata`, `add_fits_metadata_line`)
    and the advisory keyword audit run on every header
    (`check_keyword_existance`, `is_keyword_skip`). The file is modelled as
    the text written to it, including what was written before an exception. */
module Writer {
  import opened Wrappers
  import opened Text
  import opened Values
  import opened Validator

  /** One source file: its header and the extra values supplied for it.
      The header is keyed by card keyword, which astropy stores upper-cased;
      the extra values are a plain dictionary. */
  datatype Record = Record(header: map<string, Cell>, extra: map<string, Cell>)

  /** The text written so far, the counters, and the exception that stopped
      the run, if any. */
  datatype Run = Run(text: string, warns: Warns, error: Option<Error>)

  // ---------------------------------------------------------------------
  // value lookup

  /** The key astropy's `Header` looks `keyword` up under: `keyword in header`
      and `header[keyword]` upper-case the keyword first. */
  function HeaderKey(keyword: string): string {
    Upper(keyword)
  }

  /** The value looked up for `keyword`: the header wins, whatever the case
      the keyword is written in; the extra values are consulted, by exact
      key, only when the header lacks the keyword; a keyword in neither, or
      a header value that is `fits.Undefined`, reads `'null'`. */
  function Resolve(rec: Record, keyword: string): (v: Value)
    ensures HeaderKey(keyword) in rec.header && rec.header[HeaderKey(keyword)].Defined? ==> v == rec.header[HeaderKey(keyword)].v
    ensures HeaderKey(keyword) !in rec.header && keyword in rec.extra && rec.extra[keyword].Defined? ==> v == rec.extra[keyword].v
    ensures (HeaderKey(keyword) in rec.header && rec.header[HeaderKey(keyword)].Undefined?) ==> v == Str("null")
    ensures HeaderKey(keyword) !in rec.header && keyword !in rec.extra ==> v == Str("null")
  {
    var key := HeaderKey(keyword);
    var cell := if key in rec.header then rec.header[key]
                else if keyword in rec.extra then rec.extra[keyword]
                else Defined(Str("null"));
    if cell.Undefined? then Str("null") else cell.v
  }

  /** A header value hides whatever the extra values hold for the same keyword. */
  lemma HeaderShadowsExtra(rec: Record, keyword: string, extra: map<string, Cell>)
    requires HeaderKey(keyword) in rec.header
    ensures Resolve(rec.(extra := extra), keyword) == Resolve(rec, keyword)
  {
  }

  /** Two spellings of a keyword that differ only in letter case find the
      same header value. */
  lemma ResolveIgnoresCase(rec: Record, keyword: string, other: string)
    requires Upper(keyword) == Upper(other) && HeaderKey(keyword) in rec.header
    ensures Resolve(rec, keyword) == Resolve(rec, other)
  {
  }

  /** A lower-case column keyword finds the upper-case header card. */
  lemma ResolveLowerCase()
    ensures Resolve(Record(map["KOAID" := Defined(Str("x"))], map[]), "koaid") == Str("x")
  {
    assert Upper("koaid") == "KOAID";
  }

  // ---------------------------------------------------------------------
  // the preamble

  function PipeCells(cells: seq<string>): (r: string)
    ensures |r| == CellsWidth(cells)
  {
    if cells == [] then "" else "|" + cells[0] + PipeCells(cells[1..])
  }

  function CellsWidth(cells: seq<string>): nat {
    if cells == [] then 0 else 1 + |cells[0]| + CellsWidth(cells[1..])
  }

  /** One preamble row without its newline: `'|' + text.ljust(colSize)` per
      column and a closing `'|'`. */
  function PipeRow(schema: Schema, texts: seq<string>): (r: string)
    requires |texts| == |schema|
    ensures r != [] && r[0] == '|' && r[|r| - 1] == '|'
  {
    PipeCells(Padded(schema, texts)) + "|"
  }

  function Padded(schema: Schema, texts: seq<string>): (r: seq<string>)
    requires |texts| == |schema|
    ensures |r| == |schema|
    ensures forall i :: 0 <= i < |r| ==> r[i] == LJust(texts[i], schema[i].colSize)
  {
    seq(|schema|, i requires 0 <= i < |schema| => LJust(texts[i], schema[i].colSize))
  }

  function Keywords(schema: Schema): (r: seq<string>)
    ensures |r| == |schema| && forall i :: 0 <= i < |r| ==> r[i] == schema[i].keyword
  {
    seq(|schema|, i requires 0 <= i < |schema| => schema[i].keyword)
  }

  function TypeNames(schema: Schema): (r: seq<string>)
    ensures |r| == |schema| && forall i :: 0 <= i < |r| ==> r[i] == schema[i].dataType
  {
    seq(|schema|, i requires 0 <= i < |schema| => schema[i].dataType)
  }

  /** The fourth preamble row: blank for columns that forbid null, `null`
      for the others. */
  function NullMarkers(schema: Schema): (r: seq<string>)
    ensures |r| == |schema|
    ensures forall i :: 0 <= i < |r| ==> (r[i] == "" <==> schema[i].NotNull())
    ensures forall i :: 0 <= i < |r| ==> (r[i] == "null" <==> !schema[i].NotNull())
  {
    seq(|schema|, i requires 0 <= i < |schema| => if schema[i].NotNull() then "" else "null")
  }

  /** The first preamble row: the column names. */
  function NameRow(schema: Schema): string {
    PipeRow(schema, Keywords(schema))
  }

  /** The third preamble row's texts: the units, left blank. */
  function Blanks(schema: Schema): (r: seq<string>)
    ensures |r| == |schema| && forall i :: 0 <= i < |r| ==> r[i] == ""
  {
    seq(|schema|, _ => "")
  }

  /** The four preamble rows: names, types, (blank) units, null markers. */
  function PreambleRows(schema: Schema): (rows: seq<string>)
    ensures |rows| == 4
  {
    [ NameRow(schema),
      PipeRow(schema, TypeNames(schema)),
      PipeRow(schema, Blanks(schema)),
      PipeRow(schema, NullMarkers(schema)) ]
  }

  /** The name row is exactly one `|`, then `colSize` characters, per column,
      and a closing `|`, when every keyword fits its column. */
  lemma NameRowWidth(schema: Schema)
    requires forall i :: 0 <= i < |schema| ==> |schema[i].keyword| <= schema[i].colSize
    ensures |NameRow(schema)| == RowWidth(schema) + 1
  {
    PaddedWidth(schema, Keywords(schema));
  }

  /** The columns' widths plus one separator each. */
  function RowWidth(schema: Schema): nat {
    if schema == [] then 0 else schema[0].colSize + 1 + RowWidth(schema[1..])
  }

  lemma {:induction false} PaddedWidth(schema: Schema, texts: seq<string>)
    requires |texts| == |schema|
    requires forall i :: 0 <= i < |schema| ==> |texts[i]| <= schema[i].colSize
    ensures CellsWidth(Padded(schema, texts)) == RowWidth(schema)
    decreases |schema|
  {
    if schema != [] {
      assert Padded(schema, texts)[1..] == Padded(schema[1..], texts[1..]);
      PaddedWidth(schema[1..], texts[1..]);
    }
  }

  // ---------------------------------------------------------------------
  // the schema width check

  predicate Overwide(f: FieldSpec) {
    |f.keyword| > f.colSize
  }

  /** The first schema row whose keyword is wider than its column. */
  function FirstOverwide(schema: Schema): (r: Option<nat>)
    ensures r.None? <==> forall i :: 0 <= i < |schema| ==> !Overwide(schema[i])
    ensures r.Some? ==> r.value < |schema| && Overwide(schema[r.value])
    ensures r.Some? ==> forall j :: 0 <= j < r.value ==> !Overwide(schema[j])
  {
    if schema == [] then None
    else if Overwide(schema[0]) then Some(0)
    else match FirstOverwide(schema[1..])
      case None => None
      case Some(i) => Some(i + 1)
  }

  // ---------------------------------------------------------------------
  // one record line

  /** The check of one field of one record, on fresh counters. */
  function CheckField(f: FieldSpec, rec: Record): Result<Checked, Error> {
    CheckKeywordVal(f.keyword, Resolve(rec, f.keyword), f, NoWarns)
  }

  predicate FieldFails(f: FieldSpec, rec: Record) {
    CheckField(f, rec).Failure?
  }

  /** Field `i` is the first of the record to raise. */
  predicate FirstFailure(schema: Schema, rec: Record, i: int) {
    0 <= i < |schema| && FieldFails(schema[i], rec) && forall j :: 0 <= j < i ==> !FieldFails(schema[j], rec)
  }

  predicate RecordOk(schema: Schema, rec: Record) {
    forall i :: 0 <= i < |schema| ==> !FieldFails(schema[i], rec)
  }

  /** Whether the value written for a field fits its column. */
  predicate FieldFits(f: FieldSpec, rec: Record) {
    CheckField(f, rec).Success? ==> |PyStr(CheckField(f, rec).value.v)| <= f.colSize
  }

  /** The counters a check adds do not depend on the counters it starts from. */
  lemma CheckShift(keyword: string, v: Value, f: FieldSpec, w: Warns)
    ensures var a := CheckKeywordVal(keyword, v, f, w);
            var b := CheckKeywordVal(keyword, v, f, NoWarns);
            && a.Failure? == b.Failure?
            && (a.Failure? ==> a.error == b.error)
            && (a.Success? ==>
                  (a.value.v == b.value.v
                   && a.value.warns.typeCount == w.typeCount + b.value.warns.typeCount
                   && a.value.warns.truncCount == w.truncCount + b.value.warns.truncCount))
  {
  }

  /** Type mismatches and truncations one record contributes. */
  function TypeHits(schema: Schema, rec: Record): nat {
    if schema == [] then 0
    else (if CheckField(schema[0], rec).Success? then CheckField(schema[0], rec).value.warns.typeCount else 0)
         + TypeHits(schema[1..], rec)
  }

  function TruncHits(schema: Schema, rec: Record): nat {
    if schema == [] then 0
    else (if CheckField(schema[0], rec).Success? then CheckField(schema[0], rec).value.warns.truncCount else 0)
         + TruncHits(schema[1..], rec)
  }

  /** The fields of one record line: `' ' + str(val).ljust(colSize)` per
      column, in schema order, stopping at the first exception. */
  function RenderFields(schema: Schema, rec: Record, warns: Warns): Run
    decreases |schema|
  {
    if schema == [] then Run("", warns, None)
    else
      var f := schema[0];
      match CheckKeywordVal(f.keyword, Resolve(rec, f.keyword), f, warns)
      case Failure(e) => Run("", warns, Some(e))
      case Success(c) =>
        var rest := RenderFields(schema[1..], rec, c.warns);
        Run(" " + LJust(PyStr(c.v), f.colSize) + rest.text, rest.warns, rest.error)
  }

  /** A record line is complete exactly when no field raises, and otherwise
      it stops with the exception of the first field that does. */
  lemma {:induction false} RenderFieldsOutcome(schema: Schema, rec: Record, warns: Warns)
    ensures RenderFields(schema, rec, warns).error.None? <==> RecordOk(schema, rec)
    ensures RenderFields(schema, rec, warns).error.Some? ==>
              exists i :: FirstFailure(schema, rec, i)
                && RenderFields(schema, rec, warns).error.value == CheckField(schema[i], rec).error
    decreases |schema|
  {
    if schema != [] {
      var f := schema[0];
      CheckShift(f.keyword, Resolve(rec, f.keyword), f, warns);
      var a := CheckKeywordVal(f.keyword, Resolve(rec, f.keyword), f, warns);
      if a.Failure? {
        assert FirstFailure(schema, rec, 0);
      } else {
        RenderFieldsOutcome(schema[1..], rec, a.value.warns);
        var rest := RenderFields(schema[1..], rec, a.value.warns);
        assert RecordOk(schema, rec) <==> RecordOk(schema[1..], rec) by {
          assert forall i :: 0 < i < |schema| ==> schema[i] == schema[1..][i - 1];
        }
        if rest.error.Some? {
          var i :| FirstFailure(schema[1..], rec, i) && rest.error.value == CheckField(schema[1..][i], rec).error;
          assert forall j :: 0 < j < i + 1 ==> schema[j] == schema[1..][j - 1];
          assert FirstFailure(schema, rec, i + 1);
        }
      }
    }
  }

  /** A complete record line adds to the counters exactly the mismatches
      and truncations of its fields. */
  lemma {:induction false} RenderFieldsWarns(schema: Schema, rec: Record, warns: Warns)
    requires RenderFields(schema, rec, warns).error.None?
    ensures RenderFields(schema, rec, warns).warns ==
              Warns(warns.typeCount + TypeHits(schema, rec), warns.truncCount + TruncHits(schema, rec))
    decreases |schema|
  {
    if schema != [] {
      var f := schema[0];
      CheckShift(f.keyword, Resolve(rec, f.keyword), f, warns);
      var a := CheckKeywordVal(f.keyword, Resolve(rec, f.keyword), f, warns);
      RenderFieldsWarns(schema[1..], rec, a.value.warns);
    }
  }

  /** A complete record line whose values all fit is exactly as wide as the
      columns plus one separator each. */
  lemma {:induction false} RenderFieldsWidth(schema: Schema, rec: Record, warns: Warns)
    requires RenderFields(schema, rec, warns).error.None?
    requires forall i :: 0 <= i < |schema| ==> FieldFits(schema[i], rec)
    ensures |RenderFields(schema, rec, warns).text| == RowWidth(schema)
    decreases |schema|
  {
    if schema != [] {
      var f := schema[0];
      CheckShift(f.keyword, Resolve(rec, f.keyword), f, warns);
      var a := CheckKeywordVal(f.keyword, Resolve(rec, f.keyword), f, warns);
      assert FieldFits(f, rec);
      assert forall i :: 0 <= i < |schema[1..]| ==> schema[1..][i] == schema[i + 1];
      RenderFieldsWidth(schema[1..], rec, a.value.warns);
    }
  }

  /** The value written for a field that does not raise. */
  function WrittenValue(f: FieldSpec, rec: Record): Value
    requires !FieldFails(f, rec)
  {
    CheckField(f, rec).value.v
  }

  /** The characters a field occupies in its record line. */
  function FieldBlock(f: FieldSpec, rec: Record): string
    requires !FieldFails(f, rec)
  {
    " " + LJust(PyStr(WrittenValue(f, rec)), f.colSize)
  }

  function RecordBlocks(schema: Schema, rec: Record): (r: seq<string>)
    requires RecordOk(schema, rec)
    ensures |r| == |schema|
    ensures forall i :: 0 <= i < |schema| ==> r[i] == FieldBlock(schema[i], rec)
  {
    seq(|schema|, i requires 0 <= i < |schema| => FieldBlock(schema[i], rec))
  }

  /** A complete record line is its fields' blocks side by side, in schema
      order, whatever the counters it started from. */
  lemma {:induction false} RenderFieldsBlocks(schema: Schema, rec: Record, warns: Warns)
    requires RecordOk(schema, rec)
    ensures RenderFields(schema, rec, warns).text == Concat(RecordBlocks(schema, rec))
    decreases |schema|
  {
    if schema != [] {
      var f := schema[0];
      CheckShift(f.keyword, Resolve(rec, f.keyword), f, warns);
      assert !FieldFails(f, rec);
      var a := CheckKeywordVal(f.keyword, Resolve(rec, f.keyword), f, warns);
      assert RecordOk(schema[1..], rec) by {
        assert forall i :: 0 <= i < |schema[1..]| ==> schema[1..][i] == schema[i + 1];
      }
      RenderFieldsBlocks(schema[1..], rec, a.value.warns);
      assert RecordBlocks(schema, rec)[1..] == RecordBlocks(schema[1..], rec);
    }
  }

  /** The text of a record line, and where it stops, do not depend on the
      counters. */
  lemma {:induction false} RenderTextIgnoresWarns(schema: Schema, rec: Record, w: Warns)
    ensures RenderFields(schema, rec, w).text == RenderFields(schema, rec, NoWarns).text
    ensures RenderFields(schema, rec, w).error == RenderFields(schema, rec, NoWarns).error
    decreases |schema|
  {
    if schema != [] {
      var f := schema[0];
      CheckShift(f.keyword, Resolve(rec, f.keyword), f, w);
      var a := CheckKeywordVal(f.keyword, Resolve(rec, f.keyword), f, w);
      var b := CheckKeywordVal(f.keyword, Resolve(rec, f.keyword), f, NoWarns);
      if a.Success? {
        RenderTextIgnoresWarns(schema[1..], rec, a.value.warns);
        RenderTextIgnoresWarns(schema[1..], rec, b.value.warns);
      }
    }
  }

  /** The record line written for `rec` (without its newline). */
  function RecordLine(schema: Schema, rec: Record): string {
    RenderFields(schema, rec, NoWarns).text
  }

  function RecordLines(schema: Schema, records: seq<Record>): (r: seq<string>)
    ensures |r| == |records|
    ensures forall k :: 0 <= k < |r| ==> r[k] == RecordLine(schema, records[k])
  {
    seq(|records|, k requires 0 <= k < |records| => RecordLine(schema, records[k]))
  }

  function SumTypeHits(schema: Schema, records: seq<Record>): nat {
    if records == [] then 0 else TypeHits(schema, records[0]) + SumTypeHits(schema, records[1..])
  }

  function SumTruncHits(schema: Schema, records: seq<Record>): nat {
    if records == [] then 0 else TruncHits(schema, records[0]) + SumTruncHits(schema, records[1..])
  }

  /** One line per record, in the order given, until a record raises. */
  function WriteRecords(schema: Schema, records: seq<Record>, warns: Warns): Run
    decreases |records|
  {
    if records == [] then Run("", warns, None)
    else
      var line := RenderFields(schema, records[0], warns);
      if line.error.Some? then line
      else
        var rest := WriteRecords(schema, records[1..], line.warns);
        Run(line.text + "\n" + rest.text, rest.warns, rest.error)
  }

  /** The records are all written exactly when none raises. */
  lemma {:induction false} WriteRecordsOk(schema: Schema, records: seq<Record>, warns: Warns)
    ensures WriteRecords(schema, records, warns).error.None? <==>
              forall k :: 0 <= k < |records| ==> RecordOk(schema, records[k])
    decreases |records|
  {
    if records != [] {
      var line := RenderFields(schema, records[0], warns);
      RenderFieldsOutcome(schema, records[0], warns);
      if line.error.None? {
        WriteRecordsOk(schema, records[1..], line.warns);
        assert forall k :: 0 <= k < |records| - 1 ==> records[1..][k] == records[k + 1];
      }
    }
  }

  /** A complete run writes one terminated line per record. */
  lemma {:induction false} WriteRecordsText(schema: Schema, records: seq<Record>, warns: Warns)
    requires WriteRecords(schema, records, warns).error.None?
    ensures WriteRecords(schema, records, warns).text == Concat(Terminated(RecordLines(schema, records)))
    decreases |records|
  {
    if records != [] {
      var line := RenderFields(schema, records[0], warns);
      RenderTextIgnoresWarns(schema, records[0], warns);
      WriteRecordsText(schema, records[1..], line.warns);
      assert RecordLines(schema, records)[1..] == RecordLines(schema, records[1..]);
      assert Terminated(RecordLines(schema, records))[1..] == Terminated(RecordLines(schema, records[1..]));
    }
  }

  /** The exception that stops a run is the first failing field's own. */
  lemma {:induction false} WriteRecordsError(schema: Schema, records: seq<Record>, warns: Warns)
    requires WriteRecords(schema, records, warns).error.Some?
    ensures exists k, i :: 0 <= k < |records| && FirstFailure(schema, records[k], i)
              && WriteRecords(schema, records, warns).error.value == CheckField(schema[i], records[k]).error
    decreases |records|
  {
    var line := RenderFields(schema, records[0], warns);
    RenderFieldsOutcome(schema, records[0], warns);
    if line.error.None? {
      WriteRecordsError(schema, records[1..], line.warns);
      var rest := WriteRecords(schema, records[1..], line.warns);
      var k, i :| 0 <= k < |records[1..]| && FirstFailure(schema, records[1..][k], i)
            && rest.error.value == CheckField(schema[i], records[1..][k]).error;
      assert records[k + 1] == records[1..][k];
    }
  }

  lemma WriteRecordsNoConfigError(schema: Schema, records: seq<Record>, warns: Warns)
    ensures WriteRecords(schema, records, warns).error.Some? ==>
              !WriteRecords(schema, records, warns).error.value.ConfigError?
  {
    if WriteRecords(schema, records, warns).error.Some? {
      WriteRecordsError(schema, records, warns);
    }
  }

  /** A complete run adds every record's mismatches and truncations. */
  lemma {:induction false} WriteRecordsWarns(schema: Schema, records: seq<Record>, warns: Warns)
    requires WriteRecords(schema, records, warns).error.None?
    ensures WriteRecords(schema, records, warns).warns ==
              Warns(warns.typeCount + SumTypeHits(schema, records), warns.truncCount + SumTruncHits(schema, records))
    decreases |records|
  {
    if records != [] {
      var line := RenderFields(schema, records[0], warns);
      RenderFieldsWarns(schema, records[0], warns);
      WriteRecordsWarns(schema, records[1..], line.warns);
    }
  }

  // ---------------------------------------------------------------------
  // make_metadata

  /** `make_metadata` over records supplied in walk order: the schema width
      check, the four preamble rows, then one line per record. A schema row
      too narrow for its keyword raises before anything is written; a record
      that raises leaves the lines before it, and its partial line, in the
      file. */
  function MakeMetadata(schema: Schema, records: seq<Record>): (r: Run)
    ensures (r.error.Some? && r.error.value.ConfigError?) <==> exists i :: 0 <= i < |schema| && Overwide(schema[i])
    ensures (exists i :: 0 <= i < |schema| && Overwide(schema[i])) ==> r.text == ""
  {
    match FirstOverwide(schema)
    case Some(i) => Run("", NoWarns, Some(ConfigError(schema[i].keyword, schema[i].colSize)))
    case None =>
      var body := WriteRecords(schema, records, NoWarns);
      WriteRecordsNoConfigError(schema, records, NoWarns);
      Run(Concat(Terminated(PreambleRows(schema))) + body.text, body.warns, body.error)
  }

  /** Once the schema is sound the preamble is written, whether or not a
      record raises afterwards. */
  lemma MakeMetadataPreamble(schema: Schema, records: seq<Record>)
    requires forall i :: 0 <= i < |schema| ==> !Overwide(schema[i])
    ensures StartsWith(MakeMetadata(schema, records).text, Concat(Terminated(PreambleRows(schema))))
  {
    var pre := Concat(Terminated(PreambleRows(schema)));
    var body := WriteRecords(schema, records, NoWarns);
    assert MakeMetadata(schema, records).text == pre + body.text;
    assert (pre + body.text)[..|pre|] == pre;
  }

  /** A run completes exactly when the schema is sound and no record raises. */
  lemma MakeMetadataComplete(schema: Schema, records: seq<Record>)
    ensures MakeMetadata(schema, records).error.None? <==>
              (forall i :: 0 <= i < |schema| ==> !Overwide(schema[i]))
              && (forall k :: 0 <= k < |records| ==> RecordOk(schema, records[k]))
  {
    WriteRecordsOk(schema, records, NoWarns);
  }

  /** A complete run leaves the four preamble rows and one line per record. */
  lemma MakeMetadataText(schema: Schema, records: seq<Record>)
    requires MakeMetadata(schema, records).error.None?
    ensures MakeMetadata(schema, records).text == Concat(Terminated(PreambleRows(schema) + RecordLines(schema, records)))
  {
    MakeMetadataBody(schema, records);
    ConcatTerminatedAppend(PreambleRows(schema), RecordLines(schema, records));
    WriteRecordsText(schema, records, NoWarns);
  }

  /** A complete run counts every record's mismatches and truncations. */
  lemma MakeMetadataWarns(schema: Schema, records: seq<Record>)
    requires MakeMetadata(schema, records).error.None?
    ensures MakeMetadata(schema, records).warns == Warns(SumTypeHits(schema, records), SumTruncHits(schema, records))
  {
    MakeMetadataBody(schema, records);
    WriteRecordsWarns(schema, records, NoWarns);
  }

  /** A complete run is the preamble followed by the record run. */
  lemma MakeMetadataBody(schema: Schema, records: seq<Record>)
    requires MakeMetadata(schema, records).error.None?
    ensures WriteRecords(schema, records, NoWarns).error.None?
    ensures MakeMetadata(schema, records) ==
              var body := WriteRecords(schema, records, NoWarns);
              Run(Concat(Terminated(PreambleRows(schema))) + body.text, body.warns, body.error)
  {
  }

  lemma {:induction false} ConcatTerminatedAppend(a: seq<string>, b: seq<string>)
    ensures Concat(Terminated(a + b)) == Concat(Terminated(a)) + Concat(Terminated(b))
    decreases |a|
  {
    if a != [] {
      assert (a + b)[1..] == a[1..] + b;
      ConcatTerminatedAppend(a[1..], b);
    } else {
      assert a + b == b;
    }
  }

  // ---------------------------------------------------------------------
  // check_keyword_existance

  const HeaderSkips: seq<string> := ["SIMPLE", "COMMENT", "PROGTL1", "PROGTL2", "PROGTL3"]
  const MissingSkips: seq<string> := ["PROGTITL", "PROPINT"]

  /** `is_keyword_skip`: some pattern occurs in the keyword (each pattern is
      a plain word, so `re.search` is a substring test). */
  function IsKeywordSkip(keyword: string, skips: seq<string>): (r: bool)
    ensures r <==> exists i :: 0 <= i < |skips| && Contains(keyword, skips[i])
  {
    if skips == [] then false
    else if Contains(keyword, skips[0]) then true
    else
      var r := IsKeywordSkip(keyword, skips[1..]);
      assert r ==> exists i :: 0 <= i < |skips| && Contains(keyword, skips[i]) by {
        if r {
          var i :| 0 <= i < |skips[1..]| && Contains(keyword, skips[1..][i]);
          assert skips[i + 1] == skips[1..][i];
        }
      }
      r
  }

  /** The header keywords reported as unknown to the schema. */
  function UnexpectedKeywords(header: map<string, Cell>, schema: Schema, instrSkips: seq<string>): (r: set<string>)
    ensures forall k :: k in r <==>
              && k in header
              && (forall i :: 0 <= i < |schema| ==> schema[i].keyword != k)
              && !(exists j :: 0 <= j < |HeaderSkips + instrSkips| && Contains(k, (HeaderSkips + instrSkips)[j]))
  {
    set k | k in header && k !in Keywords(schema) && !IsKeywordSkip(k, HeaderSkips + instrSkips)
  }

  /** The non-null schema keywords the header lacks, whatever their case,
      reported in schema order. */
  function MissingKeywords(header: map<string, Cell>, schema: Schema): (r: seq<string>)
    ensures forall k :: k in r <==>
              exists i :: 0 <= i < |schema| && schema[i].keyword == k
                && HeaderKey(k) !in header && k !in MissingSkips && schema[i].NotNull()
    ensures |r| <= |schema|
  {
    if schema == [] then []
    else
      var f := schema[0];
      var rest := MissingKeywords(header, schema[1..]);
      assert forall k :: k in rest <==>
              exists i :: 1 <= i < |schema| && schema[i].keyword == k
                && HeaderKey(k) !in header && k !in MissingSkips && schema[i].NotNull() by {
        forall k ensures k in rest <==>
              exists i :: 1 <= i < |schema| && schema[i].keyword == k
                && HeaderKey(k) !in header && k !in MissingSkips && schema[i].NotNull() {
          if k in rest {
            var i :| 0 <= i < |schema[1..]| && schema[1..][i].keyword == k
                && HeaderKey(k) !in header && k !in MissingSkips && schema[1..][i].NotNull();
            assert schema[i + 1] == schema[1..][i];
          }
          if exists i :: 1 <= i < |schema| && schema[i].keyword == k
                && HeaderKey(k) !in header && k !in MissingSkips && schema[i].NotNull() {
            var i :| 1 <= i < |schema| && schema[i].keyword == k
                && HeaderKey(k) !in header && k !in MissingSkips && schema[i].NotNull();
            assert schema[1..][i - 1] == schema[i];
          }
        }
      }
      if HeaderKey(f.keyword) !in header && f.keyword !in MissingSkips && f.NotNull() then [f.keyword] + rest
      else rest
  }

  /** What the two reports mean together: an unexpected keyword is in the
      header and defined by no column, so it is never also reported
      missing; and defining a reported keyword takes it, and only it, off
      the report. */
  lemma {:induction false} KeywordReports(header: map<string, Cell>, schema: Schema, instrSkips: seq<string>, f: FieldSpec)
    ensures UnexpectedKeywords(header, schema, instrSkips) <= header.Keys
    ensures forall i :: 0 <= i < |schema| ==> schema[i].keyword !in UnexpectedKeywords(header, schema, instrSkips)
    ensures forall k :: k in UnexpectedKeywords(header, schema, instrSkips) ==> k !in MissingKeywords(header, schema)
    ensures f.keyword in UnexpectedKeywords(header, schema, instrSkips) ==>
              UnexpectedKeywords(header, schema + [f], instrSkips) == UnexpectedKeywords(header, schema, instrSkips) - {f.keyword}
  {
    var u := UnexpectedKeywords(header, schema, instrSkips);
    if f.keyword in u {
      var s2 := schema + [f];
      assert s2[|schema|] == f;
      assert forall i :: 0 <= i < |schema| ==> s2[i] == schema[i];
      var u2 := UnexpectedKeywords(header, s2, instrSkips);
      forall k ensures k in u2 <==> k in u - {f.keyword} {
        if k in u2 {
          assert s2[|schema|].keyword != k;
        }
      }
    }
  }
}
